=== FILE: README.md ===
# notgit core in Dafny

notgit is a small Git-like version control system written in Go. This project
models its content-addressed object layer and the decision logic of its
commands, and proves properties of that model.

- **Objects.** Blobs, trees and commits have their own byte formats. Each has
  a serializer, a deserializer and a SHA-1 hash. SHA-1 is not modelled: every
  operation that hashes takes the hash function as a parameter `sha1`.
- **Object store.** The `.notgit/objects` directory is a map from the sharded
  path `xx/yyyy…` to the bytes stored there.
- **Index.** A map from path to entry, with upsert. Its JSON file is reduced
  to four cases: saved, missing, unreadable and garbled.
- **Repository.** HEAD, the refs and the other files under `.notgit` form a
  map from relative path to a file or a directory node. `HEAD` is either
  symbolic (`ref: refs/heads/<b>`) or detached (a hash). A ref path named
  by HEAD is cleaned as `filepath.Join` cleans it. A path or name is
  *plain* when none of its `/`-separated parts is empty, `.` or `..`, and
  cleaning leaves a plain path unchanged.
- **Commands.** `status`, `log`, `merge`, `switch`, `commit`, `branch` and
  `cat-file` are pure functions, or methods with loops, over that state. The
  working tree is a map from path to content. Every command returns its new
  state together with a `Result`.
- **Utilities.** The configuration key check `SplitKey` and the upward search
  for the repository root.

The model follows the code as written, including where it surprises:

- A blob's own `Hash` is SHA-1 of the raw content, while the store files the
  blob under SHA-1 of its header-prefixed bytes.
- A tree keeps pointers into a growing slice. An update made through a
  pointer that a reallocation left stale does not reach `Entries`.
- A deserialized commit loses its written time zone and takes the local one.
  The local zone is the parameter `localZone`.
- `isAncestor` indexes `ParentHashes[0]` unchecked. On a root commit this
  panics, which the model records as the error `Panic`.
- The order of a commit's tree follows Go's map iteration order. The model
  makes that order a nondeterministic choice.
- `LoadIndex` tests for a missing file with `==` against `os.ErrNotExist`,
  which never holds. A missing index therefore fails like an unreadable one.
- `Commit.Type()` returns `Commit`, capitalised, while the serialized header
  says `commit`.
- A merge from a detached HEAD resolves the current branch to "". It checks
  out the target tree, then fails to write `refs/heads` because that is a
  directory.
- A commit made on a detached HEAD stores its tree and commit objects, then
  fails to move HEAD.

Go panics, including those from unchecked slicing, are the error `Panic`.
Walks along parent chains and recursion into subtrees take a `fuel` bound;
when the bound runs out the result is the error `Exhausted`.

## Model

| member | source | states |
|---|---|---|
| Blob.Serialize | internal/objects/blob/blob.go:37-41 | The object bytes are `blob <size>`, one NUL, then the content unchanged. The first NUL is the header's, and the total length is header plus content. |
| Blob.DeserializeBlob | internal/objects/blob/blob.go:43-63 | Data without a NUL is rejected. On success the text before the first NUL scans as `blob <n>` with n the blob's size. The blob is NewBlob of the bytes after the first NUL, so size and hash are recomputed and never read from the input. |
| Blob.DeserializeSerialize | internal/objects/blob/blob.go:37-63 | Any content within the int64 range, NUL bytes included, reads back as the same blob: equal content, size and hash. |
| Blob.HashInputsDiffer | internal/objects/blob/blob.go:20-27 | A new blob's Hash is SHA-1 of the raw content, with no header. The bytes the blob serializes to never equal that raw content. |
| Scan.ScanBlobHeaderDecimal | internal/objects/blob/blob.go:50-55 | The header `blob <decimal n>` that Serialize writes scans back to n, the way `fmt.Sscanf(header, "blob %d")` reads it. |
| Tree.NewTree | internal/objects/tree/tree.go:34-39 | A new tree has no entries and no hash, every lookup misses, and the representation invariant holds. |
| Tree.GetEntry | internal/objects/tree/tree.go:61-66 | A lookup succeeds exactly for the names present in the tree, and returns an entry of that name. |
| Tree.AddEntry | internal/objects/tree/tree.go:45-59 | A fresh name is appended at the end and earlier entries are untouched. An existing name keeps the size. A lookup of the name afterwards returns the new hash and kind. Entries sees an update only while the name's pointer still aims into the live slice; through a stale pointer, Entries is left as it was. |
| Tree.AddEntryFrame | internal/objects/tree/tree.go:45-66 | Adding under one name never changes what any other name looks up. |
| Tree.AddEntryAgrees | internal/objects/tree/tree.go:45-59 | Appending a fresh name, or updating through a live pointer, keeps lookups and Entries in agreement. |
| Tree.StaleUpdateDiverges | internal/objects/tree/tree.go:57-58 | Adding `a`, then `b`, then `a` again leaves Entries with the old hash of `a`, while GetEntry returns the new one. This is the pointer-aliasing divergence. |
| Tree.AddAllFresh | internal/objects/tree/tree.go:45-59 | Adding entries with distinct fresh names one by one yields exactly those entries appended in order, with lookups agreeing. |
| Tree.KindRoundTrip | internal/objects/tree/tree.go:173-208 | Each kind's mode is a valid mode, and its type word parses back to the same kind. |
| Tree.ParseKind | internal/objects/tree/tree.go:199-208 | Exactly `blob` and `tree` parse as kinds, and each parses to the kind named by that word. |
| Tree.Serialize | internal/objects/tree/tree.go:89-98 | The text before the first NUL is `tree ` and the decimal length of the serialized content. The bytes after that NUL are exactly the content. |
| Tree.ComputeHash | internal/objects/tree/tree.go:158-166 | The hash becomes SHA-1 of the tree's own serialization, and nothing else changes. |
| Tree.ComputeHashIdempotent | internal/objects/tree/tree.go:158-170 | The serialization does not depend on the stored hash, so hashing twice gives the same tree as hashing once. |
| Tree.ParseEntry | internal/objects/tree/tree.go:126-153 | A line without a tab is rejected. On success, the name is the text after the first tab, and the text before it splits into a valid mode, a type word parsing to the kind, and the hash. |
| Tree.ModeAndKindIndependent | internal/objects/tree/tree.go:138-151 | For a line built from any mode word, a kind and a hash, parsing succeeds exactly when the mode is valid. An invalid mode is reported as such, whatever the kind. |
| Tree.DeserializeTree | internal/objects/tree/tree.go:100-118 | Data without a NUL is parsed whole as content. Data whose text before the first NUL does not start with `tree ` is rejected. Otherwise the bytes after the first NUL are parsed, and the length in the header is never checked. |
| Tree.ParseLinesOf | internal/objects/tree/tree.go:120-157 | Parsing the serialized lines of well-formed entries adds exactly those entries, in order, then goes on with the lines after them. |
| Tree.LongLineTruncates | internal/objects/tree/tree.go:122-156 | A line of 64 KiB or more stops the scanner, and the loop never asks for the scanner's error. The parse succeeds with the entries of the lines before it, whatever follows. |
| Tree.FirstLineDiffers | internal/objects/tree/tree.go:89-98 | Trees whose first entry lines differ serialize to different content. |
| Tree.DeserializeSerialize | internal/objects/tree/tree.go:72-157 | Round trip: a tree with unique, well-formed entries reads back with the same entries in the same order. Well-formed includes a line shorter than the scanner's 64 KiB limit. |
| Tree.DeserializeHeaderless | internal/objects/tree/tree.go:115-117 | Serialized content without its header is accepted, and yields the same entries. |
| Commit.Serialize | internal/objects/commit/commit.go:46-77 | The text before the first NUL is `commit ` and the decimal length of the content. The bytes after that NUL are the tree line, one parent line per parent in order, the author and committer lines, an empty line, and the message. |
| Commit.ComputeHash | internal/objects/commit/commit.go:79-87 | The hash becomes SHA-1 of the commit's own serialization, and nothing else changes. |
| Commit.ParseSignature | internal/objects/commit/commit.go:143-169 | Input without ` <` is rejected. Otherwise the rest after the first ` <` is read by `ParseAddress`: its error is the result, and on success the signature is the name before ` <` with the address's email and time. The name contains no ` <`, the email no `> `, and the time is a 64-bit instant shown in the local zone. |
| Commit.ParseAddress | internal/objects/commit/commit.go:152-168 | Without `> ` the error is the missing `>`. Without a space after it the time format is bad. A field before that space that is no 64-bit decimal is a bad timestamp. On success the email is the text before the first `> `, and the time's instant is the decimal before the next space. |
| Commit.ParseSigText | internal/objects/commit/commit.go:143-169 | A well-formed signature's text parses back to the same name, email and instant, with the local zone in place of the written one. |
| Commit.ParseHeaders | internal/objects/commit/commit.go:104-134 | Header lines never change the hash and never remove parents. Without an empty line, the message stays as it was. |
| Commit.ParseHeadersFails | internal/objects/commit/commit.go:104-134 | The line loop fails exactly when some header line before the first empty line is an `author` or `committer` line whose signature does not parse, and the error is that of the first such line. |
| Commit.ParseHeadersTree | internal/objects/commit/commit.go:113-114 | After a successful loop the tree is the value of the last `tree` header line, or the one held before when there is none. The hash is untouched. |
| Commit.ParseHeadersParents | internal/objects/commit/commit.go:116-118 | After a successful loop the parents are those held before, followed by the value of every `parent` header line in order. |
| Commit.ParseHeadersAuthor | internal/objects/commit/commit.go:120-125 | When there is an `author` header line, the author after a successful loop is the signature parsed from the last one. |
| Commit.ParseHeadersNoAuthor | internal/objects/commit/commit.go:120-125 | Without an `author` header line, a successful loop keeps the author held before. |
| Commit.ParseHeadersCommitter | internal/objects/commit/commit.go:127-132 | When there is a `committer` header line, the committer after a successful loop is the signature parsed from the last one. |
| Commit.ParseHeadersNoCommitter | internal/objects/commit/commit.go:127-132 | Without a `committer` header line, a successful loop keeps the committer held before. |
| Commit.ParseHeadersMessage | internal/objects/commit/commit.go:107-110 | After a successful loop the message is the lines after the first empty line, joined with newlines, or the one held before when no line is empty. |
| Commit.AuthorLineRead | internal/objects/commit/commit.go:120-125 | An `author` line whose signature does not parse ends the loop with that error. Otherwise the loop goes on with the author set to the parsed signature. |
| Commit.CommitterLineRead | internal/objects/commit/commit.go:127-132 | The same for a `committer` line and the committer. |
| Commit.OtherLineSkipped | internal/objects/commit/commit.go:112-133 | A non-empty line with none of the four keys changes nothing and the loop goes on. |
| Commit.LastValueIsLast | internal/objects/commit/commit.go:112-133 | The value the loop keeps for a key exists exactly when some header line has that key, and it comes from a keyed line with no keyed line after it. |
| Commit.ParentsLines | internal/objects/commit/commit.go:116-118 | A run of `parent` lines appends those parents in order. |
| Commit.MessageLines | internal/objects/commit/commit.go:107-110 | After the first empty line, the remaining lines rejoined with newlines are the message, whatever they contain. |
| Commit.DeserializeCommit | internal/objects/commit/commit.go:93-141 | Data without a NUL is rejected. Otherwise the lines after the first NUL go through the line loop: its error is the result, and on success the result is the parsed commit with its hash set to SHA-1 of its re-serialization, never read from the input. |
| Commit.HeaderIgnored | internal/objects/commit/commit.go:94-100 | Whatever stands before the first NUL is never read: replacing it with nothing gives the same result. |
| Commit.DeserializeSerialize | internal/objects/commit/commit.go:46-167 | Round trip: tree hash, parents in order, names, emails, instants and message come back. The zones become local, and the hash is that of the re-read commit. |
| Commit.HashRoundTrip | internal/objects/commit/commit.go:136-167 | When both signatures are already in the local zone, deserializing the serialization gives back the commit with its hash computed. |
| Numbers.ParseIntText | internal/objects/commit/commit.go:162-165 | The decimal text of any int64 parses back to the same number. |
| Objects.TypeNameHeader | internal/objects/commit/commit.go:32-34 | The serialized bytes begin with the object's `Type()` name for blobs and trees, but never for commits. |
| Objects.StoreObject | internal/repository/objects_storage.go:16-41 | Returns SHA-1 of the serialized bytes. It adds only that hash's shard path, and writes the bytes there only when nothing is present. Existing files never change. A store in which every file sits under its own hash stays that way. |
| Objects.StoreIdempotent | internal/repository/objects_storage.go:28-30 | Storing the same object twice equals storing it once. |
| Objects.ReadObject | internal/repository/objects_storage.go:70-79 | A hash shorter than two characters panics. Otherwise the read succeeds exactly when the shard path is present, and returns its bytes. |
| Objects.ReadVerified | internal/repository/objects_storage.go:16-41 | In a store written only by StoreObject, whatever is read under a hash hashes to it. |
| Objects.StoreThenRead | internal/repository/objects_storage.go:16-79 | Reading back under the returned hash gives the serialized object, unless a different object with the same hash was stored before. |
| Objects.RetrieveBlob | internal/repository/objects_storage.go:43-50 | A failed read passes its error on. Otherwise the result is the blob decoding of the stored bytes. |
| Objects.RetrieveTree | internal/repository/objects_storage.go:52-59 | A failed read passes its error on. Otherwise the result is the tree decoding of the stored bytes, which always satisfies the tree invariant. |
| Objects.RetrieveCommit | internal/repository/objects_storage.go:61-68 | A failed read passes its error on. Otherwise the result is the commit decoding of the stored bytes. |
| Objects.StoreRetrieveBlob | internal/repository/objects_storage.go:16-50 | A blob stored and retrieved under the returned hash is the same blob. |
| Objects.StoreRetrieveTree | internal/repository/objects_storage.go:16-59 | A well-formed tree stored and retrieved under the returned hash has the same entries in the same order. |
| Objects.StoreRetrieveCommit | internal/repository/objects_storage.go:16-68 | A well-formed commit stored and retrieved under the returned hash is the same commit, with its zones made local and its hash recomputed. |
| Objects.StoredUnderOwnHash | internal/repository/objects_storage.go:17-23 | For a tree or commit whose hash was computed, the store returns exactly that hash. |
| Objects.BlobStoredElsewhere | internal/repository/objects_storage.go:17-23 | A blob's store hash can equal its own Hash only through a SHA-1 collision between two different byte strings. |
| Index.NewIndex | internal/repository/index.go:19-21 | A new index has no entries. |
| Index.AddEntry | internal/repository/index.go:52-54 | The path gets an entry recording the path and the new hash. Every other path keeps its entry. Entries keyed by their own path stay so. |
| Index.AddEntryOverwrites | internal/repository/index.go:52-54 | Re-adding a path overwrites its hash: the first add leaves no trace. |
| Index.AddEntryCommutes | internal/repository/index.go:52-54 | Adds of different paths commute. |
| Index.LoadIndex | internal/repository/index.go:27-41 | Only a saved index loads, and it loads as saved. Missing and unreadable files fail alike, and a garbled file fails to parse. |
| Index.SaveThenLoad | internal/repository/index.go:27-50 | Saving then loading gives back the same index. |
| Repository.CreateRepo | internal/repository/repo.go:17-52 | A new repository holds `refs/heads`, `objects`, an empty config, and HEAD naming the configured default branch, or `master` when none is configured. |
| Repository.CreateRepoHead | internal/repository/repo.go:31-44 | In a new repository the current branch is the default branch. The HEAD commit hash is empty for a branch name whose parts are plain. For "", `.` and `..` the cleaned ref path is a directory, so reading the HEAD commit fails. |
| Repository.GetCurrentBranch | internal/repository/repo.go:66-79 | An unreadable HEAD is an error. A symbolic HEAD yields the text after `ref: refs/heads/`, and any other HEAD yields "" with no error. |
| Repository.GetHEADCommitHash | internal/repository/repo.go:81-103 | An unreadable HEAD is an error. A `ref: ` HEAD resolves through the named ref, and any other HEAD is returned trimmed and unvalidated. |
| Repository.ResolveRef | internal/repository/repo.go:89-98 | The ref is read at its cleaned path. A missing ref gives "" rather than an error. A ref file gives its trimmed content. A directory, `.notgit` itself or a path climbing out of `.notgit` is an error. |
| Repository.ReadRef | internal/repository/repo.go:90-91 | A ref path that cleans to `.notgit` itself, or climbs out of it, cannot be read. Any other is read at its cleaned path. |
| Repository.WriteRef | internal/commands/commit.go:186-190 | A ref path that cleans to `.notgit` itself, or climbs out of it, cannot be written. Any other is written at its cleaned path. |
| Repository.CleanFacts | internal/repository/repo.go:90 | `filepath.Join` leaves a plain ref path as it is. Whatever it yields below `.notgit` is plain. |
| Repository.RefFileIdempotent | internal/repository/repo.go:90 | Cleaning a cleaned ref path changes nothing. |
| Repository.BranchPathCleans | internal/commands/merge.go:52 | For a name without `/`, the HEAD ref path `refs/heads/<name>` cleans to the path `merge` and `switch` build for a named target. |
| Repository.SymbolicHeadResolves | internal/repository/repo.go:66-103 | With HEAD `ref: refs/heads/<b>`, the current branch is b and the HEAD commit is whatever b's ref resolves to. |
| Repository.WrittenRefResolves | internal/repository/repo.go:81-103 | After writing a hash and a newline to the ref HEAD names, the HEAD commit is that hash. |
| Repository.BranchWriteMovesHead | internal/repository/repo.go:81-103 | Writing a hash and a newline at the current branch's cleaned ref path moves the HEAD commit to that hash, for every branch name. When the path cleans to HEAD itself, HEAD then holds the written text, and the HEAD commit is still the hash unless the hash reads as a `ref: ` line. |
| Repository.RefWriteMovesHead | internal/repository/repo.go:81-103 | The same for any ref path HEAD names after `ref: `. |
| Repository.DetachedHead | internal/repository/repo.go:66-103 | A HEAD holding a hash is detached: its commit is that hash, and the current branch is "". |
| Repository.BranchPath | internal/commands/merge.go:52 | The path of a branch ref lies under `refs`. For any name but "", `.` and `..` it is `refs/heads/<name>`, where path cleaning folds those three. |
| History.IsAncestor | internal/commands/merge.go:97-114 | The walk starts at the descendant itself: a non-empty hash equal to the ancestor gives true, and the empty hash gives false. |
| History.AncestorIffLogged | internal/commands/merge.go:97-114 | isAncestor answers true exactly when the ancestor is a commit the log walk from the same hash visits, or the hash where that walk stops. Otherwise it gives the walk's error, the panic at a root commit, or false at an empty parent hash. |
| History.UnbornNeverAncestor | internal/commands/merge.go:100-110 | Asking whether the empty hash is an ancestor panics once the chain reaches a root commit. |
| History.WalkChain | internal/commands/log.go:59-108 | The log shows the first-parent chain from the start hash in order. Each shown commit is the one loaded from its hash, and each later one is the first parent of the one before. |
| History.WalkFromStored | internal/commands/log.go:62-78 | A walk of the store from a commit just stored there shows that commit first, as read back from its bytes. |
| History.WalkEnd | internal/commands/log.go:62-78 | The walk ends cleanly exactly when it reaches the empty hash. Otherwise it ends with the load error at the hash where it stopped, or on running out of fuel. |
| History.ShortHash | internal/commands/log.go:92-95 | The short hash is a prefix of the hash: its first 7 characters when longer than 7, else all of it. |
| History.FirstLine | internal/commands/log.go:97 | The shown message is the part of the message before its first newline. |
| History.Log | internal/commands/log.go:30-57 | An unreadable HEAD is an error. An empty HEAD commit prints that there are no commits, and any other HEAD commit starts the walk. |
| Checkout.Kept | internal/commands/switch.go:153-167 | After removal, exactly the files that are untracked or inside `.notgit` remain, with their contents. A tracked file that was already missing is no error. |
| Checkout.RemoveTrackedFiles | internal/commands/switch.go:147-167 | The loop over tracked paths leaves exactly that working tree, whatever order the map yields them in. |
| Checkout.RestoreFrame | internal/commands/switch.go:206-241 | Restoring a tree removes nothing, and touches no path outside the paths its entries cover. |
| Checkout.RestoreFlat | internal/commands/switch.go:223-237 | Restoring blob entries with plain distinct names writes each blob's content at its path, and does not fail. |
| Checkout.RestoreStoredBlob | internal/commands/switch.go:223-237 | Restoring a blob entry whose object was just stored writes the stored content at the entry's path. |
| Checkout.CheckoutKeepsUntracked | internal/commands/switch.go:136-143 | A path the target tree does not cover keeps its content if it is untracked or inside `.notgit`. If it is tracked and outside `.notgit`, it is gone. |
| Checkout.UpdateWorkingTree | internal/commands/switch.go:102-145 | The working tree changes only after the commit, its tree and the index have all loaded, in that order. A missing commit fails with nothing touched. A success is the checkout of that tree over the index's tracked paths. |
| Merge.Merge | internal/commands/merge.go:31-95 | A target containing `/` is rejected first, with nothing changed. A merge never touches objects or the index, changes refs only by a fast-forward, and leaves everything as it was when already up to date. |
| Merge.FastForward | internal/commands/merge.go:116-153 | Succeeds exactly when the checkout and the ref write at the cleaned path of `refs/heads/<current>` succeed. Only the file at that path then changes, to the target hash and a newline. Objects and the index never change, and refs change only on success. |
| Merge.FastForwardMeaning | internal/commands/merge.go:31-153 | A fast-forward needs a target without `/`, another branch than the current, a non-empty target hash different from HEAD's, and the current commit on the target's first-parent log. It writes the target commit and a newline at the cleaned path of `refs/heads/<current>`, with the working tree checked out to it. |
| Merge.FastForwardTaken | internal/commands/merge.go:39-91 | A fast-forward is taken only after every check passes: branch and HEAD commit read, distinct branches, non-empty and different hashes, and ancestry true. It is then exactly the fast-forward of the current branch to the target hash. |
| Merge.MergeRefusals | internal/commands/merge.go:48-87 | Each refusal fails with its own error and changes nothing: merging the current branch into itself, a target with no ref, a target ref holding no commit, and a current commit that is not an ancestor of the target. |
| Merge.FastForwardWritesRef | internal/commands/merge.go:147-150 | After a fast-forward the current branch's ref path reads back as the target commit and a newline, and resolves to that commit, whatever the name. |
| Merge.FastForwardMovesHead | internal/commands/merge.go:147-150 | After a fast-forward from any named branch, the HEAD commit is the target's commit. When the branch's ref path cleans to HEAD itself, HEAD holds the target's text, and the claim needs that text not to read as a `ref: ` line. |
| Merge.UnbornNeverMerges | internal/commands/merge.go:60-114 | With no commit yet on HEAD, a merge always fails. |
| Merge.DetachedNeverFastForwards | internal/commands/merge.go:43-95 | From a detached HEAD, a merge either fails or reports already up to date. It never succeeds with a fast-forward. |
| Switch.Switch | internal/commands/switch.go:35-67 | A name containing `/` is rejected, and so is a missing branch without `-c`; neither changes anything. Objects and the index never change. A successful switch leaves HEAD naming the branch and the branch's ref present. |
| Switch.SwitchToBranch | internal/commands/switch.go:69-100 | Switching to the current branch changes nothing. HEAD is rewritten only on success, and only to `ref: refs/heads/<name>`. The working tree changes only for another branch whose ref reads as non-empty. |
| Switch.EmptyBranchTouchesNothing | internal/commands/switch.go:102-112 | Switching to another branch with an empty ref fails before any file is removed. |
| Switch.SwitchedOnto | internal/commands/switch.go:88-96 | After a successful switch, the current branch is the target, and the HEAD commit is what its ref resolves to. |
| Switch.SwitchTwice | internal/commands/switch.go:75-78 | Switching again to the branch just switched to reports already on it, and changes nothing. |
| Switch.SwitchKeepsUntracked | internal/commands/switch.go:102-167 | Untracked files outside the target tree survive a switch unchanged. Tracked files outside `.notgit` and outside the target tree are removed. |
| CommitCmd.GetUserIdentity | internal/commands/commit.go:130-153 | Local values come first, and global ones fill only the empty fields. The identity is an error exactly when name or email is still empty. |
| CommitCmd.ReadHeadRef | internal/commands/commit.go:155-166 | An unreadable HEAD passes its error on. A HEAD that does not start with `ref: ` is invalid, and otherwise the result is the rest of the trimmed HEAD. |
| CommitCmd.ParentIsHeadCommit | internal/commands/commit.go:168-179 | On a symbolic HEAD the parent is the HEAD commit, or none when the ref cannot be resolved. |
| CommitCmd.DetachedHasNoParent | internal/commands/commit.go:168-179 | A detached or unreadable HEAD gives no parent. |
| CommitCmd.Parents | internal/commands/commit.go:97-100 | The parent list is empty for an empty parent hash, and is that one hash otherwise. |
| CommitCmd.BuildTree | internal/commands/commit.go:72-75 | The tree has one blob entry per index path, named by the path with the index's hash, in the order the map is visited, and lookups agree with its entries. |
| CommitCmd.HashedTree | internal/commands/commit.go:72-80 | The stored tree is flat: one blob entry per index path, with the index's hash, and its hash computed over its own bytes. |
| CommitCmd.TreeBytesDependOnOrder | internal/commands/commit.go:73 | The same two index entries in the two map orders serialize to different bytes. So the tree hash is not a function of the index. |
| CommitCmd.BytesDetermineEntries | internal/commands/commit.go:76-80 | Trees with different well-formed entries serialize to different bytes. |
| CommitCmd.NewCommit | internal/commands/commit.go:88-108 | The commit records the tree hash, the parent selection and the message. Author and committer are the same signature, and the hash is computed over its own bytes. |
| CommitCmd.UpdateHead | internal/commands/commit.go:181-191 | A HEAD that cannot be read as `ref: ` fails, with its error. Otherwise only the file at the cleaned ref path changes, to the commit hash and a newline. A plain path succeeds exactly when no directory stands there. A path cleaning to `.notgit` itself fails. |
| CommitCmd.UpdateHeadMovesHead | internal/commands/commit.go:181-191 | After a successful update the HEAD commit is the new commit. |
| CommitCmd.UpdateHeadChains | internal/commands/commit.go:168-191 | After a successful update, the next commit's parent is the commit just made. |
| CommitCmd.Record | internal/commands/commit.go:82-119 | The tree and then the commit are stored, whatever happens to HEAD. Success is exactly a successful HEAD update, which leaves the HEAD commit at the new commit. A failed update leaves the refs as they were. |
| CommitCmd.CommitIndex | internal/commands/commit.go:40-119 | A missing identity fails first and changes nothing. An unloadable index fails next, and an empty index commits nothing. Otherwise a flat tree of the index and a commit on the HEAD parent are recorded, and a successful commit becomes the HEAD commit. The working tree and the index never change. |
| Branch.Dispatch | internal/commands/branch.go:45-62 | Rename applies when `-m` comes with two arguments. Otherwise delete applies when `-d` is given, create when there is one argument, and list in every other case. |
| Branch.Run | internal/commands/branch.go:39-65 | Delete and rename succeed and change nothing. Only a successful create changes the refs. |
| Branch.ReadHeadsDir | internal/commands/branch.go:68-72 | Reading `refs/heads` fails when it is missing or is a file. Otherwise it gives the names of the plain files directly inside it. |
| Branch.ListBranches | internal/commands/branch.go:67-91 | One line per branch file, in ascending name order. A `* ` marks the current branch and two spaces mark the rest. An unreadable directory or HEAD is an error. |
| Branch.OneStar | internal/commands/branch.go:80-88 | A line is starred exactly when it names the current branch, so at most one line is starred. |
| Branch.CreateBranch | internal/commands/branch.go:93-106 | Failure to read the HEAD commit is an error. Otherwise the file at the cleaned path of `refs/heads/<name>` is written, or overwritten, with the HEAD commit hash and a newline, and nothing else changes. There is no check for `/`, for existence or for an empty hash. |
| Branch.CreatedBranchResolves | internal/commands/branch.go:93-106 | A created branch's ref resolves to the HEAD commit at the time of creation, whatever the name. |
| Branch.CreateKeepsHead | internal/commands/branch.go:93-106 | Creating a branch does not change the HEAD commit. The one exception is a name whose ref path cleans to HEAD itself while the HEAD commit's text reads as a `ref: ` line. |
| Branch.CreateListsOneMore | internal/commands/branch.go:67-106 | After creating a plain name, the listed branches are those before plus that name. |
| CatFile.ParseObjectHeader | internal/commands/cat-file.go:107-130 | Data without a NUL is rejected, and so is a header without a space. On success the type is blob, tree or commit and starts the data, and the content is the bytes after the first NUL. The size is not checked. |
| CatFile.ParseSerialized | internal/commands/cat-file.go:107-130 | The header of any serialized object parses to its header word and its payload. |
| CatFile.PrettyPrint | internal/commands/cat-file.go:132-204 | A blob prints its content. A tree prints its content lines, and a commit prints its content and a newline. A blob, tree or commit that fails to decode gives the decoder's error. An unknown type is an error. |
| CatFile.PrettyEntriesIsContent | internal/commands/cat-file.go:158-174 | The pretty tree listing is exactly the tree's serialized content. |
| CatFile.PrettyCommitIsContent | internal/commands/cat-file.go:176-204 | The pretty commit is the commit's serialized content followed by a newline. |
| CatFile.CatFile | internal/commands/cat-file.go:39-105 | The trimmed hash is checked first: shorter than 4 is too short, and otherwise it must be 40 long. More than one flag is refused before the repository is read, and a missing object is not found. A header that does not parse gives its error. Otherwise `-t` prints the type word, `-s` the length of the bytes after the NUL (not the size the header claims), `-p` the pretty form, and no flag the type and that length, each with its newline. |
| CatFile.CatStoredObject | internal/commands/cat-file.go:85-104 | For a stored object, `-t` prints its type word and `-s` its payload size. No flag prints both. |
| CatFile.CatPretty | internal/commands/cat-file.go:95-100 | For a stored object, `-p` pretty-prints its serialized bytes by type. |
| CatFile.CatStoredBlob | internal/commands/cat-file.go:145-156 | A stored blob pretty-prints as its content. |
| CatFile.CatStoredTree | internal/commands/cat-file.go:158-174 | A stored well-formed tree pretty-prints as its serialized content. |
| CatFile.CatStoredCommit | internal/commands/cat-file.go:176-204 | A stored well-formed commit pretty-prints as its re-read content, local zones included, and a newline. |
| CatFile.PrettyCommitText | internal/commands/cat-file.go:176-204 | The pretty form of a serialized well-formed commit is its re-read content, local zones included, and a newline. |
| ConfigKeys.SplitKey | internal/utils/config_utils.go:66-88 | A key without `.` is invalid, and a section spelled `DEFAULT` in any case is reserved. On success, section, dot and key rejoin to the input, the section has no dot, and the pair is in the schema. |
| ConfigKeys.SplitKeyAcceptsSupported | internal/utils/config_utils.go:45-88 | A key is accepted exactly when it is user.name, user.email, core.editor or init.defaultBranch. |
| ConfigKeys.AcceptsSchemaKey | internal/utils/config_utils.go:66-88 | Every schema section and key, joined by a dot, split back into that pair. |
| ConfigKeys.ReservedNeverSupported | internal/utils/config_utils.go:74-76 | Rejecting the reserved section never rejects a supported key. |
| RepoRoot.FindRepoRoot | internal/utils/repo.go:9-29 | The result is the nearest of the start path and its ancestors that holds a `.notgit` directory, so no closer one holds one. Having none is the not-a-repository error. |
| RepoRoot.FoundIffSomeAncestor | internal/utils/repo.go:9-29 | The search succeeds exactly when some ancestor of the start path, itself included, holds a `.notgit` directory. |
| Status.FileHashIsStoreHash | internal/commands/status.go:199-209 | A file's status hash equals the hash the store files the file's blob under. |
| Status.IndexHashes | internal/commands/status.go:141-154 | The index side has exactly the index paths, each with its recorded hash. |
| Status.WorkingHashes | internal/commands/status.go:167-191 | The working side has exactly the readable files whose path does not start with `.notgit`, each with its file hash. |
| Status.BuildStatusEntries | internal/commands/status.go:211-248 | There is exactly one entry per index path and none for any other path. The working side is deleted, modified or unmodified by comparing hashes, and the index side is always unmodified. |
| Status.ClassifyTracked | internal/commands/status.go:215-231 | The first loop classifies every index path once and marks it processed. |
| Status.SkipProcessed | internal/commands/status.go:233-246 | The second loop adds nothing, since every path it could add was processed. `r == entries` is its whole claim. |
| Status.GetUntrackedFiles | internal/commands/status.go:250-261 | The untracked list holds exactly the working paths missing from the index, ascending and without duplicates. |
| Status.UntrackedDeterministic | internal/commands/status.go:250-261 | The untracked list does not depend on map order. |
| Status.CountChanges | internal/commands/status.go:108-115 | The staged and unstaged counts are the numbers of entries changed on each side. |
| Status.CleanIffEqual | internal/commands/status.go:108-117 | Nothing is ever staged. The status shows changes exactly when the index and working hashes differ. |
| Status.GetRepositoryStatus | internal/commands/status.go:84-120 | An index that fails to load is the only error. The branch shows "" when HEAD cannot be read. Staged changes are always 0, and the repository has changes exactly when index and working hashes differ. The entries are one per indexed path, each classified against both hash maps. The untracked list is exactly the working paths the index lacks, in strictly ascending order. |
| Status.GetBranchAgrees | internal/commands/status.go:122-139 | A symbolic HEAD shows its branch. Otherwise a 40-character HEAD shows its first 7 characters, and anything else shows `unknown`. |
| Status.DetachedShowsShortHash | internal/commands/status.go:134-136 | A detached HEAD shows the first 7 characters of its hash. |
| Status.ChangedEntries | internal/commands/status.go:307-331 | Exactly the entries changed on the chosen side are kept, sorted by path, and there are as many as that side's count. |
| Status.NothingStaged | internal/commands/status.go:307-318 | The staged listing is always empty. |
| Order.SortStrings | internal/commands/status.go:259 | Sorting gives a permutation of its input in ascending byte order. |

## Left out

- File-system mechanics are not modelled: directory walks, `MkdirAll`, permissions, `Abs`/`Rel` path arithmetic and write failures other than writing a `.notgit` file over a directory. A ref read whose parent path is a file gives not-found, so an empty hash, where Go's `ENOTDIR` is an error. Files, refs and the working tree are maps.
- Checkout.UpdateWorkingTree: tree entry names and tracked paths are joined to their directory without the cleaning `filepath.Join` does (internal/commands/switch.go:154, 208). A name such as `./a`, `x/../a` or the empty name is taken literally: restoring `./a` writes the path `./a`, removing the tracked `x/../a` removes nothing and is not tested against `.notgit` as `a`, and an empty name writes at its directory's own path. File/directory clashes in the working tree, such as Go's `EISDIR` for that last write, are not errors, because the working tree holds files only.
- Objects.ReadObject: the shard path is `h[..2] + "/" + h[2..]` without `filepath.Join`'s cleaning (internal/repository/objects_storage.go:70-71, and cat-file's own lookup at internal/commands/cat-file.go:69-70). A hash that holds `/`, `.` or `..` is looked up literally, so it finds nothing where Go may read some other file under `.notgit`. The model does not require the hash to be hexadecimal.
- The empty-directory cleanup walk in `removeTrackedFiles` (internal/commands/switch.go:169-201) is left out. The working tree holds files only, so an empty directory has no representation.
- The working-tree scan of `status` (internal/commands/status.go:156-197) is an input: a map from each path to its content, or to nothing when the file could not be read. An error from the walk itself is not modelled.
- SHA-1 is the parameter `sha1`. Its internals and the concrete hash values of the test fixtures are out of scope.
- Time formatting is reduced to the Unix instant plus a zone text. The local zone of `time.Unix` is the parameter `localZone`, and the clock is the parameter `now`.
- White space, as `strings.TrimSpace`, `fmt.Sscanf` and `bufio.Scanner` see it, is ASCII white space only. `bufio.Scanner` is used only by `parseTreeContent`, and its 64 KiB token limit is modelled there.
- Tree.Grow: slice growth follows Go's doubling rule without the allocator's size-class rounding. The pointer-aliasing divergence therefore appears at the capacities Go computes before rounding.
- The JSON encoding of the index is abstracted to four cases: saved, missing, unreadable and garbled.
- go-ini configuration loading (`LoadConfig`), `GetConfigKeyValue` and `PrintSupportedConfigKeys` are not modelled. Configurations are optional maps from key to value.
- `createBranchFromHEAD` is not part of this model. `switch -c` takes it as a parameter: a function from the files and the branch name to the new files or an error.
- Branch.CreateKeepsHead: says nothing about a name whose ref path cleans to HEAD itself while the HEAD commit's text starts with `ref: `. Go then replaces HEAD with that text, and HEAD resolves through it to whatever it names.
- Repository.BranchWriteMovesHead: when the branch's ref path cleans to HEAD itself and the written hash starts with `ref: `, it states what HEAD then holds, not where HEAD resolves.
- Merge.FastForwardMovesHead: likewise, when the current branch's ref path cleans to HEAD itself and the target's text starts with `ref: `, it states only what HEAD then holds.
- Ref paths, whether read from HEAD or built from a branch name, are cleaned as `filepath.Join` does. A path that climbs out of `.notgit` through `..` is treated as unreadable and unwritable, rather than reaching the working tree or beyond.
- `OpenRepository` and `FindRepoRoot` as steps of each command are not modelled: every command starts from the state of an already-opened repository.
- Printing is not modelled. `log` yields its trail of commits, `status` its record, `branch` its lines, and `cat-file` the text it prints.
- `printStatus` and `getStatusString` (internal/commands/status.go:263-305, 333-350) only format the modelled status record, and are left out.
- Error messages are error constants; Go's error wrapping text is left out.
- History.IsAncestor, History.Walk, Checkout.Restore: the `fuel` bound stands in for termination. A parent chain or subtree nesting longer than the fuel ends in `Exhausted`, which the Go code never reports; it would loop or recurse further.
- The default branches of cat-file's `getModeForType` and `getTypeString` (internal/commands/cat-file.go:212-213, 223-224) cannot be reached, because a parsed entry is a blob or a tree. The pretty listing reuses the tree's own mode and type words.
- `add`, `init`, `config`, the command wiring and the `fs.go` read/write helpers are not part of this model. Their logic reduces to the modelled store, index and `CreateRepo`.
- Branch's local `getHEADCommitHash` (internal/commands/branch.go:108-130) is the same logic as the repository's, so both are Repository.GetHEADCommitHash.

=== FILE: blob.dfy ===
/** File contents as stored objects: `internal/objects/blob/blob.go`. */
module Blob {
  import opened Wrappers
  import opened Bytes
  import opened Numbers
  import opened Scan

  /** `Size` is an `int64` in Go; `Hash` is any text, though `NewBlob`
      only ever stores a SHA-1 digest there. */
  datatype Blob = Blob(content: Str, size: int, hash: Str)

  /** The blob of some content: its length and the SHA-1 of the raw bytes,
      without the object header. */
  function NewBlob(content: Str, sha1: Hasher): Blob {
    Blob(content, |content|, sha1(content))
  }

  /** `fmt.Sprintf("blob %d\x00", size)`. */
  function Header(size: int): Str {
    "blob " + IntText(size) + "\0"
  }

  /** The object bytes: header, NUL, then the content. */
  function Serialize(b: Blob): (r: Str)
    ensures |r| == |Header(b.size)| + |b.content|
    ensures r[..|Header(b.size)|] == Header(b.size) && r[|Header(b.size)|..] == b.content
    ensures IndexOf(r, '\0') == |Header(b.size)| - 1
    ensures HasPrefix(r, "blob ")
  {
    var h := Header(b.size);
    var r := h + b.content;
    assert r[..|h|] == h;
    assert r[..5] == h[..5] == "blob ";
    assert '\0' !in h[..|h| - 1] by {
      assert h[..|h| - 1] == "blob " + IntText(b.size);
    }
    IndexOfPrefix(h, b.content, '\0');
    r
  }

  /** Decoding object bytes. Fails without a NUL byte, when the text before
      the first NUL does not scan as `blob <int>`, or when that number is
      not the count of the bytes after the NUL; otherwise it is the
      `NewBlob` of those bytes, so the hash is recomputed, never read. */
  function DeserializeBlob(data: Str, sha1: Hasher): (r: Result<Blob>)
    ensures '\0' !in data ==> r == Err(MissingNul)
    ensures r.Ok? ==> '\0' in data && r.value == NewBlob(data[IndexOf(data, '\0') + 1..], sha1)
    ensures r.Ok? ==> ScanBlobHeader(data[..IndexOf(data, '\0')]) == Some(r.value.size)
  {
    var nul := IndexOf(data, '\0');
    if nul == -1 then Err(MissingNul)
    else
      match ScanBlobHeader(data[..nul])
      case None => Err(BadBlobHeader)
      case Some(size) =>
        var content := data[nul + 1..];
        if |content| != size then Err(SizeMismatch(size, |content|))
        else Ok(NewBlob(content, sha1))
  }

  /** Every content round-trips, NUL bytes included: the decoded blob has the
      same content, size and hash. */
  lemma {:induction false} DeserializeSerialize(content: Str, sha1: Hasher)
    requires |content| <= MaxInt64
    ensures DeserializeBlob(Serialize(NewBlob(content, sha1)), sha1) == Ok(NewBlob(content, sha1))
  {
    var b := NewBlob(content, sha1);
    var data := Serialize(b);
    var h := Header(b.size);
    var nul := |h| - 1;
    assert data[..nul] == "blob " + Decimal(|content|) + [] by {
      assert data[..nul] == h[..nul];
      assert h[..nul] == "blob " + IntText(b.size);
    }
    ScanBlobHeaderDecimal(|content|, []);
    assert data[nul + 1..] == content;
  }

  /** The blob's own hash and the hash its stored bytes get are SHA-1 of two
      different inputs: the raw content and the header-prefixed object. */
  lemma HashInputsDiffer(content: Str, sha1: Hasher)
    ensures NewBlob(content, sha1).hash == sha1(content)
    ensures Serialize(NewBlob(content, sha1)) != content
  {
    var b := NewBlob(content, sha1);
    assert |Serialize(b)| > |content|;
  }
}

=== FILE: branch.dfy ===
/** The `branch` command (`internal/commands/branch.go`): list the
    branches, create one at the HEAD commit, and the two sub-commands
    (delete, rename) that do nothing yet. */
module Branch {
  import opened Wrappers
  import opened Bytes
  import Order
  import Repository

  /** What the command line selected: `-m` with two names, a non-empty
      `-d`, one name, or nothing. */
  datatype Action = Rename(from: Str, to: Str) | Delete(name: Str) | Create(name: Str) | List

  /** `branchCallback`'s `switch`: the first case that applies wins, so a
      rename needs `-m` and exactly two names, and `-d` beats a plain name. */
  function Dispatch(moveFlagSet: bool, deleteFlag: Str, args: seq<Str>): (a: Action)
    requires |args| <= 2
    ensures a.Rename? <==> moveFlagSet && |args| == 2
    ensures a.Rename? ==> a == Rename(args[0], args[1])
    ensures a.Delete? <==> !(moveFlagSet && |args| == 2) && deleteFlag != []
    ensures a.Delete? ==> a.name == deleteFlag
    ensures a.Create? <==> !(moveFlagSet && |args| == 2) && deleteFlag == [] && |args| == 1
    ensures a.Create? ==> a.name == args[0]
  {
    if moveFlagSet && |args| == 2 then Rename(args[0], args[1])
    else if deleteFlag != [] then Delete(deleteFlag)
    else if |args| == 1 then Create(args[0])
    else List
  }

  /** The names `os.ReadDir` lists under `dir` that are not directories:
      the last segment of every path one level below it. */
  function Children(fs: Repository.Files, dir: Str): (r: set<Str>)
    ensures forall n :: n in r <==> n != [] && '/' !in n && dir + "/" + n in fs && !fs[dir + "/" + n].DirNode?
  {
    var p := dir + "/";
    var r := set k | k in fs && |k| > |p| && k[..|p|] == p && '/' !in k[|p|..] && !fs[k].DirNode? :: k[|p|..];
    forall n ensures n in r <==> n != [] && '/' !in n && p + n in fs && !fs[p + n].DirNode? {
      var k := p + n;
      assert k[..|p|] == p && k[|p|..] == n;
      if n in r {
        var k' :| k' in fs && |k'| > |p| && k'[..|p|] == p && '/' !in k'[|p|..] && !fs[k'].DirNode? && k'[|p|..] == n;
        assert k' == k;
      }
    }
    r
  }

  /** One line of the listing: the current branch is starred. */
  function Line(name: Str, current: Str): Str {
    (if name == current then "* " else "  ") + name + "\n"
  }

  /** `os.ReadDir` of `refs/heads`: a missing path and a file fail. */
  function ReadHeadsDir(fs: Repository.Files): (r: Result<set<Str>>)
    ensures "refs/heads" !in fs ==> r == Err(NotFound)
    ensures r.Ok? <==> "refs/heads" in fs && fs["refs/heads"].DirNode?
    ensures r.Ok? ==> r.value == Children(fs, "refs/heads")
  {
    if "refs/heads" !in fs then Err(NotFound)
    else if !fs["refs/heads"].DirNode? then Err(Unreadable)
    else Ok(Children(fs, "refs/heads"))
  }

  /** `listBranches`: the non-directory entries of `refs/heads` in name
      order (the order `os.ReadDir` returns), each marked as current or
      not. Reading the directory comes before reading HEAD. */
  method ListBranches(fs: Repository.Files) returns (r: Result<seq<Str>>, names: seq<Str>)
    ensures ReadHeadsDir(fs).Err? ==> r == Err(ReadHeadsDir(fs).error)
    ensures ReadHeadsDir(fs).Ok? && Repository.GetCurrentBranch(fs).Err? ==>
      r == Err(Repository.GetCurrentBranch(fs).error)
    ensures r.Ok? <==> ReadHeadsDir(fs).Ok? && Repository.GetCurrentBranch(fs).Ok?
    ensures r.Ok? ==> Order.Strict(names) && (forall n :: n in names <==> n in Children(fs, "refs/heads"))
    ensures r.Ok? ==>
      && |r.value| == |names|
      && forall i | 0 <= i < |names| :: r.value[i] == Line(names[i], Repository.GetCurrentBranch(fs).value)
  {
    names := [];
    var dir := ReadHeadsDir(fs);
    if dir.Err? {
      return Err(dir.error), names;
    }
    var current := Repository.GetCurrentBranch(fs);
    if current.Err? {
      return Err(current.error), names;
    }
    var rest := dir.value;
    while rest != {}
      invariant rest <= dir.value
      invariant Order.SortedBy(names, Order.Self) && Order.Distinct(names)
      invariant forall n :: n in names <==> n in dir.value && n !in rest
      decreases |rest|
    {
      var x :| x in rest;
      var next := Order.InsertBy(x, names, Order.Self);
      InsertFresh(x, names, next);
      names := next;
      rest := rest - {x};
    }
    Order.SortedDistinctStrict(names);
    r := Ok(seq(|names|, i requires 0 <= i < |names| => Line(names[i], current.value)));
  }

  /** Inserting an element that is not there yet keeps the sequence free of
      repeats and adds exactly that element. */
  lemma InsertFresh(x: Str, s: seq<Str>, r: seq<Str>)
    requires Order.Distinct(s) && x !in s
    requires multiset(r) == multiset(s) + multiset{x}
    ensures Order.Distinct(r)
    ensures forall n :: n in r <==> n in s || n == x
  {
    assert forall n :: n in r <==> n in multiset(r);
    assert forall n :: n in s <==> n in multiset(s);
    assert multiset(s)[x] == 0;
    forall i, j | 0 <= i < j < |r| ensures r[i] != r[j] {
      if r[i] == r[j] {
        Order.CountTwo(r, i, j);
        Order.DistinctCount(s, r[i]);
      }
    }
  }

  /** At most one listed line is starred, and it is the current branch's. */
  lemma OneStar(names: seq<Str>, current: Str, lines: seq<Str>)
    requires Order.Strict(names)
    requires |lines| == |names| && forall i | 0 <= i < |names| :: lines[i] == Line(names[i], current)
    ensures forall i | 0 <= i < |lines| :: HasPrefix(lines[i], "* ") <==> names[i] == current
    ensures forall i, j | 0 <= i < j < |lines| :: !(HasPrefix(lines[i], "* ") && HasPrefix(lines[j], "* "))
  {
    forall i | 0 <= i < |lines| ensures HasPrefix(lines[i], "* ") <==> names[i] == current {
      assert lines[i][1] == if names[i] == current then ' ' else ' ';
      assert lines[i][0] == if names[i] == current then '*' else ' ';
    }
    forall i, j | 0 <= i < j < |lines| ensures names[i] != names[j] {
      Order.LessIrreflexive(names[i]);
    }
  }

  /** `createBranch`: writes HEAD's commit hash and a newline at the
      branch's cleaned ref path, creating the file or overwriting it (an
      unborn HEAD writes a bare newline). */
  function CreateBranch(fs: Repository.Files, name: Str): (r: Result<Repository.Files>)
    ensures Repository.GetHEADCommitHash(fs).Err? ==> r == Err(Repository.GetHEADCommitHash(fs).error)
    ensures r.Ok? <==>
      && Repository.GetHEADCommitHash(fs).Ok?
      && Repository.WriteRef(fs, Repository.BranchRef(name), Repository.GetHEADCommitHash(fs).value + "\n").Ok?
    ensures r.Ok? ==>
      var p := Repository.RefFile(Repository.BranchRef(name));
      && p.Some? && p.value != []
      && r.value == fs[p.value := Repository.FileNode(Repository.GetHEADCommitHash(fs).value + "\n")]
  {
    var hash :- Repository.GetHEADCommitHash(fs);
    Repository.WriteRef(fs, Repository.BranchRef(name), hash + "\n")
  }

  /** A new branch points at HEAD's commit: resolving its ref gives what
      HEAD resolved to before. */
  lemma CreatedBranchResolves(fs: Repository.Files, name: Str)
    requires CreateBranch(fs, name).Ok?
    ensures Repository.ResolveRef(CreateBranch(fs, name).value, Repository.BranchRef(name)) == Repository.GetHEADCommitHash(fs)
  {
    TrimNewline(Repository.GetHEADCommitHash(fs).value);
  }

  /** Creating a branch does not move HEAD: either HEAD's ref cleans to
      another path, which is untouched, or the written ref holds what HEAD
      already resolved to. The exception is a name whose ref path cleans to
      HEAD itself: the write then replaces HEAD with the commit text, which
      resolves to the same commit unless it reads as a `ref: ` line. */
  lemma CreateKeepsHead(fs: Repository.Files, name: Str)
    requires CreateBranch(fs, name).Ok?
    ensures Repository.RefFile(Repository.BranchRef(name)) != Some("HEAD")
            || !HasPrefix(Repository.GetHEADCommitHash(fs).value, "ref: ") ==>
      Repository.GetHEADCommitHash(CreateBranch(fs, name).value) == Repository.GetHEADCommitHash(fs)
  {
    var fs2 := CreateBranch(fs, name).value;
    var p := Repository.RefFile(Repository.BranchRef(name)).value;
    var hash := Repository.GetHEADCommitHash(fs).value;
    if p == "HEAD" {
      if !HasPrefix(hash, "ref: ") {
        Repository.OverwrittenHead(fs2, hash);
      }
    } else {
      assert Repository.ReadFile(fs2, "HEAD") == Repository.ReadFile(fs, "HEAD");
      var head := TrimSpace(Repository.ReadFile(fs, "HEAD").value);
      if HasPrefix(head, "ref: ") {
        var q := head[5..];
        assert Repository.GetHEADCommitHash(fs) == Repository.ResolveRef(fs, q);
        if Repository.RefFile(q) == Some(p) {
          assert Repository.ReadRef(fs2, q) == Ok(hash + "\n");
          TrimNewline(hash);
        } else {
          assert Repository.ReadRef(fs2, q) == Repository.ReadRef(fs, q);
        }
      }
    }
  }

  /** A branch created with a plain name shows up in the next listing. */
  lemma CreatedIsListed(fs: Repository.Files, name: Str)
    requires CreateBranch(fs, name).Ok?
    requires name != [] && '/' !in name && name !in {".", ".."}
    ensures name in Children(CreateBranch(fs, name).value, "refs/heads")
  {
    PlainBranchFile(name);
  }

  /** Creating a branch lists nothing that was not listed before, except
      the new one. */
  lemma CreateListsOneMore(fs: Repository.Files, name: Str)
    requires CreateBranch(fs, name).Ok?
    requires name != [] && '/' !in name && name !in {".", ".."}
    ensures Children(CreateBranch(fs, name).value, "refs/heads") == Children(fs, "refs/heads") + {name}
  {
    var node := Repository.FileNode(Repository.GetHEADCommitHash(fs).value + "\n");
    PlainBranchFile(name);
    WriteAddsChild(fs, "refs/heads", name, node);
  }

  /** A name without `/` other than the empty name, `.` and `..` has its
      ref file directly under the heads directory. */
  lemma PlainBranchFile(name: Str)
    requires name != [] && '/' !in name && name !in {".", ".."}
    ensures Repository.RefFile(Repository.BranchRef(name)) == Some("refs/heads" + "/" + name)
  {
    Repository.BranchPathCleans(name);
    assert Repository.BranchRef(name) == "refs/heads/" + name == "refs/heads" + "/" + name;
  }

  /** Writing a file under a directory adds exactly its name to the
      directory's children. */
  lemma WriteAddsChild(fs: Repository.Files, dir: Str, name: Str, node: Repository.Node)
    requires name != [] && '/' !in name && !node.DirNode?
    ensures Children(fs[dir + "/" + name := node], dir) == Children(fs, dir) + {name}
  {
    var fs2 := fs[dir + "/" + name := node];
    forall n | n != name ensures n in Children(fs2, dir) <==> n in Children(fs, dir) {
      ChildPathsDiffer(dir, n, name);
    }
  }

  lemma ChildPathsDiffer(dir: Str, n: Str, m: Str)
    requires n != m
    ensures dir + "/" + n != dir + "/" + m
  {
    var k := |dir| + 1;
    assert (dir + "/" + n)[k..] == n;
    assert (dir + "/" + m)[k..] == m;
  }

  datatype Reply = Renamed | Deleted | Created(name: Str) | Listed(lines: seq<Str>)

  /** `branchCallback`: runs the selected action on the `.notgit` files.
      Delete and rename succeed without changing anything. */
  method Run(fs: Repository.Files, moveFlagSet: bool, deleteFlag: Str, args: seq<Str>)
    returns (r: Result<Reply>, after: Repository.Files)
    requires |args| <= 2
    ensures after != fs ==> Dispatch(moveFlagSet, deleteFlag, args).Create? && r.Ok?
    ensures Dispatch(moveFlagSet, deleteFlag, args).Rename? ==> r == Ok(Renamed) && after == fs
    ensures Dispatch(moveFlagSet, deleteFlag, args).Delete? ==> r == Ok(Deleted) && after == fs
    ensures Dispatch(moveFlagSet, deleteFlag, args).Create? ==>
      (r.Ok? <==> CreateBranch(fs, args[0]).Ok?) && (r.Ok? ==> r.value == Created(args[0]) && after == CreateBranch(fs, args[0]).value)
    ensures Dispatch(moveFlagSet, deleteFlag, args).List? ==>
      after == fs && (r.Ok? <==> ReadHeadsDir(fs).Ok? && Repository.GetCurrentBranch(fs).Ok?)
  {
    after := fs;
    match Dispatch(moveFlagSet, deleteFlag, args)
    case Rename(_, _) => r := Ok(Renamed);
    case Delete(_) => r := Ok(Deleted);
    case Create(name) =>
      var made := CreateBranch(fs, name);
      if made.Ok? {
        r, after := Ok(Created(name)), made.value;
      } else {
        r := Err(made.error);
      }
    case List =>
      var lines, _ := ListBranches(fs);
      r := if lines.Ok? then Ok(Listed(lines.value)) else Err(lines.error);
  }
}

=== FILE: bytes.dfy ===
/** Byte strings and the handful of Go `strings` / `bytes` operations the
    repository relies on. A Go `string` and a Go `[]byte` are both byte
    sequences, so both are modelled as `Str`. */
module Bytes {

  /** One byte. Restricting `char` keeps Dafny string literals usable. */
  type Byte = c: char | c as int < 256

  type Str = seq<Byte>

  predicate IsLowerHex(c: Byte) {
    '0' <= c <= '9' || 'a' <= c <= 'f'
  }

  /** `hex.EncodeToString` of a SHA-1 sum: 40 lower-case hex digits. */
  type Digest = s: Str | |s| == 40 && forall i | 0 <= i < |s| :: IsLowerHex(s[i])
    witness "0000000000000000000000000000000000000000"

  /** SHA-1 followed by hex encoding (FIPS 180-4, section 6.1). The model never
      looks inside it: every operation that hashes takes it as a parameter. */
  type Hasher = Str -> Digest

  /** ASCII white space as Go's `unicode.IsSpace` sees it. */
  predicate IsSpace(c: Byte) {
    c == ' ' || c == '\t' || c == '\n' || c == '\r' || c == '\U{000B}' || c == '\U{000C}'
  }

  predicate HasPrefix(s: Str, p: Str) {
    |p| <= |s| && s[..|p|] == p
  }

  lemma PrefixOfAppend(a: Str, b: Str)
    ensures HasPrefix(a + b, a)
  {
    assert (a + b)[..|a|] == a;
  }

  /** `bytes.IndexByte`: the first position of `c`, or -1. */
  function IndexOf(s: Str, c: Byte): (r: int)
    ensures -1 <= r < |s|
    ensures r == -1 <==> c !in s
    ensures 0 <= r ==> s[r] == c && c !in s[..r]
  {
    if |s| == 0 then -1
    else if s[0] == c then 0
    else
      var k := IndexOf(s[1..], c);
      if k < 0 then -1
      else
        assert s[..k + 1] == [s[0]] + s[1..][..k];
        k + 1
  }

  predicate OccursAt(s: Str, sep: Str, i: nat) {
    i + |sep| <= |s| && s[i..i + |sep|] == sep
  }

  /** `strings.Index`: the first position at which `sep` occurs, or -1. */
  function Find(s: Str, sep: Str): (r: int)
    ensures -1 <= r <= |s|
    ensures 0 <= r ==> OccursAt(s, sep, r)
    ensures 0 <= r ==> forall j: nat | j < r :: !OccursAt(s, sep, j)
    ensures r == -1 ==> forall j: nat :: !OccursAt(s, sep, j)
    decreases |s|
  {
    if |s| < |sep| then -1
    else if s[..|sep|] == sep then 0
    else
      var k := Find(s[1..], sep);
      if k < 0 then
        NoneAfterShift(s, sep);
        -1
      else
        FirstAfterShift(s, sep, k);
        k + 1
  }

  lemma OccursShift(s: Str, sep: Str, j: nat)
    requires |s| >= 1
    ensures OccursAt(s, sep, j + 1) <==> OccursAt(s[1..], sep, j)
  {
    var t := s[1..];
    if j + 1 + |sep| <= |s| {
      var a, b := s[j + 1..j + 1 + |sep|], t[j..j + |sep|];
      assert a == b by {
        forall i | 0 <= i < |sep| ensures a[i] == b[i] { }
      }
    }
  }

  lemma NoneAfterShift(s: Str, sep: Str)
    requires |s| >= |sep| && s[..|sep|] != sep
    requires forall j: nat :: !OccursAt(s[1..], sep, j)
    ensures forall j: nat :: !OccursAt(s, sep, j)
  {
    forall j: nat ensures !OccursAt(s, sep, j) {
      if j > 0 {
        OccursShift(s, sep, j - 1);
      }
    }
  }

  lemma FirstAfterShift(s: Str, sep: Str, k: nat)
    requires |s| >= |sep| && s[..|sep|] != sep
    requires OccursAt(s[1..], sep, k)
    requires forall j: nat | j < k :: !OccursAt(s[1..], sep, j)
    ensures OccursAt(s, sep, k + 1)
    ensures forall j: nat | j < k + 1 :: !OccursAt(s, sep, j)
  {
    OccursShift(s, sep, k);
    forall j: nat | j < k + 1 ensures !OccursAt(s, sep, j) {
      if j > 0 {
        OccursShift(s, sep, j - 1);
      }
    }
  }

  /** `strings.Contains`. */
  predicate Contains(s: Str, sep: Str) {
    Find(s, sep) >= 0
  }

  /** The text before the first occurrence holds no occurrence. */
  lemma FindPrefixFree(s: Str, sep: Str)
    requires |sep| > 0 && Find(s, sep) >= 0
    ensures !Contains(s[..Find(s, sep)], sep)
  {
    var i := Find(s, sep);
    var p := s[..i];
    forall j: nat | OccursAt(p, sep, j) ensures false {
      assert p[j..j + |sep|] == s[j..j + |sep|];
      assert OccursAt(s, sep, j) && j < i;
    }
  }

  /** A two-byte separator with distinct bytes that does not occur in `a` is
      first found right after `a`, whatever follows it. This is what makes
      `strings.SplitN(a + sep + b, sep, 2)` give back `a`. */
  lemma FindAfter(a: Str, sep: Str, b: Str)
    requires |sep| == 2 && sep[0] != sep[1]
    requires !Contains(a, sep)
    ensures Find(a + sep + b, sep) == |a|
  {
    var s := a + sep + b;
    assert OccursAt(s, sep, |a|) by { assert s[|a|..|a| + 2] == sep; }
    forall j: nat | j < |a| ensures !OccursAt(s, sep, j) {
      if j + 2 <= |a| {
        assert s[j..j + 2] == a[j..j + 2];
        assert !OccursAt(a, sep, j);
      } else {
        assert s[j + 1] == sep[0];
      }
    }
  }

  /** The first `c` of `h + rest` is the one ending `h` when `h` holds no
      other `c`. */
  lemma IndexOfPrefix(h: Str, rest: Str, c: Byte)
    requires |h| >= 1 && h[|h| - 1] == c && c !in h[..|h| - 1]
    ensures IndexOf(h + rest, c) == |h| - 1
  {
    var s := h + rest;
    assert s[..|h| - 1] == h[..|h| - 1];
    assert s[|h| - 1] == c;
  }

  /** A header without NUL, a NUL, then the body: the first NUL ends the
      header. */
  lemma FrameSplit(top: Str, body: Str)
    requires '\0' !in top
    ensures var r := top + "\0" + body;
      IndexOf(r, '\0') == |top| && r[..|top|] == top && r[|top| + 1..] == body
  {
    var h := top + "\0";
    assert h[..|h| - 1] == top;
    IndexOfPrefix(h, body, '\0');
    assert (h + body)[..|top|] == top;
    assert (h + body)[|h|..] == body;
  }

  function TrimLeft(s: Str): (r: Str)
    ensures |r| <= |s|
    ensures |r| == 0 || !IsSpace(r[0])
  {
    if |s| > 0 && IsSpace(s[0]) then TrimLeft(s[1..]) else s
  }

  function TrimRight(s: Str): (r: Str)
    ensures |r| <= |s|
    ensures |r| == 0 || !IsSpace(r[|r| - 1])
  {
    if |s| > 0 && IsSpace(s[|s| - 1]) then TrimRight(s[..|s| - 1]) else s
  }

  /** Trimming on the right keeps a prefix. */
  lemma {:induction false} TrimRightPrefix(s: Str)
    ensures TrimRight(s) == s[..|TrimRight(s)|]
    decreases |s|
  {
    if |s| > 0 && IsSpace(s[|s| - 1]) {
      TrimRightPrefix(s[..|s| - 1]);
    }
  }

  /** No white space at either end. */
  predicate Trimmed(s: Str) {
    |s| == 0 || (!IsSpace(s[0]) && !IsSpace(s[|s| - 1]))
  }

  /** `strings.TrimSpace`, restricted to ASCII white space. */
  function TrimSpace(s: Str): (r: Str)
    ensures Trimmed(r)
    ensures |r| <= |s|
  {
    var l := TrimLeft(s);
    var r := TrimRight(l);
    TrimRightPrefix(l);
    assert |r| > 0 ==> r[0] == l[0];
    r
  }

  lemma TrimRightSpaces(t: Str, post: Str)
    requires |t| == 0 || !IsSpace(t[|t| - 1])
    requires forall i | 0 <= i < |post| :: IsSpace(post[i])
    ensures TrimRight(t + post) == t
    decreases |post|
  {
    if |post| > 0 {
      assert (t + post)[..|t + post| - 1] == t + post[..|post| - 1];
      TrimRightSpaces(t, post[..|post| - 1]);
    } else {
      assert t + post == t;
    }
  }

  /** Reading back text written with a trailing newline: `TrimSpace(t + "\n")`
      returns `t` when `t` has no surrounding white space. */
  lemma {:induction false} TrimNewline(t: Str)
    requires Trimmed(t)
    ensures TrimSpace(t + "\n") == t
  {
    if |t| == 0 {
      assert TrimLeft(t + "\n") == TrimLeft(("\n")[1..]);
    } else {
      assert TrimLeft(t + "\n") == t + "\n";
      TrimRightSpaces(t, "\n");
    }
  }

  /** A digest contains no white space, so it survives the trim. */
  lemma DigestTrimmed(d: Digest)
    ensures Trimmed(d)
  {
    assert IsLowerHex(d[0]) && IsLowerHex(d[39]);
  }

  /** `bytes.Split(s, [sep])`: the pieces between separators, always at least one. */
  function Split(s: Str, sep: Byte): (r: seq<Str>)
    ensures |r| >= 1
    decreases |s|
  {
    var i := IndexOf(s, sep);
    if i < 0 then [s] else [s[..i]] + Split(s[i + 1..], sep)
  }

  /** The first piece is the text before the first separator. */
  lemma SplitFirst(s: Str, sep: Byte)
    ensures Split(s, sep)[0] == if IndexOf(s, sep) < 0 then s else s[..IndexOf(s, sep)]
  {
  }

  /** `bytes.Join(parts, [sep])`. */
  function Join(parts: seq<Str>, sep: Byte): Str
    decreases |parts|
  {
    if |parts| == 0 then []
    else if |parts| == 1 then parts[0]
    else parts[0] + [sep] + Join(parts[1..], sep)
  }

  /** Joining the pieces of a split restores the text. */
  lemma {:induction false} JoinSplit(s: Str, sep: Byte)
    ensures Join(Split(s, sep), sep) == s
    decreases |s|
  {
    var i := IndexOf(s, sep);
    if i >= 0 {
      var rest := Split(s[i + 1..], sep);
      JoinSplit(s[i + 1..], sep);
      JoinCons(s[..i], rest, sep);
      assert s == s[..i] + [sep] + s[i + 1..];
    }
  }

  lemma JoinCons(x: Str, rest: seq<Str>, sep: Byte)
    requires |rest| >= 1
    ensures Join([x] + rest, sep) == x + [sep] + Join(rest, sep)
  {
    assert ([x] + rest)[1..] == rest;
  }

  /** A piece without the separator splits off as one element. */
  lemma SplitCons(a: Str, b: Str, sep: Byte)
    requires sep !in a
    ensures Split(a + [sep] + b, sep) == [a] + Split(b, sep)
  {
    var s := a + [sep] + b;
    assert s[|a|] == sep;
    assert s[..|a|] == a;
    assert IndexOf(s, sep) == |a|;
    assert s[|a| + 1..] == b;
  }

  /** No piece of a split holds the separator. */
  lemma {:induction false} SplitNoSeparator(s: Str, sep: Byte)
    ensures forall i | 0 <= i < |Split(s, sep)| :: sep !in Split(s, sep)[i]
    decreases |s|
  {
    var i := IndexOf(s, sep);
    if i >= 0 {
      SplitNoSeparator(s[i + 1..], sep);
      var rest := Split(s[i + 1..], sep);
      assert Split(s, sep) == [s[..i]] + rest;
      forall j | 0 <= j < |Split(s, sep)| ensures sep !in Split(s, sep)[j] {
        if j > 0 { assert Split(s, sep)[j] == rest[j - 1]; }
      }
    }
  }

  /** Splitting joined pieces that hold no separator gives the pieces back. */
  lemma {:induction false} SplitJoin(parts: seq<Str>, sep: Byte)
    requires |parts| >= 1
    requires forall i | 0 <= i < |parts| :: sep !in parts[i]
    ensures Split(Join(parts, sep), sep) == parts
    decreases |parts|
  {
    if |parts| == 1 {
      assert IndexOf(parts[0], sep) < 0;
    } else {
      SplitJoin(parts[1..], sep);
      SplitCons(parts[0], Join(parts[1..], sep), sep);
      assert [parts[0]] + parts[1..] == parts;
    }
  }

  /** Two pieces without the separator, each followed by it, split off
      in front of the rest's pieces. */
  lemma SplitTwoPrefix(a: Str, b: Str, rest: Str, sep: Byte)
    requires sep !in a && sep !in b
    ensures Split(a + [sep] + b + [sep] + rest, sep) == [a] + ([b] + Split(rest, sep))
  {
    var tail := b + [sep] + rest;
    assert Split(tail, sep) == [b] + Split(rest, sep) by {
      SplitCons(b, rest, sep);
    }
    assert Split(a + [sep] + tail, sep) == [a] + Split(tail, sep) by {
      SplitCons(a, tail, sep);
    }
    ConcatAssoc(a + [sep], b, [sep]);
    ConcatAssoc(a + [sep], b + [sep], rest);
  }

  /** Each line followed by the separator: the text `line1\nline2\n...`. */
  function Terminated(lines: seq<Str>, sep: Byte): Str
    decreases |lines|
  {
    if |lines| == 0 then [] else lines[0] + [sep] + Terminated(lines[1..], sep)
  }

  lemma {:induction false} SplitTerminated(lines: seq<Str>, rest: Str, sep: Byte)
    requires forall i | 0 <= i < |lines| :: sep !in lines[i]
    ensures Split(Terminated(lines, sep) + rest, sep) == lines + Split(rest, sep)
    decreases |lines|
  {
    if |lines| == 0 {
      assert Terminated(lines, sep) + rest == rest;
    } else {
      var head, tail := lines[0], lines[1..];
      var after := Terminated(tail, sep) + rest;
      assert Split(Terminated(lines, sep) + rest, sep) == [head] + Split(after, sep) by {
        assert Terminated(lines, sep) + rest == head + [sep] + after;
        SplitCons(head, after, sep);
      }
      assert Split(after, sep) == tail + Split(rest, sep) by {
        forall i | 0 <= i < |tail| ensures sep !in tail[i] { assert tail[i] == lines[i + 1]; }
        SplitTerminated(tail, rest, sep);
      }
      assert [head] + tail == lines;
      ConcatAssoc([head], tail, Split(rest, sep));
    }
  }

  lemma ConcatAssoc<T>(a: seq<T>, b: seq<T>, c: seq<T>)
    ensures a + (b + c) == (a + b) + c
  {
  }
}

=== FILE: catfile.dfy ===
/** The `cat-file` command (`internal/commands/cat-file.go`): validate the
    hash and the flags, read the object file, split off its header, and
    print its type, its size, or its pretty form. */
module CatFile {
  import opened Wrappers
  import opened Bytes
  import opened Numbers
  import Blob
  import Tree
  import Commit
  import Objects

  /** The object's type word and the bytes after the first NUL. */
  datatype Header = Header(kind: Str, content: Str)

  predicate KnownKind(w: Str) {
    w == "blob" || w == "tree" || w == "commit"
  }

  /** `parseObjectHeader`: the first NUL ends the header, whose text up to
      its first space is the type word; only the three object kinds are
      accepted, and the size in the header is never checked. */
  function ParseObjectHeader(data: Str): (r: Result<Header>)
    ensures '\0' !in data ==> r == Err(MissingNul)
    ensures '\0' in data && ' ' !in data[..IndexOf(data, '\0')] ==> r == Err(BadObjectHeader)
    ensures r.Ok? ==> '\0' in data && r.value.content == data[IndexOf(data, '\0') + 1..]
    ensures r.Ok? ==> KnownKind(r.value.kind) && HasPrefix(data, r.value.kind + " ")
  {
    var nul := IndexOf(data, '\0');
    if nul < 0 then Err(MissingNul)
    else
      var header := data[..nul];
      var sp := IndexOf(header, ' ');
      if sp < 0 then Err(BadObjectHeader)
      else
        var kind := header[..sp];
        if !KnownKind(kind) then Err(UnknownObjectType)
        else
          assert data[..sp + 1] == kind + " ";
          Ok(Header(kind, data[nul + 1..]))
  }

  /** What follows the NUL in a serialized object. */
  function Payload(o: Objects.Object): Str {
    match o
    case BlobObject(b) => b.content
    case TreeObject(t) => Tree.SerializeContent(t)
    case CommitObject(c) => Commit.Content(c)
  }

  lemma PayloadAfterNul(o: Objects.Object)
    ensures var data := Objects.Serialize(o);
      IndexOf(data, '\0') >= 0 && data[IndexOf(data, '\0') + 1..] == Payload(o)
  {
    if o.BlobObject? {
      var h := Blob.Header(o.blob.size);
      var data := Blob.Serialize(o.blob);
      assert data[IndexOf(data, '\0') + 1..] == data[|h|..];
    }
  }

  /** The header of any text that starts with a word and a space and holds
      a NUL is that word, if it names a kind, and the bytes after the NUL. */
  lemma ParseFramed(data: Str, w: Str)
    requires ' ' !in w && '\0' !in w
    requires HasPrefix(data, w + " ") && '\0' in data
    ensures ParseObjectHeader(data) ==
      if KnownKind(w) then Ok(Header(w, data[IndexOf(data, '\0') + 1..])) else Err(UnknownObjectType)
  {
    FirstSpace(data, w);
  }

  /** The type word ends at the first space of the header. */
  lemma FirstSpace(data: Str, w: Str)
    requires ' ' !in w && '\0' !in w
    requires HasPrefix(data, w + " ") && '\0' in data
    ensures var header := data[..IndexOf(data, '\0')];
      |header| > |w| && IndexOf(header, ' ') == |w| && header[..|w|] == w
  {
    var nul := IndexOf(data, '\0');
    var front := w + " ";
    assert '\0' !in front && front[..|w|] == w;
    NulAfter(data, front);
    var header := data[..nul];
    assert header == front + header[|front|..];
    IndexOfPrefix(front, header[|front|..], ' ');
    assert header[..|w|] == w;
  }

  lemma KnownKindPlain(w: Str)
    requires KnownKind(w)
    ensures ' ' !in w && '\0' !in w + " " && (w + " ")[..|w|] == w
  {
  }

  /** The first NUL comes after a NUL-free prefix. */
  lemma NulAfter(data: Str, front: Str)
    requires HasPrefix(data, front) && '\0' !in front && '\0' in data
    ensures IndexOf(data, '\0') >= |front|
  {
    assert forall i | 0 <= i < |front| :: data[i] == front[i];
  }

  /** The header `cat-file` reads from any stored object is its type word
      and its payload. */
  lemma ParseSerialized(o: Objects.Object)
    ensures ParseObjectHeader(Objects.Serialize(o)) == Ok(Header(Objects.HeaderWord(o), Payload(o)))
  {
    PayloadAfterNul(o);
    KnownKindPlain(Objects.HeaderWord(o));
    ParseFramed(Objects.Serialize(o), Objects.HeaderWord(o));
  }

  // Pretty printing

  /** One line of `prettyPrintTree`. `getModeForType` and `getTypeString`
      fall back to the blob's words for any other kind, which a
      deserialized tree never holds. */
  function EntryLine(e: Tree.Entry): Str {
    Tree.ModeOf(e.kind) + " " + Tree.KindName(e.kind) + " " + e.hash + "\t" + e.name + "\n"
  }

  function PrettyEntries(es: seq<Tree.Entry>): Str
    decreases |es|
  {
    if |es| == 0 then [] else EntryLine(es[0]) + PrettyEntries(es[1..])
  }

  /** The printed entries are the tree's stored content, line for line. */
  lemma {:induction false} PrettyEntriesIsContent(es: seq<Tree.Entry>)
    ensures PrettyEntries(es) == Terminated(Tree.LineTexts(es), '\n')
    decreases |es|
  {
    if |es| > 0 {
      PrettyEntriesIsContent(es[1..]);
      assert Tree.LineTexts(es)[1..] == Tree.LineTexts(es[1..]);
      assert EntryLine(es[0]) == Tree.LineText(es[0]) + ['\n'];
    }
  }

  function SigLine(role: Str, s: Commit.Signature): Str {
    var stamp: Str := IntText(s.time.unix) + " " + s.time.zone;
    role + " " + s.name + " <" + s.email + "> " + stamp + "\n"
  }

  function ParentsText(ps: seq<Str>): Str
    decreases |ps|
  {
    if |ps| == 0 then [] else "parent " + ps[0] + "\n" + ParentsText(ps[1..])
  }

  /** The lines before the empty one: tree, parents, author, committer. */
  function HeaderText(c: Commit.Commit): Str {
    var top: Str := "tree " + c.tree + "\n";
    var sigs: Str := SigLine("author", c.author) + SigLine("committer", c.committer);
    top + ParentsText(c.parents) + sigs
  }

  /** `prettyPrintCommit`: the header lines, an empty line, and the message
      followed by a newline. */
  function PrettyCommit(c: Commit.Commit): Str {
    var tail: Str := c.message + "\n";
    HeaderText(c) + "\n" + tail
  }

  lemma {:induction false} TerminatedAppend(a: seq<Str>, b: seq<Str>, sep: Byte)
    ensures Terminated(a + b, sep) == Terminated(a, sep) + Terminated(b, sep)
    decreases |a|
  {
    if |a| == 0 {
      assert a + b == b;
    } else {
      assert (a + b)[0] == a[0];
      assert (a + b)[1..] == a[1..] + b;
      TerminatedAppend(a[1..], b, sep);
    }
  }

  lemma {:induction false} ParentsTextTerminated(ps: seq<Str>)
    ensures ParentsText(ps) == Terminated(Commit.ParentLines(ps), '\n')
    decreases |ps|
  {
    if |ps| > 0 {
      ParentsTextTerminated(ps[1..]);
      assert Commit.ParentLines(ps)[1..] == Commit.ParentLines(ps[1..]);
    }
  }

  lemma Terminated1(x: Str)
    ensures Terminated([x], '\n') == x + "\n"
  {
    assert [x][1..] == [];
  }

  lemma Terminated2(x: Str, y: Str)
    ensures Terminated([x, y], '\n') == (x + "\n") + (y + "\n")
  {
    assert [x, y][1..] == [y];
    Terminated1(y);
  }

  /** A signature line is the role word, a space, the stored signature
      text and a newline. */
  lemma SigLineText(role: Str, word: Str, s: Commit.Signature)
    requires word == role + " "
    ensures SigLine(role, s) == (word + Commit.SigText(s)) + "\n"
  {
  }

  /** The printed signature lines are the stored ones. */
  lemma SigLinesTerminated(c: Commit.Commit)
    ensures Terminated(["author " + Commit.SigText(c.author), "committer " + Commit.SigText(c.committer)], '\n')
      == SigLine("author", c.author) + SigLine("committer", c.committer)
  {
    Terminated2("author " + Commit.SigText(c.author), "committer " + Commit.SigText(c.committer));
    SigLineText("author", "author ", c.author);
    SigLineText("committer", "committer ", c.committer);
  }

  lemma TerminatedAppend3(a: seq<Str>, b: seq<Str>, c: seq<Str>)
    ensures Terminated(a + b + c, '\n') == Terminated(a, '\n') + Terminated(b, '\n') + Terminated(c, '\n')
  {
    TerminatedAppend(a + b, c, '\n');
    TerminatedAppend(a, b, '\n');
  }

  /** The printed header lines are the stored ones. */
  lemma HeaderTextTerminated(c: Commit.Commit)
    ensures HeaderText(c) == Terminated(Commit.HeaderLines(c), '\n')
  {
    var top := ["tree " + c.tree];
    var ps := Commit.ParentLines(c.parents);
    var sigs := ["author " + Commit.SigText(c.author), "committer " + Commit.SigText(c.committer)];
    TerminatedAppend3(top, ps, sigs);
    Terminated1("tree " + c.tree);
    ParentsTextTerminated(c.parents);
    SigLinesTerminated(c);
  }

  /** The printed commit is the stored commit text with one more newline. */
  lemma PrettyCommitIsContent(c: Commit.Commit)
    ensures PrettyCommit(c) == Commit.Content(c) + "\n"
  {
    HeaderTextTerminated(c);
  }

  /** `prettyPrintObject`: decode the whole object by its type word and
      print it; decoding errors are reported. */
  function PrettyPrint(kind: Str, data: Str, sha1: Hasher, localZone: int -> Str): (r: Result<Str>)
    ensures kind == "blob" ==> r == (match Blob.DeserializeBlob(data, sha1)
                                    case Ok(b) => Ok(b.content)
                                    case Err(e) => Err(e))
    ensures kind == "tree" && Tree.DeserializeTree(data).Ok? ==>
      r == Ok(Terminated(Tree.LineTexts(Tree.DeserializeTree(data).value.entries), '\n'))
    ensures kind == "commit" && Commit.DeserializeCommit(data, sha1, localZone).Ok? ==>
      r == Ok(Commit.Content(Commit.DeserializeCommit(data, sha1, localZone).value) + "\n")
    ensures kind == "tree" && Tree.DeserializeTree(data).Err? ==> r == Err(Tree.DeserializeTree(data).error)
    ensures kind == "commit" && Commit.DeserializeCommit(data, sha1, localZone).Err? ==>
      r == Err(Commit.DeserializeCommit(data, sha1, localZone).error)
    ensures !KnownKind(kind) ==> r == Err(UnknownObjectType)
  {
    if kind == "blob" then
      var b :- Blob.DeserializeBlob(data, sha1);
      Ok(b.content)
    else if kind == "tree" then
      var t :- Tree.DeserializeTree(data);
      PrettyEntriesIsContent(t.entries);
      Ok(PrettyEntries(t.entries))
    else if kind == "commit" then
      var c :- Commit.DeserializeCommit(data, sha1, localZone);
      PrettyCommitIsContent(c);
      Ok(PrettyCommit(c))
    else Err(UnknownObjectType)
  }

  // The command

  datatype Flags = Flags(pretty: bool, showType: bool, showSize: bool)

  function FlagCount(f: Flags): nat {
    (if f.pretty then 1 else 0) + (if f.showType then 1 else 0) + (if f.showSize then 1 else 0)
  }

  /** What `cat-file` prints: the type word, the payload size, the pretty
      form, or (without a flag) both type and size. The hash is checked
      (trimmed, at least 4 and then exactly 40 characters) and the flags
      counted before the object is read, so those errors do not depend on
      the store. `-t` wins over `-s`, and `-s` over `-p`, though at most one
      gets past the flag check. */
  function CatFile(s: Objects.Store, arg: Str, f: Flags, sha1: Hasher, localZone: int -> Str): (r: Result<Str>)
    ensures |TrimSpace(arg)| < 4 ==> r == Err(HashTooShort)
    ensures |TrimSpace(arg)| >= 4 && |TrimSpace(arg)| != 40 ==> r == Err(HashNotFortyChars)
    ensures |TrimSpace(arg)| == 40 && FlagCount(f) > 1 ==> r == Err(ConflictingFlags)
    ensures |TrimSpace(arg)| == 40 && FlagCount(f) <= 1 && Objects.ReadObject(s, TrimSpace(arg)).Err? ==>
      r == Err(NotFound)
    ensures |TrimSpace(arg)| == 40 && FlagCount(f) <= 1 && Objects.ReadObject(s, TrimSpace(arg)).Ok? ==>
      var data := Objects.ReadObject(s, TrimSpace(arg)).value;
      var hd := ParseObjectHeader(data);
      && (hd.Err? ==> r == Err(hd.error))
      && (hd.Ok? && f.showType ==> r == Ok(hd.value.kind + "\n"))
      && (hd.Ok? && f.showSize ==> r == Ok(Decimal(|hd.value.content|) + "\n"))
      && (hd.Ok? && f.pretty ==> r == PrettyPrint(hd.value.kind, data, sha1, localZone))
      && (hd.Ok? && FlagCount(f) == 0 ==> r == Ok(Summary(hd.value.kind, |hd.value.content|)))
    ensures r.Ok? ==>
      && Objects.ReadObject(s, TrimSpace(arg)).Ok?
      && ParseObjectHeader(Objects.ReadObject(s, TrimSpace(arg)).value).Ok?
      && FlagCount(f) <= 1
  {
    var h := TrimSpace(arg);
    if |h| < 4 then Err(HashTooShort)
    else if |h| != 40 then Err(HashNotFortyChars)
    else if FlagCount(f) > 1 then Err(ConflictingFlags)
    else
      var data :- Objects.ReadObject(s, h);
      var hd :- ParseObjectHeader(data);
      if f.showType then Ok(hd.kind + "\n")
      else if f.showSize then Ok(Decimal(|hd.content|) + "\n")
      else if f.pretty then PrettyPrint(hd.kind, data, sha1, localZone)
      else Ok(Summary(hd.kind, |hd.content|))
  }

  /** The output without a flag: the type word and the payload size. */
  function Summary(kind: Str, size: nat): Str {
    "Object type: " + kind + "\nObject size: " + Decimal(size) + " bytes\n"
  }

  const TypeFlag := Flags(false, true, false)
  const SizeFlag := Flags(false, false, true)
  const PrettyFlag := Flags(true, false, false)

  /** Storing an object and asking `cat-file -t`/`-s`/neither about the hash
      `StoreObject` returned prints its type word and payload size. */
  lemma CatStoredObject(s: Objects.Store, o: Objects.Object, sha1: Hasher, localZone: int -> Str)
    requires Objects.NoCollision(s, Objects.Serialize(o), sha1)
    ensures var (s1, h) := Objects.StoreObject(s, o, sha1);
      && CatFile(s1, h, TypeFlag, sha1, localZone) == Ok(Objects.HeaderWord(o) + "\n")
      && CatFile(s1, h, SizeFlag, sha1, localZone) == Ok(Decimal(|Payload(o)|) + "\n")
      && CatFile(s1, h, Flags(false, false, false), sha1, localZone) ==
           Ok("Object type: " + Objects.HeaderWord(o) + "\nObject size: " + Decimal(|Payload(o)|) + " bytes\n")
  {
    var (s1, h) := Objects.StoreObject(s, o, sha1);
    DigestTrimmed(h);
    Objects.StoreThenRead(s, o, sha1);
    ParseSerialized(o);
  }

  /** `cat-file -p` of a stored object pretty-prints its bytes by its
      type word. */
  lemma CatPretty(s: Objects.Store, o: Objects.Object, sha1: Hasher, localZone: int -> Str)
    requires Objects.NoCollision(s, Objects.Serialize(o), sha1)
    ensures var (s1, h) := Objects.StoreObject(s, o, sha1);
      CatFile(s1, h, PrettyFlag, sha1, localZone) == PrettyPrint(Objects.HeaderWord(o), Objects.Serialize(o), sha1, localZone)
  {
    var (s1, h) := Objects.StoreObject(s, o, sha1);
    DigestTrimmed(h);
    Objects.StoreThenRead(s, o, sha1);
    ParseSerialized(o);
  }

  /** `cat-file -p` of a stored blob prints its content. */
  lemma CatStoredBlob(s: Objects.Store, content: Str, sha1: Hasher, localZone: int -> Str)
    requires |content| <= MaxInt64
    requires Objects.NoCollision(s, Objects.Serialize(Objects.BlobObject(Blob.NewBlob(content, sha1))), sha1)
    ensures var (s1, h) := Objects.StoreObject(s, Objects.BlobObject(Blob.NewBlob(content, sha1)), sha1);
      CatFile(s1, h, PrettyFlag, sha1, localZone) == Ok(content)
  {
    CatPretty(s, Objects.BlobObject(Blob.NewBlob(content, sha1)), sha1, localZone);
    Blob.DeserializeSerialize(content, sha1);
  }

  /** `cat-file -p` of a stored tree prints the entry lines it was stored
      with. */
  lemma CatStoredTree(s: Objects.Store, t: Tree.Tree, sha1: Hasher, localZone: int -> Str)
    requires Tree.Valid(t)
    requires forall i | 0 <= i < |t.entries| :: Tree.WellFormed(t.entries[i])
    requires Objects.NoCollision(s, Objects.Serialize(Objects.TreeObject(t)), sha1)
    ensures var (s1, h) := Objects.StoreObject(s, Objects.TreeObject(t), sha1);
      CatFile(s1, h, PrettyFlag, sha1, localZone) == Ok(Tree.SerializeContent(t))
  {
    CatPretty(s, Objects.TreeObject(t), sha1, localZone);
    Tree.DeserializeSerialize(t);
  }

  /** The pretty form of a serialized commit is its content read back,
      zones made local, and a final newline. */
  lemma PrettyCommitText(c: Commit.Commit, sha1: Hasher, localZone: int -> Str)
    requires Commit.WellFormed(c)
    ensures var o := Objects.CommitObject(c);
      PrettyPrint(Objects.HeaderWord(o), Objects.Serialize(o), sha1, localZone)
        == Ok(Commit.Content(Commit.Reread(c, localZone)) + "\n")
  {
    assert Objects.HeaderWord(Objects.CommitObject(c)) == "commit";
    assert Objects.Serialize(Objects.CommitObject(c)) == Commit.Serialize(c);
    var back := Commit.Reread(c, localZone);
    Commit.DeserializeSerialize(c, sha1, localZone);
    var d := Commit.ComputeHash(back, sha1);
    assert d.(hash := back.hash) == back;
    assert Commit.Content(d) == Commit.Content(back);
  }

  /** `cat-file -p` of a stored commit prints the commit text it was stored
      with, zones made local, and a final newline. */
  lemma CatStoredCommit(s: Objects.Store, c: Commit.Commit, sha1: Hasher, localZone: int -> Str)
    requires Commit.WellFormed(c)
    requires Objects.NoCollision(s, Objects.Serialize(Objects.CommitObject(c)), sha1)
    ensures var (s1, h) := Objects.StoreObject(s, Objects.CommitObject(c), sha1);
      CatFile(s1, h, PrettyFlag, sha1, localZone) == Ok(Commit.Content(Commit.Reread(c, localZone)) + "\n")
  {
    CatPretty(s, Objects.CommitObject(c), sha1, localZone);
    PrettyCommitText(c, sha1, localZone);
  }
}

=== FILE: checkout.dfy ===
/** The working tree update shared by `switch` and `merge`
    (`updateWorkingDirectory`, `removeTrackedFiles` and
    `restoreTreeToWorkingDirectory` in `internal/commands/switch.go`): remove
    every tracked file, then write out the target tree. The working tree is
    a map from slash-separated paths, relative to the repository root, to
    file contents. */
module Checkout {
  import opened Wrappers
  import opened Bytes
  import Numbers
  import Blob
  import Tree
  import Commit
  import Objects
  import Index

  type Work = map<Str, Str>

  /** Where commands load objects from: `RetrieveCommit`, `RetrieveTree`
      and `RetrieveBlob` on the object store (see `FromStore`). */
  datatype Source = Source(
    commit: Str -> Result<Commit.Commit>,
    tree: Str -> Result<Tree.Tree>,
    blob: Str -> Result<Blob.Blob>)

  function FromStore(store: Objects.Store, sha1: Hasher, localZone: int -> Str): (src: Source)
    ensures forall h :: src.commit(h) == Objects.RetrieveCommit(store, h, sha1, localZone)
    ensures forall h :: src.tree(h) == Objects.RetrieveTree(store, h)
    ensures forall h :: src.blob(h) == Objects.RetrieveBlob(store, h, sha1)
  {
    Source(
      h => Objects.RetrieveCommit(store, h, sha1, localZone),
      h => Objects.RetrieveTree(store, h),
      h => Objects.RetrieveBlob(store, h, sha1))
  }

  /** `filepath.Join(base, name)` without its cleaning step: the two parts
      are glued with one `/`, so `.`, `..` and empty parts stay as written. */
  function JoinPath(base: Str, name: Str): Str {
    if base == [] then name else if name == [] then base else base + "/" + name
  }

  /** `p` is `q` or lies below the directory `q`; every path lies below the
      root, the empty path. */
  predicate Within(p: Str, q: Str) {
    q == [] || p == q || HasPrefix(p, q + "/")
  }

  /** `p` is one of the paths a restore of `entries` at `base` may write. */
  predicate Covered(p: Str, base: Str, entries: seq<Tree.Entry>) {
    exists i | 0 <= i < |entries| :: Within(p, JoinPath(base, entries[i].name))
  }

  /** The test `removeTrackedFiles` skips a path for: it lies inside the
      `.notgit` directory (the directory's own name does not count). */
  predicate InsideNotgit(p: Str) {
    HasPrefix(p, ".notgit/")
  }

  /** The working tree once the tracked files outside `.notgit` are
      removed; a tracked file that is already missing is no error. */
  function Kept(work: Work, tracked: set<Str>): (r: Work)
    ensures forall p :: p in r <==> p in work && (p !in tracked || InsideNotgit(p))
    ensures forall p | p in r :: r[p] == work[p]
  {
    map p | p in work && (p !in tracked || InsideNotgit(p)) :: work[p]
  }

  /** The removal loop of `removeTrackedFiles`, over the tracked set in an
      unspecified order. */
  method RemoveTrackedFiles(work: Work, tracked: set<Str>) returns (r: Work)
    ensures r == Kept(work, tracked)
  {
    r := work;
    var rest := tracked;
    while rest != {}
      invariant rest <= tracked
      invariant forall p :: p in r <==> p in work && (p !in tracked - rest || InsideNotgit(p))
      invariant forall p | p in r :: r[p] == work[p]
      decreases |rest|
    {
      var p :| p in rest;
      if !InsideNotgit(p) {
        r := r - {p};
      }
      rest := rest - {p};
    }
    assert r.Keys == Kept(work, tracked).Keys;
  }

  /** What a restore did to the working tree, and the error that stopped it
      (the files it wrote before that stay written). */
  datatype Effect = Effect(work: Work, failure: Option<Error>)

  /** `restoreTreeToWorkingDirectory`: in entry order, a blob entry's
      content is written at its path and a tree entry is restored below
      its path, stopping at the first object that cannot be loaded. */
  function Restore(src: Source, es: seq<Tree.Entry>, base: Str, work: Work, fuel: nat): (r: Effect)
    decreases fuel, |es|
  {
    if |es| == 0 then Effect(work, None)
    else
      var e := es[0];
      var path := JoinPath(base, e.name);
      if e.kind == Tree.TreeKind then
        if fuel == 0 then Effect(work, Some(Exhausted))
        else
          match src.tree(e.hash)
          case Err(err) => Effect(work, Some(err))
          case Ok(sub) =>
            var inner := Restore(src, sub.entries, path, work, fuel - 1);
            if inner.failure.Some? then inner
            else Restore(src, es[1..], base, inner.work, fuel)
      else
        match src.blob(e.hash)
        case Err(err) => Effect(work, Some(err))
        case Ok(b) => Restore(src, es[1..], base, work[path := b.content], fuel)
  }

  /** Restoring a blob entry whose object was just stored writes the
      stored content at the entry's path. */
  lemma RestoreStoredBlob(s: Objects.Store, content: Str, sha1: Hasher, localZone: int -> Str,
                          name: Str, base: Str, work: Work, fuel: nat)
    requires |content| <= Numbers.MaxInt64
    requires Objects.NoCollision(s, Objects.Serialize(Objects.BlobObject(Blob.NewBlob(content, sha1))), sha1)
    ensures var (s1, h) := Objects.StoreObject(s, Objects.BlobObject(Blob.NewBlob(content, sha1)), sha1);
      Restore(FromStore(s1, sha1, localZone), [Tree.Entry(name, h, Tree.BlobKind)], base, work, fuel)
        == Effect(work[JoinPath(base, name) := content], None)
  {
    Objects.StoreRetrieveBlob(s, content, sha1);
  }

  /** Nothing outside `covered` appears, disappears or changes, and nothing
      is removed anywhere. */
  ghost predicate Frame(before: Work, after: Work, base: Str, es: seq<Tree.Entry>) {
    && before.Keys <= after.Keys
    && forall p | !Covered(p, base, es) :: (p in after <==> p in before) && (p in before ==> after[p] == before[p])
  }

  lemma WithinJoin(p: Str, q: Str, n: Str)
    requires Within(p, JoinPath(q, n))
    ensures Within(p, q)
  {
    if q != [] && n != [] {
      var j := q + "/" + n;
      assert j[..|q| + 1] == q + "/";
      if p == j {
        assert p[..|q| + 1] == q + "/";
      } else {
        assert p[..|j| + 1] == j + "/";
        assert p[..|q| + 1] == (j + "/")[..|q| + 1];
      }
    }
  }

  /** A restore only writes paths its entries cover, and removes nothing. */
  lemma {:induction false} RestoreFrame(src: Source, es: seq<Tree.Entry>, base: Str, work: Work, fuel: nat)
    ensures Frame(work, Restore(src, es, base, work, fuel).work, base, es)
    decreases fuel, |es|
  {
    if |es| > 0 {
      var e := es[0];
      var path := JoinPath(base, e.name);
      var r := Restore(src, es, base, work, fuel);
      assert forall i | 0 <= i < |es| - 1 :: es[1..][i] == es[i + 1];
      assert forall p | !Covered(p, base, es) :: !Covered(p, base, es[1..]) && !Within(p, path);
      if e.kind == Tree.TreeKind {
        if fuel > 0 && src.tree(e.hash).Ok? {
          var sub := src.tree(e.hash).value;
          var inner := Restore(src, sub.entries, path, work, fuel - 1);
          RestoreFrame(src, sub.entries, path, work, fuel - 1);
          forall p | !Within(p, path) ensures !Covered(p, path, sub.entries) {
            if Covered(p, path, sub.entries) {
              var i :| 0 <= i < |sub.entries| && Within(p, JoinPath(path, sub.entries[i].name));
              WithinJoin(p, path, sub.entries[i].name);
            }
          }
          if inner.failure.None? {
            RestoreFrame(src, es[1..], base, inner.work, fuel);
          }
        }
      } else if src.blob(e.hash).Ok? {
        var w := work[path := src.blob(e.hash).value.content];
        RestoreFrame(src, es[1..], base, w, fuel);
        assert Within(path, path);
      }
    }
  }

  /** A name a directory entry can have: not empty, no separator. */
  predicate Plain(n: Str) {
    n != [] && '/' !in n
  }

  /** Blob entries with plain names whose blobs all load. */
  predicate FlatBlobs(src: Source, es: seq<Tree.Entry>) {
    forall i | 0 <= i < |es| :: es[i].kind == Tree.BlobKind && Plain(es[i].name) && src.blob(es[i].hash).Ok?
  }

  /** Two different plain names in one directory do not cover each other. */
  lemma JoinSeparate(base: Str, m: Str, n: Str)
    requires Plain(m) && Plain(n) && m != n
    ensures !Within(JoinPath(base, m), JoinPath(base, n))
  {
    var a, b := JoinPath(base, m), JoinPath(base, n);
    var k := if base == [] then 0 else |base| + 1;
    assert a[k..] == m && b[k..] == n && |b| == k + |n|;
    assert |a| > |b| ==> a[|b|] == m[|n|] && a[..|b| + 1][|b|] == a[|b|];
    assert (b + "/")[|b|] == '/';
  }

  /** A flat tree of loadable blobs with distinct names restores completely:
      every entry's content ends up at its path. */
  lemma {:induction false} RestoreFlat(src: Source, es: seq<Tree.Entry>, base: Str, work: Work, fuel: nat)
    requires FlatBlobs(src, es) && Tree.UniqueNames(es)
    ensures Restore(src, es, base, work, fuel).failure.None?
    ensures forall i | 0 <= i < |es| ::
      && JoinPath(base, es[i].name) in Restore(src, es, base, work, fuel).work
      && Restore(src, es, base, work, fuel).work[JoinPath(base, es[i].name)] == src.blob(es[i].hash).value.content
    decreases |es|
  {
    if |es| > 0 {
      var e := es[0];
      var path := JoinPath(base, e.name);
      var w := work[path := src.blob(e.hash).value.content];
      var rest := es[1..];
      assert FlatBlobs(src, rest) && Tree.UniqueNames(rest) by {
        assert forall i | 0 <= i < |rest| :: rest[i] == es[i + 1];
      }
      RestoreFlat(src, rest, base, w, fuel);
      RestoreFrame(src, rest, base, w, fuel);
      var r := Restore(src, es, base, work, fuel);
      assert r == Restore(src, rest, base, w, fuel);
      assert !Covered(path, base, rest) by {
        forall i | 0 <= i < |rest| ensures !Within(path, JoinPath(base, rest[i].name)) {
          assert rest[i] == es[i + 1];
          JoinSeparate(base, e.name, rest[i].name);
        }
      }
      forall i | 0 <= i < |es|
        ensures JoinPath(base, es[i].name) in r.work
        ensures r.work[JoinPath(base, es[i].name)] == src.blob(es[i].hash).value.content
      {
        if i > 0 {
          assert es[i] == rest[i - 1];
        }
      }
    }
  }

  /** `updateWorkingDirectory` from the point where the target tree is
      loaded: remove what the index tracks, then restore the tree at the
      repository root. */
  function Checkout(src: Source, tracked: set<Str>, target: Tree.Tree, work: Work, fuel: nat): (r: Effect)
  {
    Restore(src, target.entries, [], Kept(work, tracked), fuel)
  }

  /** Untracked files survive a checkout unless the target tree covers
      them; tracked files outside `.notgit` the tree does not cover are
      gone. */
  lemma CheckoutKeepsUntracked(src: Source, tracked: set<Str>, target: Tree.Tree, work: Work, fuel: nat, p: Str)
    requires !Covered(p, [], target.entries)
    ensures var r := Checkout(src, tracked, target, work, fuel);
      && (p in work && (p !in tracked || InsideNotgit(p)) ==> p in r.work && r.work[p] == work[p])
      && (p in tracked && !InsideNotgit(p) ==> p !in r.work)
  {
    RestoreFrame(src, target.entries, [], Kept(work, tracked), fuel);
  }

  /** The paths the index tracks: the `Path` field of each entry (not the
      key it is filed under). */
  function Tracked(idx: Index.Index): set<Str> {
    set k | k in idx.entries :: idx.entries[k].path
  }

  /** The common tail of `updateWorkingDirectory` and
      `performFastForwardMerge`: load the commit, its tree and the index, in
      that order, then remove the tracked files and restore the tree. */
  function UpdateWorkingTree(src: Source, index: Index.IndexFile, commitHash: Str, work: Work, fuel: nat): (r: Effect)
    ensures r.work != work ==>
      && src.commit(commitHash).Ok?
      && src.tree(src.commit(commitHash).value.tree).Ok?
      && Index.LoadIndex(index).Ok?
    ensures src.commit(commitHash).Err? ==> r == Effect(work, Some(src.commit(commitHash).error))
    ensures r.failure.None? ==>
      && src.commit(commitHash).Ok?
      && src.tree(src.commit(commitHash).value.tree).Ok?
      && Index.LoadIndex(index).Ok?
      && r == Checkout(src, Tracked(Index.LoadIndex(index).value),
                       src.tree(src.commit(commitHash).value.tree).value, work, fuel)
  {
    match src.commit(commitHash)
    case Err(e) => Effect(work, Some(e))
    case Ok(c) =>
      match src.tree(c.tree)
      case Err(e) => Effect(work, Some(e))
      case Ok(t) =>
        match Index.LoadIndex(index)
        case Err(e) => Effect(work, Some(e))
        case Ok(idx) => Checkout(src, Tracked(idx), t, work, fuel)
  }
}

=== FILE: commit.dfy ===
/** Commits as stored objects: `internal/objects/commit/commit.go`. */
module Commit {
  import opened Wrappers
  import opened Bytes
  import opened Numbers

  /** A `time.Time` as the commit text sees it: seconds since the epoch and
      the `-0700`-style offset its location formats to. */
  datatype Time = Time(unix: int, zone: Str)

  /** The zero `time.Time`: year 1 in UTC. */
  const ZeroTime := Time(-62135596800, "+0000")

  datatype Signature = Signature(name: Str, email: Str, time: Time)

  /** The zero `Signature` a commit keeps when its text has no author or no
      committer line. */
  const NoSignature := Signature([], [], ZeroTime)

  datatype Commit = Commit(
    tree: Str, parents: seq<Str>, author: Signature, committer: Signature,
    message: Str, hash: Str)

  /** `<name> <<email>> <unix> <zone>`. */
  function SigText(s: Signature): Str {
    s.name + " <" + s.email + "> " + IntText(s.time.unix) + " " + s.time.zone
  }

  function ParentLines(ps: seq<Str>): (r: seq<Str>)
    ensures |r| == |ps|
    ensures forall i | 0 <= i < |ps| :: r[i] == "parent " + ps[i]
  {
    if |ps| == 0 then [] else ["parent " + ps[0]] + ParentLines(ps[1..])
  }

  /** The header lines in the order `Serialize` writes them. */
  function HeaderLines(c: Commit): seq<Str> {
    ["tree " + c.tree] + ParentLines(c.parents)
      + ["author " + SigText(c.author), "committer " + SigText(c.committer)]
  }

  /** Each header line with its newline, an empty line, then the message. */
  function Content(c: Commit): Str {
    Terminated(HeaderLines(c), '\n') + ("\n" + c.message)
  }

  /** `"commit <len>\0"` followed by the content. */
  function Serialize(c: Commit): (r: Str)
    ensures HasPrefix(r, "commit ")
    ensures IndexOf(r, '\0') >= 0 && r[IndexOf(r, '\0') + 1..] == Content(c)
    ensures r[..IndexOf(r, '\0')] == "commit " + Decimal(|Content(c)|)
  {
    Frame(Content(c))
  }

  /** The header and the bytes it announces. */
  function Frame(body: Str): (r: Str)
    ensures HasPrefix(r, "commit ")
    ensures IndexOf(r, '\0') >= 0 && r[IndexOf(r, '\0') + 1..] == body
    ensures r[..IndexOf(r, '\0')] == "commit " + Decimal(|body|)
  {
    var top: Str := "commit " + Decimal(|body|);
    var r: Str := top + "\0" + body;
    assert '\0' !in top;
    FrameSplit(top, body);
    assert r[..7] == "commit ";
    r
  }

  /** `ComputeHash`: the SHA-1 of the serialized commit, which does not
      depend on the hash field. */
  function ComputeHash(c: Commit, sha1: Hasher): (r: Commit)
    ensures r.hash == sha1(Serialize(r))
    ensures r.(hash := c.hash) == c
  {
    c.(hash := sha1(Serialize(c)))
  }

  /** `time.Unix(ts, 0)`: the instant in the local zone, whatever zone the
      text named. */
  function LocalTime(ts: int, localZone: int -> Str): Time {
    Time(ts, localZone(ts))
  }

  /** `parseSignature`: the name ends at the first ` <`, and the rest is
      read by `ParseAddress`. */
  function ParseSignature(input: Str, localZone: int -> Str): (r: Result<Signature>)
    ensures Find(input, " <") < 0 ==> r == Err(MissingLessThan)
    ensures 0 <= Find(input, " <") ==>
      var a := ParseAddress(input[Find(input, " <") + 2..], localZone);
      && (a.Err? ==> r == Err(a.error))
      && (a.Ok? ==> r == Ok(Signature(input[..Find(input, " <")], a.value.0, a.value.1)))
    ensures r.Ok? ==> 0 <= Find(input, " <") && r.value.name == input[..Find(input, " <")]
    ensures r.Ok? ==> !Contains(r.value.name, " <") && !Contains(r.value.email, "> ")
    ensures r.Ok? ==> r.value.time == LocalTime(r.value.time.unix, localZone) && InInt64(r.value.time.unix)
  {
    var i := Find(input, " <");
    if i < 0 then Err(MissingLessThan)
    else
      var a :- ParseAddress(input[i + 2..], localZone);
      FindPrefixFree(input, " <");
      Ok(Signature(input[..i], a.0, a.1))
  }

  /** The part of `parseSignature` after the name's ` <`: the email ends at
      the first `> `, and the timestamp at the first space after that; the
      text after that space is read by nobody. */
  function ParseAddress(rest: Str, localZone: int -> Str): (r: Result<(Str, Time)>)
    ensures var j := Find(rest, "> ");
      && (j < 0 ==> r == Err(MissingGreaterThan))
      && (0 <= j ==>
            var rest2 := rest[j + 2..];
            var k := IndexOf(rest2, ' ');
            && (k < 0 ==> r == Err(BadTimeFormat))
            && (0 <= k && ParseInt64(rest2[..k]).None? ==> r == Err(BadTimestamp))
            && (r.Ok? ==> r.value.0 == rest[..j] && ParseInt64(rest2[..k]) == Some(r.value.1.unix)))
    ensures r.Ok? ==> !Contains(r.value.0, "> ")
    ensures r.Ok? ==> r.value.1 == LocalTime(r.value.1.unix, localZone) && InInt64(r.value.1.unix)
  {
    var j := Find(rest, "> ");
    if j < 0 then Err(MissingGreaterThan)
    else
      var rest2 := rest[j + 2..];
      var k := IndexOf(rest2, ' ');
      if k < 0 then Err(BadTimeFormat)
      else
        match ParseInt64(rest2[..k])
        case None => Err(BadTimestamp)
        case Some(ts) =>
          FindPrefixFree(rest, "> ");
          Ok((rest[..j], LocalTime(ts, localZone)))
  }

  /** The loop of `DeserializeCommit` over the lines of the content. The
      first empty line ends the header, and everything after it, rejoined
      with newlines, is the message; `tree` and the signatures keep the last
      value seen, `parent` lines accumulate, other lines are ignored. */
  function ParseHeaders(lines: seq<Str>, acc: Commit, localZone: int -> Str): (r: Result<Commit>)
    ensures r.Ok? && (forall i | 0 <= i < |lines| :: |lines[i]| > 0) ==> r.value.message == acc.message
    ensures r.Ok? ==> r.value.hash == acc.hash && |r.value.parents| >= |acc.parents|
    decreases |lines|
  {
    if |lines| == 0 then Ok(acc)
    else if |lines[0]| == 0 then Ok(acc.(message := Join(lines[1..], '\n')))
    else
      match Step(lines[0], acc, localZone)
      case Err(e) => Err(e)
      case Ok(next) => ParseHeaders(lines[1..], next, localZone)
  }

  /** One non-empty header line: `tree` and the signatures replace their
      field, `parent` appends, a signature that does not parse is an
      error, and any other line changes nothing. */
  function Step(line: Str, acc: Commit, localZone: int -> Str): (r: Result<Commit>)
    ensures r.Ok? ==> r.value.hash == acc.hash && r.value.message == acc.message && |r.value.parents| >= |acc.parents|
  {
    if HasPrefix(line, "tree ") then Ok(acc.(tree := line[5..]))
    else if HasPrefix(line, "parent ") then Ok(acc.(parents := acc.parents + [line[7..]]))
    else if HasPrefix(line, "author ") then
      match ParseSignature(line[7..], localZone)
      case Err(e) => Err(e)
      case Ok(s) => Ok(acc.(author := s))
    else if HasPrefix(line, "committer ") then
      match ParseSignature(line[10..], localZone)
      case Err(e) => Err(e)
      case Ok(s) => Ok(acc.(committer := s))
    else Ok(acc)
  }

  const EmptyCommit := Commit([], [], NoSignature, NoSignature, [], [])

  /** `DeserializeCommit`: fails without a NUL byte (the header before it is
      never read), parses the lines after it, and recomputes the hash from
      the parsed commit instead of taking it from the input. A failure of
      the line loop is the result. */
  function DeserializeCommit(data: Str, sha1: Hasher, localZone: int -> Str): (r: Result<Commit>)
    ensures '\0' !in data ==> r == Err(MissingNul)
    ensures '\0' in data ==>
      var p := ParseHeaders(Split(data[IndexOf(data, '\0') + 1..], '\n'), EmptyCommit, localZone);
      && (p.Err? ==> r == Err(p.error))
      && (p.Ok? ==> r == Ok(ComputeHash(p.value, sha1)))
    ensures r.Ok? ==> r.value.hash == sha1(Serialize(r.value))
  {
    var nul := IndexOf(data, '\0');
    if nul < 0 then Err(MissingNul)
    else
      var p := ParseHeaders(Split(data[nul + 1..], '\n'), EmptyCommit, localZone);
      if p.Err? then Err(p.error) else Ok(ComputeHash(p.value, sha1))
  }

  /** Whatever stands before the first NUL is never read. */
  lemma HeaderIgnored(top: Str, body: Str, sha1: Hasher, localZone: int -> Str)
    requires '\0' !in top
    ensures DeserializeCommit(top + "\0" + body, sha1, localZone) == DeserializeCommit("\0" + body, sha1, localZone)
  {
    var data := top + "\0" + body;
    IndexOfPrefix(top + "\0", body, '\0');
    assert data[|top| + 1..] == body;
    assert ("\0" + body)[1..] == body;
  }

  // Reading header lines

  /** The lines `ParseHeaders` reads as header lines: those before the
      first empty one. */
  function HeaderPart(lines: seq<Str>): (r: seq<Str>)
    ensures |r| <= |lines| && r == lines[..|r|]
    ensures forall i | 0 <= i < |r| :: |r[i]| > 0
    ensures |r| < |lines| ==> lines[|r|] == []
    decreases |lines|
  {
    if |lines| == 0 || |lines[0]| == 0 then []
    else [lines[0]] + HeaderPart(lines[1..])
  }

  /** The text after `key` on the last line that starts with it (see
      `LastValueIsLast`). */
  function LastValue(lines: seq<Str>, key: Str): Option<Str>
    decreases |lines|
  {
    if |lines| == 0 then None
    else
      var later := LastValue(lines[1..], key);
      if later.Some? then later
      else if HasPrefix(lines[0], key) then Some(lines[0][|key|..])
      else None
  }

  /** The text after `key` on every line that starts with it, in order. */
  function Values(lines: seq<Str>, key: Str): seq<Str>
    decreases |lines|
  {
    if |lines| == 0 then []
    else (if HasPrefix(lines[0], key) then [lines[0][|key|..]] else []) + Values(lines[1..], key)
  }

  /** The signature an `author` or `committer` line carries. */
  function LineSig(line: Str, localZone: int -> Str): Result<Signature>
    requires HasPrefix(line, "author ") || HasPrefix(line, "committer ")
  {
    if HasPrefix(line, "author ") then ParseSignature(line[7..], localZone)
    else ParseSignature(line[10..], localZone)
  }

  /** The errors of the `author` and `committer` lines whose signature
      does not parse, in line order. */
  function SigErrors(lines: seq<Str>, localZone: int -> Str): seq<Error>
    decreases |lines|
  {
    if |lines| == 0 then []
    else
      var l := lines[0];
      var here := if (HasPrefix(l, "author ") || HasPrefix(l, "committer ")) && LineSig(l, localZone).Err?
                  then [LineSig(l, localZone).error] else [];
      here + SigErrors(lines[1..], localZone)
  }

  /** The four keys start with different letters, so a line has at most
      one of them. */
  lemma KeysExclusive(l: Str)
    ensures HasPrefix(l, "tree ") ==> l[0] == 't' && !HasPrefix(l, "parent ") && !HasPrefix(l, "author ") && !HasPrefix(l, "committer ")
    ensures HasPrefix(l, "parent ") ==> l[0] == 'p' && !HasPrefix(l, "author ") && !HasPrefix(l, "committer ")
    ensures HasPrefix(l, "author ") ==> l[0] == 'a' && !HasPrefix(l, "committer ")
  {
    if HasPrefix(l, "tree ") { assert l[0] == l[..5][0]; }
    if HasPrefix(l, "parent ") { assert l[0] == l[..7][0]; }
    if HasPrefix(l, "author ") { assert l[0] == l[..7][0]; }
    if HasPrefix(l, "committer ") { assert l[0] == l[..10][0]; }
  }

  /** A non-empty first line is a header line. */
  lemma HeaderPartCons(l: Str, rest: seq<Str>)
    requires |l| > 0
    ensures HeaderPart([l] + rest) == [l] + HeaderPart(rest)
  {
    assert ([l] + rest)[1..] == rest;
  }

  /** Adding a line in front changes the last value only when no later
      line has the key. */
  lemma LastValueCons(l: Str, ls: seq<Str>, key: Str)
    ensures LastValue([l] + ls, key) ==
      if LastValue(ls, key).Some? then LastValue(ls, key)
      else if HasPrefix(l, key) then Some(l[|key|..]) else None
  {
    assert ([l] + ls)[0] == l && ([l] + ls)[1..] == ls;
  }

  /** `LastValue` finds a value exactly when some line has the key, and
      the value it finds is that of a line with no keyed line after it. */
  lemma {:induction false} LastValueIsLast(lines: seq<Str>, key: Str)
    ensures LastValue(lines, key).Some? <==> exists i | 0 <= i < |lines| :: HasPrefix(lines[i], key)
    ensures LastValue(lines, key).Some? ==>
      exists i | 0 <= i < |lines| ::
        && HasPrefix(lines[i], key)
        && LastValue(lines, key).value == lines[i][|key|..]
        && forall j | i < j < |lines| :: !HasPrefix(lines[j], key)
    decreases |lines|
  {
    if |lines| > 0 {
      var rest := lines[1..];
      LastValueIsLast(rest, key);
      if LastValue(rest, key).Some? {
        var i :| 0 <= i < |rest| && HasPrefix(rest[i], key) && LastValue(rest, key).value == rest[i][|key|..]
          && forall j | i < j < |rest| :: !HasPrefix(rest[j], key);
        assert lines[i + 1] == rest[i];
        forall j | i + 1 < j < |lines|
          ensures !HasPrefix(lines[j], key)
        {
          assert lines[j] == rest[j - 1];
        }
      } else {
        forall j | 0 < j < |lines|
          ensures !HasPrefix(lines[j], key)
        {
          assert lines[j] == rest[j - 1];
        }
      }
    }
  }

  /** An `author` line fails the parse with its signature's error, or
      sets the author and reads on. */
  lemma AuthorLineRead(l: Str, rest: seq<Str>, acc: Commit, localZone: int -> Str)
    requires HasPrefix(l, "author ")
    ensures ParseSignature(l[7..], localZone).Err? ==>
      ParseHeaders([l] + rest, acc, localZone) == Err(ParseSignature(l[7..], localZone).error)
    ensures ParseSignature(l[7..], localZone).Ok? ==>
      ParseHeaders([l] + rest, acc, localZone)
        == ParseHeaders(rest, acc.(author := ParseSignature(l[7..], localZone).value), localZone)
  {
    KeysExclusive(l);
    assert ([l] + rest)[0] == l && ([l] + rest)[1..] == rest;
  }

  /** A `committer` line fails the parse with its signature's error, or
      sets the committer and reads on. */
  lemma CommitterLineRead(l: Str, rest: seq<Str>, acc: Commit, localZone: int -> Str)
    requires HasPrefix(l, "committer ")
    ensures ParseSignature(l[10..], localZone).Err? ==>
      ParseHeaders([l] + rest, acc, localZone) == Err(ParseSignature(l[10..], localZone).error)
    ensures ParseSignature(l[10..], localZone).Ok? ==>
      ParseHeaders([l] + rest, acc, localZone)
        == ParseHeaders(rest, acc.(committer := ParseSignature(l[10..], localZone).value), localZone)
  {
    KeysExclusive(l);
    assert ([l] + rest)[0] == l && ([l] + rest)[1..] == rest;
  }

  /** A non-empty line with none of the four keys is skipped. */
  lemma OtherLineSkipped(l: Str, rest: seq<Str>, acc: Commit, localZone: int -> Str)
    requires |l| > 0
    requires !HasPrefix(l, "tree ") && !HasPrefix(l, "parent ") && !HasPrefix(l, "author ") && !HasPrefix(l, "committer ")
    ensures ParseHeaders([l] + rest, acc, localZone) == ParseHeaders(rest, acc, localZone)
  {
    assert ([l] + rest)[1..] == rest;
  }

  /** The line loop fails exactly when a header line carries a signature
      that does not parse, and then with the first such line's error. */
  lemma {:induction false} ParseHeadersFails(lines: seq<Str>, acc: Commit, localZone: int -> Str)
    ensures var errs := SigErrors(HeaderPart(lines), localZone);
      var r := ParseHeaders(lines, acc, localZone);
      && (r.Err? <==> |errs| > 0)
      && (r.Err? ==> r.error == errs[0])
    decreases |lines|
  {
    if |lines| > 0 && |lines[0]| > 0 {
      var l, rest := lines[0], lines[1..];
      HeaderPartCons(l, rest);
      var h := HeaderPart(rest);
      assert ([l] + h)[0] == l && ([l] + h)[1..] == h;
      KeysExclusive(l);
      if Step(l, acc, localZone).Ok? {
        ParseHeadersFails(rest, Step(l, acc, localZone).value, localZone);
      }
    }
  }

  /** What one header line does to each field. */
  lemma StepFields(l: Str, acc: Commit, localZone: int -> Str)
    requires Step(l, acc, localZone).Ok?
    ensures var c := Step(l, acc, localZone).value;
      && c.tree == (if HasPrefix(l, "tree ") then l[5..] else acc.tree)
      && (HasPrefix(l, "parent ") ==> c.parents == acc.parents + [l[7..]])
      && (!HasPrefix(l, "parent ") ==> c.parents == acc.parents)
      && c.hash == acc.hash
  {
    KeysExclusive(l);
  }

  /** A non-empty first line goes through `Step`. */
  lemma ParseHeadersHead(lines: seq<Str>, acc: Commit, localZone: int -> Str)
    requires |lines| > 0 && |lines[0]| > 0 && Step(lines[0], acc, localZone).Ok?
    ensures ParseHeaders(lines, acc, localZone) == ParseHeaders(lines[1..], Step(lines[0], acc, localZone).value, localZone)
    ensures HeaderPart(lines) == [lines[0]] + HeaderPart(lines[1..])
  {
  }

  /** Values of a line in front come first. */
  lemma ValuesCons(l: Str, ls: seq<Str>, key: Str)
    ensures HasPrefix(l, key) ==> Values([l] + ls, key) == [l[|key|..]] + Values(ls, key)
    ensures !HasPrefix(l, key) ==> Values([l] + ls, key) == Values(ls, key)
  {
    assert ([l] + ls)[0] == l && ([l] + ls)[1..] == ls;
  }

  /** Concatenation is associative; stated once so that the parents proof
      does not search for it. */
  lemma AppendAssoc<T>(a: seq<T>, b: seq<T>, c: seq<T>)
    ensures a + b + c == a + (b + c)
  {
  }

  /** A successful line loop keeps the last `tree` value; without a
      `tree` line the tree is kept, and the hash is never touched. */
  lemma {:induction false} ParseHeadersTree(lines: seq<Str>, acc: Commit, localZone: int -> Str)
    requires ParseHeaders(lines, acc, localZone).Ok?
    ensures var c := ParseHeaders(lines, acc, localZone).value;
      && c.tree == (if LastValue(HeaderPart(lines), "tree ").Some? then LastValue(HeaderPart(lines), "tree ").value else acc.tree)
      && c.hash == acc.hash
    decreases |lines|
  {
    if |lines| > 0 && |lines[0]| > 0 {
      var l, rest := lines[0], lines[1..];
      ParseHeadersHead(lines, acc, localZone);
      ParseHeadersTree(rest, Step(l, acc, localZone).value, localZone);
      StepFields(l, acc, localZone);
      LastValueCons(l, HeaderPart(rest), "tree ");
    } else {
      assert HeaderPart(lines) == [];
    }
  }

  /** A successful line loop appends every `parent` value, in order, to
      the ones already held. */
  lemma {:induction false} ParseHeadersParents(lines: seq<Str>, acc: Commit, localZone: int -> Str)
    requires ParseHeaders(lines, acc, localZone).Ok?
    ensures ParseHeaders(lines, acc, localZone).value.parents == acc.parents + Values(HeaderPart(lines), "parent ")
    decreases |lines|
  {
    if |lines| > 0 && |lines[0]| > 0 {
      var l, rest := lines[0], lines[1..];
      ParseHeadersHead(lines, acc, localZone);
      ParseHeadersParents(rest, Step(l, acc, localZone).value, localZone);
      StepFields(l, acc, localZone);
      var h := HeaderPart(rest);
      ValuesCons(l, h, "parent ");
      if HasPrefix(l, "parent ") {
        AppendAssoc(acc.parents, [l[7..]], Values(h, "parent "));
      }
    } else {
      assert HeaderPart(lines) == [];
    }
  }

  /** What one header line does to the author. */
  lemma StepAuthor(l: Str, acc: Commit, localZone: int -> Str)
    requires Step(l, acc, localZone).Ok?
    ensures HasPrefix(l, "author ") ==> ParseSignature(l[7..], localZone).Ok?
    ensures Step(l, acc, localZone).value.author ==
      if HasPrefix(l, "author ") then ParseSignature(l[7..], localZone).value else acc.author
  {
    KeysExclusive(l);
  }

  /** What one header line does to the committer. */
  lemma StepCommitter(l: Str, acc: Commit, localZone: int -> Str)
    requires Step(l, acc, localZone).Ok?
    ensures HasPrefix(l, "committer ") ==> ParseSignature(l[10..], localZone).Ok?
    ensures Step(l, acc, localZone).value.committer ==
      if HasPrefix(l, "committer ") then ParseSignature(l[10..], localZone).value else acc.committer
  {
    KeysExclusive(l);
  }

  /** Without a `author` header line a successful line loop keeps the
      author. */
  lemma {:induction false} ParseHeadersNoAuthor(lines: seq<Str>, acc: Commit, localZone: int -> Str)
    requires ParseHeaders(lines, acc, localZone).Ok?
    requires LastValue(HeaderPart(lines), "author ").None?
    ensures ParseHeaders(lines, acc, localZone).value.author == acc.author
    decreases |lines|
  {
    if |lines| > 0 && |lines[0]| > 0 {
      var l, rest := lines[0], lines[1..];
      ParseHeadersHead(lines, acc, localZone);
      LastValueCons(l, HeaderPart(rest), "author ");
      StepAuthor(l, acc, localZone);
      ParseHeadersNoAuthor(rest, Step(l, acc, localZone).value, localZone);
    }
  }

  /** A successful line loop keeps the signature of the last `author`
      line. */
  lemma {:induction false} ParseHeadersAuthor(lines: seq<Str>, acc: Commit, localZone: int -> Str)
    requires ParseHeaders(lines, acc, localZone).Ok?
    requires LastValue(HeaderPart(lines), "author ").Some?
    ensures var x := LastValue(HeaderPart(lines), "author ").value;
      ParseSignature(x, localZone).Ok? && ParseHeaders(lines, acc, localZone).value.author == ParseSignature(x, localZone).value
    decreases |lines|
  {
    var l, rest := lines[0], lines[1..];
    ParseHeadersHead(lines, acc, localZone);
    var h := HeaderPart(rest);
    LastValueCons(l, h, "author ");
    var next := Step(l, acc, localZone).value;
    if LastValue(h, "author ").Some? {
      ParseHeadersAuthor(rest, next, localZone);
    } else {
      StepAuthor(l, acc, localZone);
      ParseHeadersNoAuthor(rest, next, localZone);
    }
  }

  /** Without a `committer` header line a successful line loop keeps the
      committer. */
  lemma {:induction false} ParseHeadersNoCommitter(lines: seq<Str>, acc: Commit, localZone: int -> Str)
    requires ParseHeaders(lines, acc, localZone).Ok?
    requires LastValue(HeaderPart(lines), "committer ").None?
    ensures ParseHeaders(lines, acc, localZone).value.committer == acc.committer
    decreases |lines|
  {
    if |lines| > 0 && |lines[0]| > 0 {
      var l, rest := lines[0], lines[1..];
      ParseHeadersHead(lines, acc, localZone);
      LastValueCons(l, HeaderPart(rest), "committer ");
      StepCommitter(l, acc, localZone);
      ParseHeadersNoCommitter(rest, Step(l, acc, localZone).value, localZone);
    }
  }

  /** A successful line loop keeps the signature of the last `committer`
      line. */
  lemma {:induction false} ParseHeadersCommitter(lines: seq<Str>, acc: Commit, localZone: int -> Str)
    requires ParseHeaders(lines, acc, localZone).Ok?
    requires LastValue(HeaderPart(lines), "committer ").Some?
    ensures var x := LastValue(HeaderPart(lines), "committer ").value;
      ParseSignature(x, localZone).Ok? && ParseHeaders(lines, acc, localZone).value.committer == ParseSignature(x, localZone).value
    decreases |lines|
  {
    var l, rest := lines[0], lines[1..];
    ParseHeadersHead(lines, acc, localZone);
    var h := HeaderPart(rest);
    LastValueCons(l, h, "committer ");
    var next := Step(l, acc, localZone).value;
    if LastValue(h, "committer ").Some? {
      ParseHeadersCommitter(rest, next, localZone);
    } else {
      StepCommitter(l, acc, localZone);
      ParseHeadersNoCommitter(rest, next, localZone);
    }
  }

  /** A successful line loop's message is the lines after the first empty
      one, rejoined with newlines; without an empty line it is kept. */
  lemma {:induction false} ParseHeadersMessage(lines: seq<Str>, acc: Commit, localZone: int -> Str)
    requires ParseHeaders(lines, acc, localZone).Ok?
    ensures var h := HeaderPart(lines);
      ParseHeaders(lines, acc, localZone).value.message
        == if |h| < |lines| then Join(lines[|h| + 1..], '\n') else acc.message
    decreases |lines|
  {
    if |lines| > 0 && |lines[0]| > 0 {
      var l, rest := lines[0], lines[1..];
      ParseHeadersHead(lines, acc, localZone);
      ParseHeadersMessage(rest, Step(l, acc, localZone).value, localZone);
      var h := HeaderPart(rest);
      if |h| < |rest| {
        assert lines[|h| + 2..] == rest[|h| + 1..];
      }
    } else {
      assert HeaderPart(lines) == [];
    }
  }

  // Round trip

  /** What the text form can carry back: no newline inside a field, no
      ` <` in a name, no `> ` in an email, and a 64-bit timestamp. */
  predicate SigWellFormed(s: Signature) {
    && '\n' !in s.name && '\n' !in s.email && '\n' !in s.time.zone
    && !Contains(s.name, " <") && !Contains(s.email, "> ")
    && InInt64(s.time.unix)
  }

  predicate WellFormed(c: Commit) {
    && '\n' !in c.tree
    && (forall i | 0 <= i < |c.parents| :: '\n' !in c.parents[i])
    && SigWellFormed(c.author) && SigWellFormed(c.committer)
  }

  /** A signature as reading it back produces it: same name, email and
      instant, but the local zone in place of the written one. */
  function Localize(s: Signature, localZone: int -> Str): Signature {
    s.(time := LocalTime(s.time.unix, localZone))
  }

  /** How `ParseSignature` succeeds, stated on the pieces of its input. */
  lemma ParseSignatureOf(input: Str, rest: Str, tail: Str, name: Str, email: Str, u: int, localZone: int -> Str)
    requires Find(input, " <") == |name| && input[..|name|] == name && input[|name| + 2..] == rest
    requires Find(rest, "> ") == |email| && rest[..|email|] == email && rest[|email| + 2..] == tail
    requires 0 <= IndexOf(tail, ' ') && ParseInt64(tail[..IndexOf(tail, ' ')]) == Some(u)
    ensures ParseSignature(input, localZone) == Ok(Signature(name, email, LocalTime(u, localZone)))
  {
    var k := IndexOf(tail, ' ');
    assert input[Find(input, " <") + 2..] == rest;
    assert rest[Find(rest, "> ") + 2..] == tail;
    assert ParseInt64(tail[..k]) == Some(u);
  }

  /** `a + sep + b` splits at `sep` into `a` and `b`, for a two-byte `sep`
      that `a` does not contain. */
  lemma SplitAtPair(a: Str, sep: Str, b: Str)
    requires |sep| == 2 && sep[0] != sep[1] && !Contains(a, sep)
    ensures Find(a + sep + b, sep) == |a|
    ensures (a + sep + b)[..|a|] == a && (a + sep + b)[|a| + 2..] == b
  {
    assert (a + sep + b)[..|a|] == a;
    assert (a + sep + b)[|a| + 2..] == b;
    FindAfter(a, sep, b);
  }

  /** A space-free timestamp ends at the first space of the field. */
  lemma TimestampField(ts: Str, zone: Str)
    requires ' ' !in ts
    ensures IndexOf(ts + " " + zone, ' ') == |ts| && (ts + " " + zone)[..|ts|] == ts
  {
    var h := ts + " ";
    assert ts + " " + zone == h + zone && h[..|h| - 1] == ts;
    IndexOfPrefix(h, zone, ' ');
  }

  /** The signature text built from its pieces parses back into them. */
  lemma ParseJoined(input: Str, name: Str, email: Str, ts: Str, zone: Str, u: int, localZone: int -> Str)
    requires !Contains(name, " <") && !Contains(email, "> ")
    requires ' ' !in ts && ParseInt64(ts) == Some(u)
    requires input == name + " <" + (email + "> " + (ts + " " + zone))
    ensures ParseSignature(input, localZone) == Ok(Signature(name, email, LocalTime(u, localZone)))
  {
    var tail := ts + " " + zone;
    var rest := email + "> " + tail;
    SplitAtPair(name, " <", rest);
    SplitAtPair(email, "> ", tail);
    TimestampField(ts, zone);
    ParseSignatureOf(input, rest, tail, name, email, u, localZone);
  }

  /** A written signature reads back as its localized self. */
  lemma ParseSigText(s: Signature, localZone: int -> Str)
    requires SigWellFormed(s)
    ensures ParseSignature(SigText(s), localZone) == Ok(Localize(s, localZone))
  {
    var t := s.time;
    var ts := IntText(t.unix);
    assert SigText(s) == s.name + " <" + (s.email + "> " + (ts + " " + t.zone));
    assert forall i | 0 <= i < |ts| :: ts[i] != ' ';
    ParseIntText(t.unix);
    ParseJoined(SigText(s), s.name, s.email, ts, t.zone, t.unix, localZone);
  }

  lemma KeyPrefix(key: Str, x: Str)
    ensures HasPrefix(key + x, key) && (key + x)[|key|..] == x && |key + x| >= |key|
  {
    assert (key + x)[..|key|] == key;
  }

  lemma NotKeyPrefix(key: Str, x: Str, other: Str, k: nat)
    requires k < |other| <= |key| && key[k] != other[k]
    ensures !HasPrefix(key + x, other)
  {
    assert (key + x)[k] == key[k];
  }

  lemma TreeLine(t: Str, rest: seq<Str>, acc: Commit, localZone: int -> Str)
    ensures ParseHeaders(["tree " + t] + rest, acc, localZone) == ParseHeaders(rest, acc.(tree := t), localZone)
  {
    KeyPrefix("tree ", t);
    assert (["tree " + t] + rest)[1..] == rest;
  }

  lemma ParentLine(p: Str, rest: seq<Str>, acc: Commit, localZone: int -> Str)
    ensures ParseHeaders(["parent " + p] + rest, acc, localZone)
      == ParseHeaders(rest, acc.(parents := acc.parents + [p]), localZone)
  {
    KeyPrefix("parent ", p);
    NotKeyPrefix("parent ", p, "tree ", 0);
    assert (["parent " + p] + rest)[1..] == rest;
  }

  lemma {:induction false} ParentsLines(ps: seq<Str>, rest: seq<Str>, acc: Commit, localZone: int -> Str)
    ensures ParseHeaders(ParentLines(ps) + rest, acc, localZone)
      == ParseHeaders(rest, acc.(parents := acc.parents + ps), localZone)
    decreases |ps|
  {
    if |ps| == 0 {
      assert ParentLines(ps) + rest == rest;
      assert acc.parents + ps == acc.parents;
    } else {
      var next := acc.(parents := acc.parents + [ps[0]]);
      ConsSplit(ParentLines(ps), rest);
      ParentLine(ps[0], ParentLines(ps[1..]) + rest, acc, localZone);
      ParentsLines(ps[1..], rest, next, localZone);
      SnocJoin(acc.parents, ps);
    }
  }

  lemma ConsSplit<T>(xs: seq<T>, rest: seq<T>)
    requires |xs| > 0
    ensures xs + rest == [xs[0]] + (xs[1..] + rest)
  {
    assert xs == [xs[0]] + xs[1..];
  }

  lemma SnocJoin<T>(xs: seq<T>, ys: seq<T>)
    requires |ys| > 0
    ensures (xs + [ys[0]]) + ys[1..] == xs + ys
  {
    assert ys == [ys[0]] + ys[1..];
  }

  lemma AuthorLine(s: Signature, rest: seq<Str>, acc: Commit, localZone: int -> Str)
    requires SigWellFormed(s)
    ensures ParseHeaders(["author " + SigText(s)] + rest, acc, localZone)
      == ParseHeaders(rest, acc.(author := Localize(s, localZone)), localZone)
  {
    KeyPrefix("author ", SigText(s));
    NotKeyPrefix("author ", SigText(s), "tree ", 0);
    NotKeyPrefix("author ", SigText(s), "parent ", 0);
    ParseSigText(s, localZone);
    assert (["author " + SigText(s)] + rest)[1..] == rest;
  }

  lemma CommitterLine(s: Signature, rest: seq<Str>, acc: Commit, localZone: int -> Str)
    requires SigWellFormed(s)
    ensures ParseHeaders(["committer " + SigText(s)] + rest, acc, localZone)
      == ParseHeaders(rest, acc.(committer := Localize(s, localZone)), localZone)
  {
    KeyPrefix("committer ", SigText(s));
    NotKeyPrefix("committer ", SigText(s), "tree ", 0);
    NotKeyPrefix("committer ", SigText(s), "parent ", 0);
    NotKeyPrefix("committer ", SigText(s), "author ", 0);
    ParseSigText(s, localZone);
    assert (["committer " + SigText(s)] + rest)[1..] == rest;
  }

  lemma MessageLines(msg: Str, acc: Commit, localZone: int -> Str)
    ensures ParseHeaders([[]] + Split(msg, '\n'), acc, localZone) == Ok(acc.(message := msg))
  {
    assert ([[]] + Split(msg, '\n'))[1..] == Split(msg, '\n');
    JoinSplit(msg, '\n');
  }

  lemma HeaderLinesNoNewline(c: Commit)
    requires WellFormed(c)
    ensures forall i | 0 <= i < |HeaderLines(c)| :: '\n' !in HeaderLines(c)[i]
  {
    var hs := HeaderLines(c);
    var ps := ParentLines(c.parents);
    SigTextNoNewline(c.author);
    SigTextNoNewline(c.committer);
    forall i | 0 <= i < |hs| ensures '\n' !in hs[i] {
      if i == 0 {
        assert hs[0] == "tree " + c.tree;
      } else if i <= |ps| {
        assert hs[i] == ps[i - 1];
      }
    }
  }

  /** The content splits into the header lines, the empty line and the
      pieces of the message. */
  lemma ContentLines(c: Commit)
    requires WellFormed(c)
    ensures Split(Content(c), '\n') == HeaderLines(c) + ([[]] + Split(c.message, '\n'))
  {
    var empty: Str := [];
    assert "\n" + c.message == empty + ['\n'] + c.message;
    HeaderLinesNoNewline(c);
    SplitTerminated(HeaderLines(c), "\n" + c.message, '\n');
    SplitCons(empty, c.message, '\n');
  }

  lemma SigTextNoNewline(s: Signature)
    requires SigWellFormed(s)
    ensures '\n' !in SigText(s)
  {
    assert '\n' !in IntText(s.time.unix);
  }

  /** The header lines parse to the fields they were written from. */
  lemma HeaderLinesParse(c: Commit, rest: seq<Str>, acc: Commit, localZone: int -> Str)
    requires SigWellFormed(c.author) && SigWellFormed(c.committer)
    ensures ParseHeaders(HeaderLines(c) + rest, acc, localZone)
      == ParseHeaders(rest, acc.(tree := c.tree, parents := acc.parents + c.parents,
                                  author := Localize(c.author, localZone),
                                  committer := Localize(c.committer, localZone)), localZone)
  {
    var a := ["author " + SigText(c.author)];
    var m := ["committer " + SigText(c.committer)];
    var ps := ParentLines(c.parents);
    assert HeaderLines(c) + rest == ["tree " + c.tree] + (ps + (a + (m + rest)));
    var acc1 := acc.(tree := c.tree);
    TreeLine(c.tree, ps + (a + (m + rest)), acc, localZone);
    var acc2 := acc1.(parents := acc1.parents + c.parents);
    ParentsLines(c.parents, a + (m + rest), acc1, localZone);
    var acc3 := acc2.(author := Localize(c.author, localZone));
    AuthorLine(c.author, m + rest, acc2, localZone);
    CommitterLine(c.committer, rest, acc3, localZone);
  }

  /** What a commit reads back as: its own fields with both signatures
      localized. */
  function Reread(c: Commit, localZone: int -> Str): Commit {
    c.(author := Localize(c.author, localZone), committer := Localize(c.committer, localZone))
  }

  /** Round trip: tree hash, parents in order, names, emails, instants and
      message come back; the zones become the local ones and the hash is
      that of the re-read commit. */
  lemma DeserializeSerialize(c: Commit, sha1: Hasher, localZone: int -> Str)
    requires WellFormed(c)
    ensures DeserializeCommit(Serialize(c), sha1, localZone) == Ok(ComputeHash(Reread(c, localZone), sha1))
  {
    var data := Serialize(c);
    var rest := [[]] + Split(c.message, '\n');
    ContentLines(c);
    HeaderLinesParse(c, rest, EmptyCommit, localZone);
    var acc := EmptyCommit.(tree := c.tree, parents := EmptyCommit.parents + c.parents,
                            author := Localize(c.author, localZone),
                            committer := Localize(c.committer, localZone));
    MessageLines(c.message, acc, localZone);
    assert EmptyCommit.parents + c.parents == c.parents;
  }

  /** When both signatures already carry the local zone, the deserialized
      commit is the original with its computed hash. */
  lemma HashRoundTrip(c: Commit, sha1: Hasher, localZone: int -> Str)
    requires WellFormed(c)
    requires c.author.time == LocalTime(c.author.time.unix, localZone)
    requires c.committer.time == LocalTime(c.committer.time.unix, localZone)
    ensures DeserializeCommit(Serialize(c), sha1, localZone) == Ok(ComputeHash(c, sha1))
  {
    DeserializeSerialize(c, sha1, localZone);
    assert Reread(c, localZone) == c;
  }
}

=== FILE: commitcmd.dfy ===
/** `notgit commit -m <message>` (`internal/commands/commit.go`): a flat
    tree from the index, a commit on top of the current branch's commit, and
    the ref update. The clock reading is the parameter `now`; the local and
    global configuration files are maps, `None` when they cannot be loaded. */
module CommitCmd {
  import opened Wrappers
  import opened Bytes
  import Order
  import Scan
  import Tree
  import Commit
  import Objects
  import Index
  import Repository

  type Config = Option<map<Str, Str>>

  /** `GetConfigKeyValue`, its error ignored: a missing file or key reads as
      the empty text. */
  function Value(cfg: Config, key: Str): Str {
    if cfg.Some? && key in cfg.value then cfg.value[key] else []
  }

  /** The first of two values that is not empty. */
  function FirstSet(a: Str, b: Str): Str {
    if a != [] then a else b
  }

  /** `getUserIdentity`: the local configuration first; the global one is
      consulted only when a field is still empty, and fills only the empty
      fields. */
  function GetUserIdentity(local: Config, global: Config): (r: Result<(Str, Str)>)
    ensures var name := FirstSet(Value(local, "user.name"), Value(global, "user.name"));
            var email := FirstSet(Value(local, "user.email"), Value(global, "user.email"));
            && (r.Ok? <==> name != [] && email != [])
            && (r.Ok? ==> r.value == (name, email))
            && (r.Err? ==> r.error == IdentityNotSet)
  {
    var name := Value(local, "user.name");
    var email := Value(local, "user.email");
    var (name, email) :=
      if name == [] || email == [] then
        (if name == [] then Value(global, "user.name") else name,
         if email == [] then Value(global, "user.email") else email)
      else (name, email);
    if name == [] || email == [] then Err(IdentityNotSet) else Ok((name, email))
  }

  /** `readHeadRef`: the path after `ref: ` in the trimmed HEAD; any other
      HEAD is invalid. */
  function ReadHeadRef(fs: Repository.Files): (r: Result<Str>)
    ensures Repository.ReadFile(fs, "HEAD").Err? ==> r == Err(Repository.ReadFile(fs, "HEAD").error)
    ensures Repository.ReadFile(fs, "HEAD").Ok? ==>
      var head := TrimSpace(Repository.ReadFile(fs, "HEAD").value);
      && (r.Ok? <==> HasPrefix(head, "ref: "))
      && (r.Ok? ==> head == "ref: " + r.value)
      && (r.Err? ==> r.error == InvalidHead)
  {
    var data :- Repository.ReadFile(fs, "HEAD");
    var head := TrimSpace(data);
    if HasPrefix(head, "ref: ") then
      assert head == head[..5] + head[5..];
      Ok(head[5..])
    else Err(InvalidHead)
  }

  /** `getParentCommit`, its error ignored: the trimmed content of the ref
      HEAD names, or the empty text when anything fails. */
  function GetParentCommit(fs: Repository.Files): Str {
    match ReadHeadRef(fs)
    case Err(_) => []
    case Ok(refPath) =>
      match Repository.ReadRef(fs, refPath)
      case Err(_) => []
      case Ok(data) => TrimSpace(data)
  }

  /** The parent `commit` uses is the HEAD commit when HEAD names a branch
      whose ref can be read or is missing; an unreadable ref or a detached
      HEAD gives no parent. */
  lemma ParentIsHeadCommit(fs: Repository.Files)
    requires ReadHeadRef(fs).Ok?
    ensures Repository.GetHEADCommitHash(fs).Ok? ==> GetParentCommit(fs) == Repository.GetHEADCommitHash(fs).value
    ensures Repository.GetHEADCommitHash(fs).Err? ==> GetParentCommit(fs) == []
  {
  }

  lemma DetachedHasNoParent(fs: Repository.Files)
    requires ReadHeadRef(fs).Err?
    ensures GetParentCommit(fs) == []
  {
  }

  /** The parent list: none for a root commit, otherwise the one parent. */
  function Parents(parent: Str): (r: seq<Str>)
    ensures |r| <= 1
    ensures r == [] <==> parent == []
    ensures |r| == 1 ==> r[0] == parent
  {
    if parent == [] then [] else [parent]
  }

  /** The tree entries for the index paths in `order`: each a blob named by
      the full path, with the hash the index records. */
  function EntriesIn(idx: Index.Index, order: seq<Str>): (r: seq<Tree.Entry>)
    requires forall i | 0 <= i < |order| :: order[i] in idx.entries
    ensures |r| == |order|
    ensures forall i | 0 <= i < |order| :: r[i] == Tree.Entry(order[i], idx.entries[order[i]].hash, Tree.BlobKind)
  {
    seq(|order|, i requires 0 <= i < |order| => Tree.Entry(order[i], idx.entries[order[i]].hash, Tree.BlobKind))
  }

  /** The tree-building loop, over the index in Go's unspecified map order
      (`order` is the order it took). The tree is flat: one blob entry per
      index path, with the index's hash, each path once. */
  method BuildTree(idx: Index.Index) returns (t: Tree.Tree, order: seq<Str>)
    ensures Order.Distinct(order) && (forall p :: p in order <==> p in idx.entries)
    ensures Tree.Valid(t) && Tree.Agrees(t) && t.hash == []
    ensures t.entries == EntriesIn(idx, order)
    ensures Tree.Names(t.entries) == idx.entries.Keys
  {
    t := Tree.NewTree();
    order := [];
    var rest := idx.entries.Keys;
    while rest != {}
      invariant rest <= idx.entries.Keys
      invariant forall p :: p in order <==> p in idx.entries && p !in rest
      invariant Order.Distinct(order)
      invariant Tree.Valid(t) && Tree.Agrees(t) && t.hash == []
      invariant t.entries == EntriesIn(idx, order)
      decreases |rest|
    {
      var p :| p in rest;
      t := AddStep(idx, t, order, p);
      order := order + [p];
      rest := rest - {p};
    }
    NamesIn(idx, order);
  }

  lemma NamesIn(idx: Index.Index, order: seq<Str>)
    requires forall i | 0 <= i < |order| :: order[i] in idx.entries
    ensures forall p :: p in Tree.Names(EntriesIn(idx, order)) <==> p in order
  {
    var es := EntriesIn(idx, order);
    forall p | p in order ensures p in Tree.Names(es) {
      var i :| 0 <= i < |order| && order[i] == p;
      assert es[i].name == p;
    }
  }

  /** A tree `commit` may build from the index: one blob entry per index
      path, named by the path, with the hash the index records, in some
      order; lookups agree with the entries, and the hash is computed. */
  predicate FlatTreeOf(tree: Tree.Tree, idx: Index.Index, sha1: Hasher) {
    && Tree.Valid(tree) && Tree.Agrees(tree)
    && Tree.Names(tree.entries) == idx.entries.Keys
    && (forall i | 0 <= i < |tree.entries| ::
          var e := tree.entries[i];
          e.kind == Tree.BlobKind && e.name in idx.entries && e.hash == idx.entries[e.name].hash)
    && tree.hash == sha1(Tree.Serialize(tree))
  }

  /** The built tree with its hash computed, as `commit` stores it. */
  method HashedTree(idx: Index.Index, sha1: Hasher) returns (tree: Tree.Tree)
    ensures FlatTreeOf(tree, idx, sha1)
  {
    var built, order := BuildTree(idx);
    tree := Tree.ComputeHash(built, sha1);
    Tree.ComputeHashValid(built, sha1);
  }

  /** One round of the loop: the path is new, so its entry is appended. */
  function AddStep(idx: Index.Index, t: Tree.Tree, order: seq<Str>, p: Str): (r: Tree.Tree)
    requires p in idx.entries && p !in order
    requires forall i | 0 <= i < |order| :: order[i] in idx.entries
    requires Tree.Valid(t) && Tree.Agrees(t) && t.entries == EntriesIn(idx, order)
    ensures Tree.Valid(r) && Tree.Agrees(r) && r.hash == t.hash
    ensures r.entries == EntriesIn(idx, order + [p])
  {
    var e := Tree.Entry(p, idx.entries[p].hash, Tree.BlobKind);
    assert p !in Tree.Names(t.entries);
    Tree.AddEntryAgrees(t, p, e.hash, e.kind);
    var r := Tree.AddEntry(t, p, e.hash, e.kind);
    assert r.entries == t.entries + [e];
    r
  }

  /** The same index in two orders gives two different trees: with paths
      `a` and `b`, the loop may build either entry list below (see
      `BuildTree`), and the serialized bytes, and so (barring a SHA-1
      collision) the tree hash, differ. */
  lemma TreeBytesDependOnOrder(ab: Tree.Tree, ba: Tree.Tree, h: Str, g: Str)
    requires |h| >= 1 && Scan.NoSpace(h) && |g| >= 1 && Scan.NoSpace(g)
    requires Tree.Valid(ab) && ab.entries == [Tree.Entry("a", h, Tree.BlobKind), Tree.Entry("b", g, Tree.BlobKind)]
    requires Tree.Valid(ba) && ba.entries == [Tree.Entry("b", g, Tree.BlobKind), Tree.Entry("a", h, Tree.BlobKind)]
    ensures Tree.Serialize(ab) != Tree.Serialize(ba)
  {
    var a, b := ab.entries[0], ab.entries[1];
    Tree.LineEnd(a);
    Tree.LineEnd(b);
    var la, lb := Tree.LineText(a), Tree.LineText(b);
    assert la != lb by {
      assert la[|la| - 1] == 'a' && lb[|lb| - 1] == 'b';
    }
    assert ba.entries[0] == b && ba.entries[1] == a;
    Tree.FirstLineDiffers(ab, ba);
  }

  /** Well-formed trees with the same bytes have the same entries. */
  lemma BytesDetermineEntries(t1: Tree.Tree, t2: Tree.Tree)
    requires Tree.Valid(t1) && forall i | 0 <= i < |t1.entries| :: Tree.WellFormed(t1.entries[i])
    requires Tree.Valid(t2) && forall i | 0 <= i < |t2.entries| :: Tree.WellFormed(t2.entries[i])
    ensures t1.entries != t2.entries ==> Tree.Serialize(t1) != Tree.Serialize(t2)
  {
    Tree.DeserializeSerialize(t1);
    Tree.DeserializeSerialize(t2);
  }

  /** The commit `commit` builds: the tree's hash, the parent list, the same
      signature as author and committer, and its own hash computed. */
  function NewCommit(treeHash: Str, parent: Str, name: Str, email: Str, now: Commit.Time,
                     message: Str, sha1: Hasher): (c: Commit.Commit)
    ensures c.tree == treeHash && c.parents == Parents(parent) && c.message == message
    ensures c.author == c.committer == Commit.Signature(name, email, now)
    ensures c.hash == sha1(Commit.Serialize(c))
  {
    var sig := Commit.Signature(name, email, now);
    Commit.ComputeHash(Commit.Commit(treeHash, Parents(parent), sig, sig, message, []), sha1)
  }

  /** `updateHead`: write the hash and a newline to the cleaned path of
      the ref HEAD names; a detached HEAD is an error, and so is a ref path
      that cleans to the `.notgit` directory or one under it. */
  function UpdateHead(fs: Repository.Files, hash: Str): (r: Result<Repository.Files>)
    ensures ReadHeadRef(fs).Err? ==> r == Err(ReadHeadRef(fs).error)
    ensures r.Ok? ==>
      var file := Repository.RefFile(ReadHeadRef(fs).value);
      && file.Some? && file.value != []
      && (file.value !in fs || fs[file.value].FileNode?)
      && r.value == fs[file.value := Repository.FileNode(hash + "\n")]
    ensures ReadHeadRef(fs).Ok? && Repository.Plain(ReadHeadRef(fs).value) ==>
      var path := ReadHeadRef(fs).value;
      r.Ok? <==> path !in fs || fs[path].FileNode?
    ensures ReadHeadRef(fs).Ok? && Repository.RefFile(ReadHeadRef(fs).value) == Some([]) ==> r == Err(Unreadable)
  {
    var refPath :- ReadHeadRef(fs);
    Repository.CleanFacts(refPath);
    Repository.WriteRef(fs, refPath, hash + "\n")
  }

  /** After `updateHead`, HEAD resolves to the new commit, also in the odd
      case of a HEAD naming itself (`ref: HEAD`), which the write turns into
      a detached HEAD. */
  lemma UpdateHeadMovesHead(fs: Repository.Files, d: Digest)
    ensures UpdateHead(fs, d).Ok? ==> Repository.GetHEADCommitHash(UpdateHead(fs, d).value) == Ok(d)
  {
    if UpdateHead(fs, d).Ok? {
      var refPath := ReadHeadRef(fs).value;
      var head := TrimSpace(Repository.ReadFile(fs, "HEAD").value);
      assert Repository.CutPrefix(head, "ref: ") == Some(refPath);
      Bytes.DigestTrimmed(d);
      if Repository.RefFile(refPath) == Some("HEAD") {
        Repository.DetachedHead(UpdateHead(fs, d).value, d);
      } else {
        Repository.WrittenRefResolves(fs, refPath, d);
      }
    }
  }

  /** The next commit's parent is the commit just made (unless HEAD named
      itself, which leaves it detached). */
  lemma UpdateHeadChains(fs: Repository.Files, d: Digest)
    requires UpdateHead(fs, d).Ok?
    requires Repository.RefFile(ReadHeadRef(fs).value) != Some("HEAD")
    ensures GetParentCommit(UpdateHead(fs, d).value) == d
  {
    UpdateHeadMovesHead(fs, d);
    var fs2 := UpdateHead(fs, d).value;
    assert Repository.ReadFile(fs2, "HEAD") == Repository.ReadFile(fs, "HEAD");
    ParentIsHeadCommit(fs2);
  }

  /** Store the tree, then the commit, then update HEAD's ref. */
  function Record(st: Repository.State, tree: Tree.Tree, made: Commit.Commit, root: bool, sha1: Hasher)
    : (r: Repository.Run<Reply>)
    requires made.hash == sha1(Commit.Serialize(made))
    ensures r.state.index == st.index && r.state.work == st.work
    ensures r.state.objects == Objects.StoreObject(Objects.StoreObject(st.objects, Objects.TreeObject(tree), sha1).0,
                                                   Objects.CommitObject(made), sha1).0
    ensures r.result.Ok? <==> UpdateHead(st.files, made.hash).Ok?
    ensures r.result.Ok? ==> r.result.value == Committed(made.hash, root) && UpdateHead(st.files, made.hash) == Ok(r.state.files)
    ensures r.result.Err? ==> r.state.files == st.files && r.result.error == UpdateHead(st.files, made.hash).error
    ensures r.result.Ok? ==> Repository.GetHEADCommitHash(r.state.files) == Ok(made.hash)
  {
    UpdateHeadMovesHead(st.files, made.hash);
    var (objects1, _) := Objects.StoreObject(st.objects, Objects.TreeObject(tree), sha1);
    var (objects2, _) := Objects.StoreObject(objects1, Objects.CommitObject(made), sha1);
    var st1 := st.(objects := objects2);
    match UpdateHead(st.files, made.hash)
    case Err(e) => Repository.Run(st1, Err(e))
    case Ok(fs) => Repository.Run(st1.(files := fs), Ok(Committed(made.hash, root)))
  }

  datatype Reply = NothingToCommit | Committed(hash: Str, root: bool)

  /** `commitCallback` once the repository is found. The identity is checked
      first; an empty index commits nothing. The tree and the commit are
      stored before HEAD is updated, so a detached HEAD fails with both
      objects already written. `tree` and `made` are the objects built. */
  method CommitIndex(st: Repository.State, local: Config, global: Config, message: Str,
                     now: Commit.Time, sha1: Hasher)
    returns (r: Repository.Run<Reply>, tree: Tree.Tree, made: Commit.Commit)
    ensures GetUserIdentity(local, global).Err? ==> r == Repository.Run(st, Err(IdentityNotSet))
    ensures r.state.index == st.index && r.state.work == st.work
    ensures r.result == Ok(NothingToCommit) <==>
      GetUserIdentity(local, global).Ok? && Index.LoadIndex(st.index).Ok? && |Index.LoadIndex(st.index).value.entries| == 0
    ensures r.result == Ok(NothingToCommit) ==> r.state == st
    ensures GetUserIdentity(local, global).Ok? && Index.LoadIndex(st.index).Err? ==>
      r == Repository.Run(st, Err(Index.LoadIndex(st.index).error))
    ensures GetUserIdentity(local, global).Ok? && Index.LoadIndex(st.index).Ok? && |Index.LoadIndex(st.index).value.entries| > 0 ==>
      && FlatTreeOf(tree, Index.LoadIndex(st.index).value, sha1)
      && made == NewCommit(tree.hash, GetParentCommit(st.files), GetUserIdentity(local, global).value.0,
                           GetUserIdentity(local, global).value.1, now, message, sha1)
      && r == Record(st, tree, made, GetParentCommit(st.files) == [], sha1)
    ensures r.result.Ok? && r.result.value.Committed? ==>
      Repository.GetHEADCommitHash(r.state.files) == Ok(made.hash)
  {
    tree := Tree.NewTree();
    made := Commit.Commit([], [], Commit.NoSignature, Commit.NoSignature, [], []);
    var identity := GetUserIdentity(local, global);
    if identity.Err? {
      return Repository.Run(st, Err(identity.error)), tree, made;
    }
    var loaded := Index.LoadIndex(st.index);
    if loaded.Err? {
      return Repository.Run(st, Err(loaded.error)), tree, made;
    }
    var idx := loaded.value;
    if |idx.entries| == 0 {
      return Repository.Run(st, Ok(NothingToCommit)), tree, made;
    }
    tree := HashedTree(idx, sha1);
    var parent := GetParentCommit(st.files);
    made := NewCommit(tree.hash, parent, identity.value.0, identity.value.1, now, message, sha1);
    r := Record(st, tree, made, parent == [], sha1);
  }
}

=== FILE: configkeys.dfy ===
/** The configuration key check of `internal/utils/config_utils.go`:
    `SplitKey` accepts exactly the keys of the fixed schema. */
module ConfigKeys {
  import opened Wrappers
  import opened Bytes

  /** `configSchema`: the sections and, for each, its keys. */
  const Schema: map<Str, set<Str>> :=
    map["user" := {"name", "email"}, "core" := {"editor"}, "init" := {"defaultBranch"}]

  /** The four keys the schema allows, written out in full. */
  const Supported: set<Str> := {"user.name", "user.email", "core.editor", "init.defaultBranch"}

  /** ASCII upper case. */
  function Upper(c: Byte): Byte {
    if 'a' <= c <= 'z' then (c as int - 32) as char else c
  }

  /** `strings.EqualFold` against an upper-case ASCII word: byte-wise equal
      after upper-casing. No other character folds to a letter of
      `DEFAULT`, so ASCII folding decides this comparison exactly. */
  predicate FoldEquals(s: Str, upper: Str) {
    |s| == |upper| && forall i | 0 <= i < |s| :: Upper(s[i]) == upper[i]
  }

  /** go-ini's `DefaultSection`. */
  const DefaultSection: Str := "DEFAULT"

  /** `SplitKey`: the text before the first `.` is the section and the rest
      the key. A key without `.`, a section spelled `DEFAULT` in any case,
      a section outside the schema, and a key outside its section are
      rejected, in that order. */
  function SplitKey(key: Str): (r: Result<(Str, Str)>)
    ensures '.' !in key ==> r == Err(InvalidKey)
    ensures r.Ok? ==> r.value.0 + "." + r.value.1 == key && '.' !in r.value.0
    ensures r.Ok? ==> r.value.0 in Schema && r.value.1 in Schema[r.value.0]
    ensures '.' in key && FoldEquals(key[..IndexOf(key, '.')], DefaultSection) ==> r == Err(ReservedSection)
    ensures r.Err? ==> r.error in {InvalidKey, ReservedSection, UnsupportedSection, UnsupportedKey}
  {
    var dot := IndexOf(key, '.');
    if dot < 0 then Err(InvalidKey)
    else
      var section := key[..dot];
      var subkey := key[dot + 1..];
      assert section + "." + subkey == key;
      if FoldEquals(section, DefaultSection) then Err(ReservedSection)
      else if section !in Schema then Err(UnsupportedSection)
      else if subkey !in Schema[section] then Err(UnsupportedKey)
      else Ok((section, subkey))
  }

  /** The key splits at its first `.` into a section without one. */
  lemma SplitAtFirstDot(section: Str, subkey: Str)
    requires '.' !in section
    ensures var key := section + "." + subkey;
      IndexOf(key, '.') == |section| && key[..|section|] == section && key[|section| + 1..] == subkey
  {
    var key := section + "." + subkey;
    IndexOfPrefix(section + ".", subkey, '.');
    assert (section + ".")[..|section|] == section;
    assert key == (section + ".") + subkey;
  }

  /** `SplitKey` accepts a key exactly when it is one of the four
      supported ones. */
  lemma SplitKeyAcceptsSupported(key: Str)
    ensures SplitKey(key).Ok? <==> key in Supported
  {
    if key in Supported {
      SupportedAccepted(key);
    }
    if SplitKey(key).Ok? {
      AcceptedSupported(key);
    }
  }

  lemma SupportedAccepted(key: Str)
    requires key in Supported
    ensures SplitKey(key).Ok?
  {
    if key == "user.name" {
      assert key == "user" + "." + "name";
      AcceptsSchemaKey("user", "name");
    } else if key == "user.email" {
      assert key == "user" + "." + "email";
      AcceptsSchemaKey("user", "email");
    } else if key == "core.editor" {
      assert key == "core" + "." + "editor";
      AcceptsSchemaKey("core", "editor");
    } else {
      assert key == "init" + "." + "defaultBranch";
      AcceptsSchemaKey("init", "defaultBranch");
    }
  }

  /** A schema section and one of its keys, joined by `.`, split back. */
  lemma AcceptsSchemaKey(section: Str, subkey: Str)
    requires section in Schema && subkey in Schema[section]
    ensures SplitKey(section + "." + subkey) == Ok((section, subkey))
  {
    assert '.' !in section && |section| == 4;
    SplitAtFirstDot(section, subkey);
  }

  lemma AcceptedSupported(key: Str)
    requires SplitKey(key).Ok?
    ensures key in Supported
  {
    var (section, subkey) := SplitKey(key).value;
    SchemaKeysSupported(section, subkey);
  }

  /** Every schema entry, written `section.key`, is a supported key. */
  lemma SchemaKeysSupported(section: Str, subkey: Str)
    requires section in Schema && subkey in Schema[section]
    ensures section + "." + subkey in Supported
  {
    assert "user" + "." + "name" == "user.name";
    assert "user" + "." + "email" == "user.email";
    assert "core" + "." + "editor" == "core.editor";
    assert "init" + "." + "defaultBranch" == "init.defaultBranch";
  }

  /** No supported key lies in the reserved section: rejecting it never
      rejects a key the schema allows. */
  lemma ReservedNeverSupported(key: Str)
    requires SplitKey(key) == Err(ReservedSection)
    ensures key !in Supported
  {
    SplitKeyAcceptsSupported(key);
  }
}

=== FILE: history.dfy ===
/** First-parent history: the ancestry test of `merge`
    (`internal/commands/merge.go`) and the walk `log` prints
    (`internal/commands/log.go`). Both follow `ParentHashes[0]` from a
    commit; `fuel` bounds the number of commits loaded. */
module History {
  import opened Wrappers
  import opened Bytes
  import Commit
  import Objects
  import Repository

  /** How a walk loads a commit by hash: `RetrieveCommit` on the object
      store (see `Loader`). */
  type Load = Str -> Result<Commit.Commit>

  /** `Repository.RetrieveCommit` as a `Load`. */
  function Loader(store: Objects.Store, sha1: Hasher, localZone: int -> Str): (load: Load)
    ensures forall h :: load(h) == Objects.RetrieveCommit(store, h, sha1, localZone)
  {
    h => Objects.RetrieveCommit(store, h, sha1, localZone)
  }

  /** A walk of the store from the hash a commit was just stored under
      shows that commit first, as read back from its bytes. */
  lemma WalkFromStored(s: Objects.Store, c: Commit.Commit, sha1: Hasher, localZone: int -> Str, fuel: nat)
    requires Commit.WellFormed(c)
    requires Objects.NoCollision(s, Objects.Serialize(Objects.CommitObject(c)), sha1)
    requires fuel > 0
    ensures var (s1, h) := Objects.StoreObject(s, Objects.CommitObject(c), sha1);
      var t := Walk(Loader(s1, sha1, localZone), h, fuel);
      h != [] ==> |t.visits| >= 1 && t.visits[0] == Visit(h, Commit.ComputeHash(Commit.Reread(c, localZone), sha1))
  {
    Objects.StoreRetrieveCommit(s, c, sha1, localZone);
  }

  /** The hash `log` moves to after a commit: its first parent, or the
      empty text when it has none. */
  function Next(c: Commit.Commit): Str {
    if |c.parents| > 0 then c.parents[0] else []
  }

  /** `isAncestor(ancestor, descendant)`: walks from the descendant itself.
      Reaching the empty hash gives false; a commit without parents panics on
      `ParentHashes[0]`. */
  function IsAncestor(load: Load, ancestor: Str, h: Str, fuel: nat): (r: Result<bool>)
    ensures h == ancestor && h != [] ==> r == Ok(true)
    ensures h == [] ==> r == Ok(false)
    decreases fuel
  {
    if h == [] then Ok(false)
    else if h == ancestor then Ok(true)
    else if fuel == 0 then Err(Exhausted)
    else
      match load(h)
      case Err(e) => Err(e)
      case Ok(c) =>
        if |c.parents| == 0 then Err(Panic)
        else IsAncestor(load, ancestor, c.parents[0], fuel - 1)
  }

  datatype Visit = Visit(hash: Str, commit: Commit.Commit)

  /** The commits a log walk printed, and how it ended: `None` when the
      chain ran out, or the error that stopped it after those commits. */
  datatype Trail = Trail(visits: seq<Visit>, failure: Option<Error>)

  /** Every visit is the loaded commit of its hash, and each visit after
      the first is the first parent of the one before it. */
  predicate Chain(load: Load, start: Str, vs: seq<Visit>) {
    && (|vs| > 0 ==> vs[0].hash == start)
    && (forall i | 0 <= i < |vs| :: vs[i].hash != [] && load(vs[i].hash) == Ok(vs[i].commit))
    && (forall i | 0 <= i < |vs| - 1 :: vs[i + 1].hash == Next(vs[i].commit))
  }

  /** The loop of `displayStandardLog` / `displayGraphLog`: load the
      current commit, show it, move to its first parent, and stop at the
      empty hash. */
  function Walk(load: Load, h: Str, fuel: nat): (r: Trail)
    decreases fuel
  {
    if h == [] then Trail([], None)
    else if fuel == 0 then Trail([], Some(Exhausted))
    else
      match load(h)
      case Err(e) => Trail([], Some(e))
      case Ok(c) =>
        var rest := Walk(load, Next(c), fuel - 1);
        Trail([Visit(h, c)] + rest.visits, rest.failure)
  }

  /** Where a walk stopped: the empty hash after a chain that ran out, or
      the hash it could not load (or had no fuel left for). */
  function StopHash(h: Str, t: Trail): Str {
    if |t.visits| == 0 then h else Next(t.visits[|t.visits| - 1].commit)
  }

  /** The log shows the first-parent chain from the HEAD commit, in order,
      each commit loaded from its hash, one per unit of fuel. */
  lemma {:induction false} WalkChain(load: Load, h: Str, fuel: nat)
    ensures Chain(load, h, Walk(load, h, fuel).visits)
    ensures |Walk(load, h, fuel).visits| <= fuel
    decreases fuel
  {
    if h != [] && fuel > 0 && load(h).Ok? {
      var c := load(h).value;
      var rest := Walk(load, Next(c), fuel - 1);
      WalkChain(load, Next(c), fuel - 1);
      var vs := [Visit(h, c)] + rest.visits;
      assert Walk(load, h, fuel).visits == vs;
      assert forall i | 1 <= i < |vs| :: vs[i] == rest.visits[i - 1];
    }
  }

  /** The walk stops at an empty hash, or with the error of the hash it
      could not load (or had no fuel left for). */
  lemma {:induction false} WalkEnd(load: Load, h: Str, fuel: nat)
    ensures var t := Walk(load, h, fuel);
      && (t.failure.None? <==> StopHash(h, t) == [])
      && (t.failure.Some? ==>
            t.failure == Some(Exhausted) || load(StopHash(h, t)) == Err(t.failure.value))
    decreases fuel
  {
    if h != [] && fuel > 0 && load(h).Ok? {
      var c := load(h).value;
      var rest := Walk(load, Next(c), fuel - 1);
      WalkEnd(load, Next(c), fuel - 1);
      var vs := [Visit(h, c)] + rest.visits;
      assert Walk(load, h, fuel) == Trail(vs, rest.failure);
      if |rest.visits| > 0 {
        assert vs[|vs| - 1] == rest.visits[|rest.visits| - 1];
      }
    }
  }

  function Hashes(vs: seq<Visit>): set<Str> {
    set i | 0 <= i < |vs| :: vs[i].hash
  }

  /** What `isAncestor` answers when the ancestor is not among the commits
      a walk visited: the walk's error, the panic on a root commit, or false
      when the chain ends at an empty parent hash. */
  function Verdict(t: Trail): Result<bool> {
    if t.failure.Some? then Err(t.failure.value)
    else if |t.visits| > 0 && |t.visits[|t.visits| - 1].commit.parents| == 0 then Err(Panic)
    else Ok(false)
  }

  /** `isAncestor` agrees with the log walk from the same commit: the
      ancestor is found exactly when the walk shows it or stops at it (the
      test comes before the load), and otherwise the answer is the walk's
      `Verdict`. */
  lemma {:induction false} AncestorIffLogged(load: Load, a: Str, h: Str, fuel: nat)
    ensures var t := Walk(load, h, fuel);
      IsAncestor(load, a, h, fuel) ==
        if a in Hashes(t.visits) || (a == StopHash(h, t) && a != []) then Ok(true) else Verdict(t)
    decreases fuel
  {
    var t := Walk(load, h, fuel);
    if h != [] && h != a && fuel > 0 && load(h).Ok? {
      var c := load(h).value;
      var rest := Walk(load, Next(c), fuel - 1);
      assert t == Trail([Visit(h, c)] + rest.visits, rest.failure);
      HashesCons(Visit(h, c), rest.visits);
      if |c.parents| > 0 {
        assert IsAncestor(load, a, h, fuel) == IsAncestor(load, a, c.parents[0], fuel - 1);
        AncestorIffLogged(load, a, c.parents[0], fuel - 1);
        VerdictCons(Visit(h, c), rest);
        StopCons(h, Visit(h, c), rest);
      } else {
        assert rest == Trail([], None);
      }
    } else if h != [] && h == a && fuel > 0 && load(h).Ok? {
      assert t.visits[0].hash == h;
    }
  }

  lemma StopCons(h: Str, v: Visit, rest: Trail)
    requires |v.commit.parents| > 0
    ensures StopHash(h, Trail([v] + rest.visits, rest.failure)) == StopHash(v.commit.parents[0], rest)
  {
    var vs := [v] + rest.visits;
    if |rest.visits| > 0 {
      assert vs[|vs| - 1] == rest.visits[|rest.visits| - 1];
    }
  }

  lemma VerdictCons(v: Visit, rest: Trail)
    requires |v.commit.parents| > 0
    ensures Verdict(Trail([v] + rest.visits, rest.failure)) == Verdict(rest)
  {
    var vs := [v] + rest.visits;
    if |rest.visits| > 0 {
      assert vs[|vs| - 1] == rest.visits[|rest.visits| - 1];
    }
  }

  lemma HashesCons(v: Visit, vs: seq<Visit>)
    ensures Hashes([v] + vs) == {v.hash} + Hashes(vs)
  {
    var ws := [v] + vs;
    forall x | x in Hashes(ws) ensures x in {v.hash} + Hashes(vs) {
      var i :| 0 <= i < |ws| && ws[i].hash == x;
      if i > 0 { assert vs[i - 1].hash == x; }
    }
    forall x | x in Hashes(vs) ensures x in Hashes(ws) {
      var i :| 0 <= i < |vs| && vs[i].hash == x;
      assert ws[i + 1].hash == x;
    }
    assert ws[0].hash == v.hash;
  }

  /** Merging into a branch with no commits: no visited hash is empty, so
      the walk never matches, and a chain ending in a root commit panics. */
  lemma UnbornNeverAncestor(load: Load, h: Str, fuel: nat)
    requires Walk(load, h, fuel).failure.None?
    requires |Walk(load, h, fuel).visits| > 0
    requires Walk(load, h, fuel).visits[|Walk(load, h, fuel).visits| - 1].commit.parents == []
    ensures IsAncestor(load, [], h, fuel) == Err(Panic)
  {
    AncestorIffLogged(load, [], h, fuel);
    WalkChain(load, h, fuel);
    var vs := Walk(load, h, fuel).visits;
    assert [] !in Hashes(vs);
  }

  /** The graph log's short hash: the first seven characters of a longer
      hash, otherwise all of it. */
  function ShortHash(h: Str): (r: Str)
    ensures HasPrefix(h, r)
    ensures |r| == if |h| > 7 then 7 else |h|
  {
    if |h| > 7 then h[..7] else h
  }

  /** `strings.Split(message, "\n")[0]`: the message up to its first
      newline. */
  function FirstLine(m: Str): (r: Str)
    ensures HasPrefix(m, r) && '\n' !in r
    ensures |r| < |m| ==> m[|r|] == '\n'
  {
    SplitFirst(m, '\n');
    Split(m, '\n')[0]
  }

  /** One line of `log --graph`. */
  function GraphLine(v: Visit): Str {
    "* " + ShortHash(v.hash) + " " + FirstLine(v.commit.message) + "\n"
  }

  datatype LogOutput = NoCommitsYet | Logged(trail: Trail)

  /** `logCallback`: an unreadable HEAD is an error, an empty HEAD hash
      prints that there are no commits, and otherwise the walk from it. */
  function Log(fs: Repository.Files, load: Load, fuel: nat): (r: Result<LogOutput>)
    ensures Repository.GetHEADCommitHash(fs).Err? <==> r.Err?
    ensures r == Ok(NoCommitsYet) <==> Repository.GetHEADCommitHash(fs) == Ok([])
    ensures r.Ok? && r.value.Logged? ==> r.value.trail == Walk(load, Repository.GetHEADCommitHash(fs).value, fuel)
  {
    var head :- Repository.GetHEADCommitHash(fs);
    if head == [] then Ok(NoCommitsYet) else Ok(Logged(Walk(load, head, fuel)))
  }
}

=== FILE: index.dfy ===
/** The staging area of `internal/repository/index.go`: a map from a path to
    the entry recording that path and its blob hash. */
module Index {
  import opened Wrappers
  import opened Bytes

  datatype IndexEntry = IndexEntry(path: Str, hash: Str)

  datatype Index = Index(entries: map<Str, IndexEntry>)

  /** Each entry records the path it is filed under. `AddEntry` keeps this;
      an index read from a file need not satisfy it. */
  predicate WellKeyed(idx: Index) {
    forall p | p in idx.entries :: idx.entries[p].path == p
  }

  function NewIndex(): (r: Index)
    ensures |r.entries| == 0 && WellKeyed(r)
  {
    Index(map[])
  }

  /** `AddEntry`: files the path with the given hash, replacing any earlier
      entry for it and leaving every other path alone. */
  function AddEntry(idx: Index, path: Str, hash: Str): (r: Index)
    ensures r.entries.Keys == idx.entries.Keys + {path}
    ensures r.entries[path] == IndexEntry(path, hash)
    ensures forall p | p in idx.entries && p != path :: r.entries[p] == idx.entries[p]
    ensures WellKeyed(idx) ==> WellKeyed(r)
  {
    Index(idx.entries[path := IndexEntry(path, hash)])
  }

  /** Re-adding a path keeps only the last hash. */
  lemma AddEntryOverwrites(idx: Index, path: Str, h1: Str, h2: Str)
    ensures AddEntry(AddEntry(idx, path, h1), path, h2) == AddEntry(idx, path, h2)
  {
  }

  /** Unlike a tree, the index does not remember the order paths were added
      in. */
  lemma AddEntryCommutes(idx: Index, p: Str, h: Str, q: Str, g: Str)
    requires p != q
    ensures AddEntry(AddEntry(idx, p, h), q, g) == AddEntry(AddEntry(idx, q, g), p, h)
  {
    var e, f := IndexEntry(p, h), IndexEntry(q, g);
    var m1: map<Str, IndexEntry> := idx.entries[p := e];
    var m2: map<Str, IndexEntry> := idx.entries[q := f];
    assert m1[q := f] == m2[p := e];
  }

  /** The index file as `LoadIndex` finds it. */
  datatype IndexFile =
    | NoIndexFile               // nothing at `.notgit/index`
    | UnreadableIndex           // the file exists but cannot be read
    | GarbledIndex              // the file does not parse as an index
    | SavedIndex(index: Index)  // what `SaveIndex` wrote

  function SaveIndex(idx: Index): IndexFile {
    SavedIndex(idx)
  }

  /** `LoadIndex`. A missing file and an unreadable one fail alike:
      `LoadIndex` tests for the missing case by comparing the wrapped error
      with `os.ErrNotExist` using `==`, which never holds. */
  function LoadIndex(f: IndexFile): (r: Result<Index>)
    ensures r.Ok? <==> f.SavedIndex?
    ensures r.Ok? ==> r.value == f.index
    ensures f.NoIndexFile? || f.UnreadableIndex? ==> r == Err(Unreadable)
    ensures f.GarbledIndex? ==> r == Err(Corrupt)
  {
    match f
    case NoIndexFile => Err(Unreadable)
    case UnreadableIndex => Err(Unreadable)
    case GarbledIndex => Err(Corrupt)
    case SavedIndex(idx) => Ok(idx)
  }

  /** Saving and loading gives back the same entries. */
  lemma SaveThenLoad(idx: Index)
    ensures LoadIndex(SaveIndex(idx)) == Ok(idx)
  {
  }
}

=== FILE: merge.dfy ===
/** `notgit merge <branch>` (`internal/commands/merge.go`): fast-forward
    merges only. */
module Merge {
  import opened Wrappers
  import opened Bytes
  import Repository
  import Index
  import History
  import Checkout

  datatype Reply = UpToDate | FastForwarded(from: Str, to: Str)

  /** `performFastForwardMerge`: update the working tree to the target
      commit, then point the current branch at it, writing at its cleaned
      ref path. The index is only read. */
  function FastForward(st: Repository.State, current: Str, target: Str, targetHash: Str,
                       src: Checkout.Source, fuel: nat): (r: Repository.Run<Reply>)
    ensures r.state.objects == st.objects && r.state.index == st.index
    ensures r.result.Ok? <==>
      && Checkout.UpdateWorkingTree(src, st.index, targetHash, st.work, fuel).failure.None?
      && Repository.WriteRef(st.files, Repository.BranchRef(current), targetHash + "\n").Ok?
    ensures r.result.Ok? ==>
      var p := Repository.RefFile(Repository.BranchRef(current));
      && r.result.value == FastForwarded(current, target)
      && p.Some? && p.value != []
      && r.state.files == st.files[p.value := Repository.FileNode(targetHash + "\n")]
    ensures r.result.Err? ==> r.state.files == st.files
    ensures r.state.work == Checkout.UpdateWorkingTree(src, st.index, targetHash, st.work, fuel).work
  {
    var eff := Checkout.UpdateWorkingTree(src, st.index, targetHash, st.work, fuel);
    var st1 := st.(work := eff.work);
    if eff.failure.Some? then Repository.Run(st1, Err(eff.failure.value))
    else
      match Repository.WriteRef(st.files, Repository.BranchRef(current), targetHash + "\n")
      case Err(e) => Repository.Run(st1, Err(e))
      case Ok(fs) => Repository.Run(st1.(files := fs), Ok(FastForwarded(current, target)))
  }

  /** `mergeCallback`: its checks in the order it makes them, each
      failing one returning before anything is changed. */
  function Merge(st: Repository.State, target: Str, src: Checkout.Source, fuel: nat): (r: Repository.Run<Reply>)
    ensures '/' in target ==> r == Repository.Run(st, Err(NestedBranchName))
    ensures r.state.objects == st.objects && r.state.index == st.index
    ensures r.state.files != st.files ==> r.result.Ok? && r.result.value.FastForwarded?
    ensures r.result == Ok(UpToDate) ==> r.state == st
  {
    if '/' in target then Repository.Run(st, Err(NestedBranchName))
    else
      match Repository.GetCurrentBranch(st.files)
      case Err(e) => Repository.Run(st, Err(e))
      case Ok(current) =>
        if current == target then Repository.Run(st, Err(SelfMerge))
        else if Repository.BranchPath(target) !in st.files then Repository.Run(st, Err(NoSuchBranch))
        else
          match Repository.GetHEADCommitHash(st.files)
          case Err(e) => Repository.Run(st, Err(e))
          case Ok(currentHash) =>
            match Repository.ReadFile(st.files, Repository.BranchPath(target))
            case Err(e) => Repository.Run(st, Err(e))
            case Ok(data) =>
              var targetHash := TrimSpace(data);
              if targetHash == [] then Repository.Run(st, Err(EmptyBranch))
              else if currentHash == targetHash then Repository.Run(st, Ok(UpToDate))
              else
                match History.IsAncestor(src.commit, currentHash, targetHash, fuel)
                case Err(e) => Repository.Run(st, Err(e))
                case Ok(false) => Repository.Run(st, Err(Diverged))
                case Ok(true) => FastForward(st, current, target, targetHash, src, fuel)
  }

  /** The commit a fast-forward moves to: the trimmed content of the
      target's ref. */
  function TargetHash(st: Repository.State, target: Str): Str {
    var data := Repository.ReadFile(st.files, Repository.BranchPath(target));
    if data.Ok? then TrimSpace(data.value) else []
  }

  /** A fast-forward happens only when the current commit is on the target's
      first-parent log (or is where that log stops), and it leaves the
      current branch's ref holding the target commit, with the working tree
      checked out to it. */
  lemma FastForwardMeaning(st: Repository.State, target: Str, src: Checkout.Source, fuel: nat)
    requires Merge(st, target, src, fuel).result.Ok?
    requires Merge(st, target, src, fuel).result.value.FastForwarded?
    ensures var r := Merge(st, target, src, fuel);
      var current := Repository.GetCurrentBranch(st.files).value;
      var head := Repository.GetHEADCommitHash(st.files).value;
      var h := TargetHash(st, target);
      var t := History.Walk(src.commit, h, fuel);
      && '/' !in target && current != target
      && h != [] && head != h
      && (head in History.Hashes(t.visits) || (head == History.StopHash(h, t) && head != []))
      && (var p := Repository.RefFile(Repository.BranchRef(current));
          p.Some? && p.value != [] && r.state.files == st.files[p.value := Repository.FileNode(h + "\n")])
      && r.state.work == Checkout.UpdateWorkingTree(src, st.index, h, st.work, fuel).work
  {
    var head := Repository.GetHEADCommitHash(st.files).value;
    var h := TargetHash(st, target);
    FastForwardTaken(st, target, src, fuel);
    History.AncestorIffLogged(src.commit, head, h, fuel);
  }

  /** After a fast-forward from `current`, its ref path reads back as the
      target commit and a newline, and resolves to that commit. */
  lemma FastForwardWritesRef(st: Repository.State, target: Str, src: Checkout.Source, fuel: nat, current: Str)
    requires Merge(st, target, src, fuel).result == Ok(FastForwarded(current, target))
    ensures var fs := Merge(st, target, src, fuel).state.files;
      var h := TargetHash(st, target);
      && Repository.GetCurrentBranch(st.files) == Ok(current)
      && Repository.ReadRef(fs, Repository.BranchRef(current)) == Ok(h + "\n")
      && Repository.ResolveRef(fs, Repository.BranchRef(current)) == Ok(h)
  {
    var h := TargetHash(st, target);
    FastForwardTaken(st, target, src, fuel);
    TrimNewline(h);
  }

  /** The checks a fast-forward passed on its way. */
  lemma FastForwardTaken(st: Repository.State, target: Str, src: Checkout.Source, fuel: nat)
    requires Merge(st, target, src, fuel).result.Ok?
    requires Merge(st, target, src, fuel).result.value.FastForwarded?
    ensures Repository.GetCurrentBranch(st.files).Ok? && Repository.GetHEADCommitHash(st.files).Ok?
    ensures var current := Repository.GetCurrentBranch(st.files).value;
      var head := Repository.GetHEADCommitHash(st.files).value;
      var h := TargetHash(st, target);
      && '/' !in target && current != target && h != [] && head != h
      && History.IsAncestor(src.commit, head, h, fuel) == Ok(true)
      && Merge(st, target, src, fuel) == FastForward(st, current, target, h, src, fuel)
  {
  }

  /** The refusals: merging the current branch into itself, a target
      without a ref, a target ref that holds no commit, and a current
      commit off the target's history each fail with their own error and
      change nothing. */
  lemma MergeRefusals(st: Repository.State, target: Str, src: Checkout.Source, fuel: nat)
    requires '/' !in target && Repository.GetCurrentBranch(st.files).Ok?
    ensures var current := Repository.GetCurrentBranch(st.files).value;
      var r := Merge(st, target, src, fuel);
      && (current == target ==> r == Repository.Run(st, Err(SelfMerge)))
      && (current != target && Repository.BranchPath(target) !in st.files ==> r == Repository.Run(st, Err(NoSuchBranch)))
      && (current != target && Repository.GetHEADCommitHash(st.files).Ok?
          && Repository.ReadFile(st.files, Repository.BranchPath(target)).Ok? && TargetHash(st, target) == []
          ==> r == Repository.Run(st, Err(EmptyBranch)))
      && (current != target && Repository.GetHEADCommitHash(st.files).Ok? && TargetHash(st, target) != []
          && History.IsAncestor(src.commit, Repository.GetHEADCommitHash(st.files).value, TargetHash(st, target), fuel) == Ok(false)
          && Repository.GetHEADCommitHash(st.files).value != TargetHash(st, target)
          ==> r == Repository.Run(st, Err(Diverged)))
  {
  }

  /** On a named branch, HEAD resolves to the target commit after a
      fast-forward. The exception is a branch whose ref path cleans to HEAD
      itself: the write replaces HEAD with the target's text, which
      resolves to the target commit unless that text is a `ref: ` line. */
  lemma FastForwardMovesHead(st: Repository.State, target: Str, src: Checkout.Source, fuel: nat, current: Str)
    requires Merge(st, target, src, fuel).result == Ok(FastForwarded(current, target))
    requires current != []
    ensures Repository.RefFile(Repository.BranchRef(current)) == Some("HEAD") ==>
      Repository.ReadFile(Merge(st, target, src, fuel).state.files, "HEAD") == Ok(TargetHash(st, target) + "\n")
    ensures Repository.RefFile(Repository.BranchRef(current)) != Some("HEAD") || !HasPrefix(TargetHash(st, target), "ref: ") ==>
      Repository.GetHEADCommitHash(Merge(st, target, src, fuel).state.files) == Ok(TargetHash(st, target))
  {
    FastForwardTaken(st, target, src, fuel);
    Repository.BranchWriteMovesHead(st.files, current, TargetHash(st, target));
  }

  /** A branch without commits never fast-forwards: no commit on the
      target's chain has the empty hash, so the walk runs to a root commit
      (and fails there) or fails earlier. */
  lemma UnbornNeverMerges(st: Repository.State, target: Str, src: Checkout.Source, fuel: nat)
    requires Repository.GetHEADCommitHash(st.files) == Ok([])
    ensures Merge(st, target, src, fuel).result.Err?
  {
    var h := TargetHash(st, target);
    var t := History.Walk(src.commit, h, fuel);
    History.AncestorIffLogged(src.commit, [], h, fuel);
    History.WalkChain(src.commit, h, fuel);
    assert [] !in History.Hashes(t.visits);
  }

  /** With a detached HEAD the current branch is the empty name, whose ref
      path is the heads directory itself: the ref write fails, after the
      working tree has already been checked out. */
  lemma DetachedNeverFastForwards(st: Repository.State, target: Str, src: Checkout.Source, fuel: nat)
    requires Repository.GetCurrentBranch(st.files) == Ok([])
    requires "refs/heads" in st.files && !st.files["refs/heads"].FileNode?
    ensures Merge(st, target, src, fuel).result.Err? || Merge(st, target, src, fuel) == Repository.Run(st, Ok(UpToDate))
  {
    assert Repository.RefFile(Repository.BranchRef([])) == Some("refs/heads") by {
      Repository.BranchPathCleans([]);
    }
    if Merge(st, target, src, fuel).result.Ok? && Merge(st, target, src, fuel).result.value.FastForwarded? {
      FastForwardTaken(st, target, src, fuel);
      assert false;
    }
  }
}

=== FILE: numbers.dfy ===
/** Decimal text of integers: what `fmt`'s `%d` writes and what
    `strconv.ParseInt(s, 10, 64)` reads back. */
module Numbers {
  import opened Wrappers
  import opened Bytes

  const MaxInt64: int := 0x7FFF_FFFF_FFFF_FFFF
  const MinInt64: int := -0x8000_0000_0000_0000

  predicate InInt64(n: int) {
    MinInt64 <= n <= MaxInt64
  }

  predicate IsDigit(c: Byte) {
    '0' <= c <= '9'
  }

  predicate AllDigits(s: Str) {
    forall i | 0 <= i < |s| :: IsDigit(s[i])
  }

  function DigitChar(d: nat): (c: Byte)
    requires d < 10
    ensures IsDigit(c) && c as int - '0' as int == d
  {
    ('0' as int + d) as char
  }

  /** The number a run of decimal digits denotes (most significant first). */
  function Value(s: Str): nat
    requires AllDigits(s)
  {
    if |s| == 0 then 0 else 10 * Value(s[..|s| - 1]) + (s[|s| - 1] as int - '0' as int)
  }

  /** `%d` of a non-negative integer: digits without leading zeros that
      denote `n`. */
  function Decimal(n: nat): (r: Str)
    ensures |r| >= 1 && AllDigits(r)
    ensures Value(r) == n
    ensures r[0] == '0' ==> n == 0
    decreases n
  {
    if n < 10 then [DigitChar(n)]
    else
      var front := Decimal(n / 10);
      var r := front + [DigitChar(n % 10)];
      assert r[..|r| - 1] == front;
      r
  }

  /** `%d` of any integer: a minus sign before the digits of a negative one. */
  function IntText(n: int): (r: Str)
    ensures |r| >= 1
    ensures forall i | 0 <= i < |r| :: r[i] == '-' || IsDigit(r[i])
    ensures forall i | 0 <= i < |r| :: !IsSpace(r[i]) && r[i] != '\0'
  {
    if n < 0 then "-" + Decimal(-n) else Decimal(n)
  }

  /** `strconv.ParseInt(s, 10, 64)`: an optional sign, at least one digit and
      nothing else, in the 64-bit range. `None` stands for its syntax and
      range errors. */
  function ParseInt64(s: Str): (r: Option<int>)
    ensures r.Some? ==> InInt64(r.value)
    ensures r.Some? ==> |s| >= 1 && (IsDigit(s[0]) || s[0] == '+' || s[0] == '-')
  {
    if |s| == 0 then None
    else
      var signed := s[0] == '+' || s[0] == '-';
      var body := if signed then s[1..] else s;
      if |body| == 0 || !AllDigits(body) then None
      else
        var v: int := if s[0] == '-' then -(Value(body) as int) else Value(body);
        if InInt64(v) then Some(v) else None
  }

  /** Reading back what `%d` wrote gives the number, for every 64-bit value. */
  lemma ParseIntText(n: int)
    requires InInt64(n)
    ensures ParseInt64(IntText(n)) == Some(n)
  {
    if n < 0 {
      assert IntText(n)[1..] == Decimal(-n);
    }
  }
}

=== FILE: objects.dfy ===
/** The three object kinds behind the `Object` interface
    (`internal/objects/object.go`) and the object store of
    `internal/repository/objects_storage.go`.

    The `objects` directory is a map from the two-level path
    `<h[0..2]>/<h[2..]>` of a hash `h` to the bytes of the file there. */
module Objects {
  import opened Wrappers
  import opened Bytes
  import opened Numbers
  import Blob
  import Tree
  import Commit

  datatype Object =
    | BlobObject(blob: Blob.Blob)
    | TreeObject(tree: Tree.Tree)
    | CommitObject(commit: Commit.Commit)

  /** `Type()`. The commit's is capitalised, unlike the word its header
      starts with. */
  function TypeName(o: Object): Str {
    match o
    case BlobObject(_) => "blob"
    case TreeObject(_) => "tree"
    case CommitObject(_) => "Commit"
  }

  /** The word the serialized object starts with. */
  function HeaderWord(o: Object): Str {
    match o
    case BlobObject(_) => "blob"
    case TreeObject(_) => "tree"
    case CommitObject(_) => "commit"
  }

  function Serialize(o: Object): (r: Str)
    ensures HasPrefix(r, HeaderWord(o) + " ")
    ensures IndexOf(r, '\0') >= 0
  {
    match o
    case BlobObject(b) =>
      assert HeaderWord(o) + " " == "blob ";
      Blob.Serialize(b)
    case TreeObject(t) =>
      assert HeaderWord(o) + " " == "tree ";
      Tree.Serialize(t)
    case CommitObject(c) =>
      assert HeaderWord(o) + " " == "commit ";
      Commit.Serialize(c)
  }

  /** `GetHash()`: the hash field, whatever the object's bytes hash to. */
  function GetHash(o: Object): Str {
    match o
    case BlobObject(b) => b.hash
    case TreeObject(t) => t.hash
    case CommitObject(c) => c.hash
  }

  /** The serialized bytes start with the name `Type()` gives for blobs and
      trees, but never for commits. */
  lemma TypeNameHeader(o: Object)
    ensures HasPrefix(Serialize(o), TypeName(o) + " ") <==> !o.CommitObject?
  {
    var r := Serialize(o);
    if o.CommitObject? {
      assert r[0] == 'c';
      assert (TypeName(o) + " ")[0] == 'C';
    }
  }

  /** `objects/<dir>/<file>`, relative to the `.notgit` directory. */
  datatype ObjectPath = ObjectPath(dir: Str, file: Str)

  /** The shard path of a hash: its first two characters name the
      directory, the rest the file. */
  function PathOf(h: Str): (p: ObjectPath)
    requires |h| >= 2
    ensures |p.dir| == 2 && p.dir + p.file == h
  {
    assert h[..2] + h[2..] == h;
    ObjectPath(h[..2], h[2..])
  }

  type Store = map<ObjectPath, Str>

  /** Every file sits at the path of its own bytes' hash. `StoreObject`
      keeps this; nothing else writes the directory. */
  predicate Coherent(s: Store, sha1: Hasher) {
    forall p | p in s :: PathOf(sha1(s[p])) == p
  }

  /** `StoreObject`: the hash of the serialized bytes, which are written at
      its path unless a file is there already. Existing files are never
      changed, and nothing but that one path is added. */
  function StoreObject(s: Store, o: Object, sha1: Hasher): (r: (Store, Digest))
    ensures r.1 == sha1(Serialize(o))
    ensures r.0.Keys == s.Keys + {PathOf(r.1)}
    ensures forall p | p in s :: r.0[p] == s[p]
    ensures PathOf(r.1) !in s ==> r.0[PathOf(r.1)] == Serialize(o)
    ensures Coherent(s, sha1) ==> Coherent(r.0, sha1)
  {
    var data := Serialize(o);
    var h := sha1(data);
    var p := PathOf(h);
    if p in s then (s, h) else (s[p := data], h)
  }

  /** Storing the same object twice writes nothing the second time. */
  lemma StoreIdempotent(s: Store, o: Object, sha1: Hasher)
    ensures StoreObject(StoreObject(s, o, sha1).0, o, sha1) == StoreObject(s, o, sha1)
  {
  }

  /** `retrieveObject`: slicing `hash[:2]` panics on a hash shorter than
      two characters; a missing file is an error. */
  function ReadObject(s: Store, h: Str): (r: Result<Str>)
    ensures |h| < 2 ==> r == Err(Panic)
    ensures |h| >= 2 ==> (r.Ok? <==> PathOf(h) in s)
    ensures |h| >= 2 && r.Err? ==> r.error == NotFound
    ensures r.Ok? ==> r.value == s[PathOf(h)]
  {
    if |h| < 2 then Err(Panic)
    else
      var p := PathOf(h);
      if p in s then Ok(s[p]) else Err(NotFound)
  }

  /** In a coherent store, whatever is read under a hash hashes to it. */
  lemma ReadVerified(s: Store, sha1: Hasher, h: Str)
    requires Coherent(s, sha1)
    requires ReadObject(s, h).Ok?
    ensures sha1(ReadObject(s, h).value) == h
  {
    var p := PathOf(h);
    assert PathOf(sha1(s[p])) == p;
  }

  /** No other bytes with the same hash are stored already (a SHA-1
      collision would break every round trip below). */
  predicate NoCollision(s: Store, data: Str, sha1: Hasher) {
    PathOf(sha1(data)) in s ==> s[PathOf(sha1(data))] == data
  }

  /** Reading back under the hash `StoreObject` returned gives the
      serialized object. */
  lemma {:induction false} StoreThenRead(s: Store, o: Object, sha1: Hasher)
    requires NoCollision(s, Serialize(o), sha1)
    ensures ReadObject(StoreObject(s, o, sha1).0, StoreObject(s, o, sha1).1) == Ok(Serialize(o))
  {
  }

  function RetrieveBlob(s: Store, h: Str, sha1: Hasher): (r: Result<Blob.Blob>)
    ensures ReadObject(s, h).Err? ==> r == Err(ReadObject(s, h).error)
    ensures ReadObject(s, h).Ok? ==> r == Blob.DeserializeBlob(ReadObject(s, h).value, sha1)
  {
    var data :- ReadObject(s, h);
    Blob.DeserializeBlob(data, sha1)
  }

  function RetrieveTree(s: Store, h: Str): (r: Result<Tree.Tree>)
    ensures ReadObject(s, h).Err? ==> r == Err(ReadObject(s, h).error)
    ensures ReadObject(s, h).Ok? ==> r == Tree.DeserializeTree(ReadObject(s, h).value)
    ensures r.Ok? ==> Tree.Valid(r.value)
  {
    var data :- ReadObject(s, h);
    Tree.DeserializeTree(data)
  }

  function RetrieveCommit(s: Store, h: Str, sha1: Hasher, localZone: int -> Str): (r: Result<Commit.Commit>)
    ensures ReadObject(s, h).Err? ==> r == Err(ReadObject(s, h).error)
    ensures ReadObject(s, h).Ok? ==> r == Commit.DeserializeCommit(ReadObject(s, h).value, sha1, localZone)
  {
    var data :- ReadObject(s, h);
    Commit.DeserializeCommit(data, sha1, localZone)
  }

  /** A stored blob comes back whole: same content, size and hash. */
  lemma StoreRetrieveBlob(s: Store, content: Str, sha1: Hasher)
    requires |content| <= MaxInt64
    requires NoCollision(s, Serialize(BlobObject(Blob.NewBlob(content, sha1))), sha1)
    ensures var (s1, h) := StoreObject(s, BlobObject(Blob.NewBlob(content, sha1)), sha1);
            RetrieveBlob(s1, h, sha1) == Ok(Blob.NewBlob(content, sha1))
  {
    var o := BlobObject(Blob.NewBlob(content, sha1));
    StoreThenRead(s, o, sha1);
    Blob.DeserializeSerialize(content, sha1);
  }

  /** A stored tree comes back with the same entries in the same order. */
  lemma StoreRetrieveTree(s: Store, t: Tree.Tree, sha1: Hasher)
    requires Tree.Valid(t)
    requires forall i | 0 <= i < |t.entries| :: Tree.WellFormed(t.entries[i])
    requires NoCollision(s, Serialize(TreeObject(t)), sha1)
    ensures var (s1, h) := StoreObject(s, TreeObject(t), sha1);
            RetrieveTree(s1, h).Ok? && RetrieveTree(s1, h).value.entries == t.entries
  {
    StoreThenRead(s, TreeObject(t), sha1);
    Tree.DeserializeSerialize(t);
  }

  /** A stored commit comes back with its zones made local and its hash
      recomputed. */
  lemma StoreRetrieveCommit(s: Store, c: Commit.Commit, sha1: Hasher, localZone: int -> Str)
    requires Commit.WellFormed(c)
    requires NoCollision(s, Serialize(CommitObject(c)), sha1)
    ensures var (s1, h) := StoreObject(s, CommitObject(c), sha1);
            RetrieveCommit(s1, h, sha1, localZone) == Ok(Commit.ComputeHash(Commit.Reread(c, localZone), sha1))
  {
    assert Serialize(CommitObject(c)) == Commit.Serialize(c);
    StoreThenRead(s, CommitObject(c), sha1);
    Commit.DeserializeSerialize(c, sha1, localZone);
  }

  /** After `ComputeHash`, a commit or tree is stored under its own hash
      field. */
  lemma StoredUnderOwnHash(s: Store, o: Object, sha1: Hasher)
    requires o.CommitObject? ==> o.commit == Commit.ComputeHash(o.commit, sha1)
    requires o.TreeObject? ==> o.tree == Tree.ComputeHash(o.tree, sha1)
    requires !o.BlobObject?
    ensures StoreObject(s, o, sha1).1 == GetHash(o)
  {
  }

  /** A blob is stored under the hash of its header-prefixed bytes, not
      under its own hash field (the hash of the raw content): the two agree
      only when SHA-1 maps two different inputs to one digest. */
  lemma BlobStoredElsewhere(s: Store, content: Str, sha1: Hasher)
    ensures var b := Blob.NewBlob(content, sha1);
            StoreObject(s, BlobObject(b), sha1).1 == GetHash(BlobObject(b)) ==>
              sha1(Blob.Serialize(b)) == sha1(content) && Blob.Serialize(b) != content
  {
    Blob.HashInputsDiffer(content, sha1);
  }
}

=== FILE: order.dfy ===
/** Go's ordering of strings and the sorting `sort.Strings` and
    `sort.Slice` perform, as used by status output and branch listing. */
module Order {
  import opened Bytes

  /** Go's `<` on strings: byte-wise lexicographic, a proper prefix first. */
  predicate Less(a: Str, b: Str)
    decreases |a|
  {
    if |a| == 0 then |b| > 0
    else if |b| == 0 then false
    else if a[0] != b[0] then a[0] < b[0]
    else Less(a[1..], b[1..])
  }

  lemma {:induction false} LessIrreflexive(a: Str)
    ensures !Less(a, a)
    decreases |a|
  {
    if |a| > 0 {
      LessIrreflexive(a[1..]);
    }
  }

  lemma {:induction false} LessTransitive(a: Str, b: Str, c: Str)
    requires Less(a, b) && Less(b, c)
    ensures Less(a, c)
    decreases |a|
  {
    if |a| > 0 && |b| > 0 && |c| > 0 && a[0] == b[0] && b[0] == c[0] {
      LessTransitive(a[1..], b[1..], c[1..]);
    }
  }

  lemma {:induction false} LessTotal(a: Str, b: Str)
    requires a != b
    ensures Less(a, b) || Less(b, a)
    decreases |a|
  {
    if |a| > 0 && |b| > 0 && a[0] == b[0] {
      assert a == [a[0]] + a[1..] && b == [b[0]] + b[1..];
      LessTotal(a[1..], b[1..]);
    }
  }

  lemma LessAsymmetric(a: Str, b: Str)
    requires Less(a, b)
    ensures !Less(b, a)
  {
    if Less(b, a) {
      LessTransitive(a, b, a);
      LessIrreflexive(a);
    }
  }

  /** "Not less" is transitive too: it is `<=` on a total order. */
  lemma AtMostTransitive(a: Str, b: Str, c: Str)
    requires !Less(b, a) && !Less(c, b)
    ensures !Less(c, a)
  {
    if Less(c, a) {
      if a == b {
      } else if b == c {
      } else {
        LessTotal(a, b);
        LessTotal(b, c);
        LessTransitive(a, b, c);
        LessAsymmetric(a, c);
      }
    }
  }

  /** Keys never decrease along the sequence. */
  predicate SortedBy<T>(s: seq<T>, key: T -> Str) {
    forall i, j | 0 <= i < j < |s| :: !Less(key(s[j]), key(s[i]))
  }

  /** Strictly ascending: sorted, and no two elements alike. */
  predicate Strict(s: seq<Str>) {
    forall i, j | 0 <= i < j < |s| :: Less(s[i], s[j])
  }

  predicate Distinct<T(==)>(s: seq<T>) {
    forall i, j | 0 <= i < j < |s| :: s[i] != s[j]
  }

  /** Inserting `x` into a sorted sequence before the first element whose
      key is not below `x`'s. */
  function InsertBy<T(==)>(x: T, s: seq<T>, key: T -> Str): (r: seq<T>)
    requires SortedBy(s, key)
    ensures multiset(r) == multiset(s) + multiset{x}
    ensures SortedBy(r, key)
    decreases |s|
  {
    if |s| == 0 then [x]
    else if !Less(key(s[0]), key(x)) then
      InsertFront(x, s, key);
      [x] + s
    else
      var rest := InsertBy(x, s[1..], key);
      InsertAfter(x, s, rest, key);
      [s[0]] + rest
  }

  /** `x` goes first when its key is not above the first one's. */
  lemma InsertFront<T>(x: T, s: seq<T>, key: T -> Str)
    requires SortedBy(s, key) && |s| > 0 && !Less(key(s[0]), key(x))
    ensures multiset([x] + s) == multiset(s) + multiset{x}
    ensures SortedBy([x] + s, key)
  {
    var r := [x] + s;
    forall i, j | 0 <= i < j < |r| ensures !Less(key(r[j]), key(r[i])) {
      if i == 0 && j > 1 {
        AtMostTransitive(key(x), key(s[0]), key(s[j - 1]));
      }
    }
  }

  /** `x` goes after the first element when its key is above it. */
  lemma InsertAfter<T>(x: T, s: seq<T>, rest: seq<T>, key: T -> Str)
    requires SortedBy(s, key) && |s| > 0 && Less(key(s[0]), key(x))
    requires multiset(rest) == multiset(s[1..]) + multiset{x} && SortedBy(rest, key)
    ensures multiset([s[0]] + rest) == multiset(s) + multiset{x}
    ensures SortedBy([s[0]] + rest, key)
  {
    var r := [s[0]] + rest;
    assert s == [s[0]] + s[1..];
    forall j | 0 < j < |r| ensures !Less(key(r[j]), key(r[0])) {
      assert r[j] == rest[j - 1];
      assert r[j] in multiset(rest);
      if r[j] == x {
        LessAsymmetric(key(s[0]), key(x));
      } else {
        assert r[j] in multiset(s[1..]);
        var k :| 0 <= k < |s[1..]| && s[1..][k] == r[j];
        assert s[k + 1] == r[j];
      }
    }
  }

  /** Insertion sort by key. */
  function SortBy<T(==)>(s: seq<T>, key: T -> Str): (r: seq<T>)
    ensures multiset(r) == multiset(s)
    ensures SortedBy(r, key)
    decreases |s|
  {
    if |s| == 0 then []
    else
      assert s == [s[0]] + s[1..];
      InsertBy(s[0], SortBy(s[1..], key), key)
  }

  function Self(s: Str): Str { s }

  /** `sort.Strings`. */
  function SortStrings(s: seq<Str>): (r: seq<Str>)
    ensures multiset(r) == multiset(s)
    ensures SortedBy(r, Self)
  {
    SortBy(s, Self)
  }

  /** Two equal elements are counted twice. */
  lemma CountTwo<T>(s: seq<T>, i: nat, j: nat)
    requires i < j < |s| && s[i] == s[j]
    ensures multiset(s)[s[i]] >= 2
  {
    assert s == s[..j] + [s[j]] + s[j + 1..];
    assert s[i] in s[..j];
  }

  lemma {:induction false} DistinctCount<T>(s: seq<T>, v: T)
    requires Distinct(s)
    ensures multiset(s)[v] <= 1
    decreases |s|
  {
    if |s| > 0 {
      var init := s[..|s| - 1];
      assert s == init + [s[|s| - 1]];
      DistinctCount(init, v);
      if s[|s| - 1] == v {
        assert v !in init;
      }
    }
  }

  /** Reordering keeps a sequence free of repeats. */
  lemma DistinctPermutation<T>(a: seq<T>, b: seq<T>)
    requires multiset(a) == multiset(b) && Distinct(a)
    ensures Distinct(b)
  {
    forall i, j | 0 <= i < j < |b| ensures b[i] != b[j] {
      if b[i] == b[j] {
        CountTwo(b, i, j);
        DistinctCount(a, b[i]);
      }
    }
  }

  /** A sorted sequence without repeats ascends strictly. */
  lemma SortedDistinctStrict(s: seq<Str>)
    requires SortedBy(s, Self) && Distinct(s)
    ensures Strict(s)
  {
    forall i, j | 0 <= i < j < |s| ensures Less(s[i], s[j]) {
      LessTotal(s[i], s[j]);
    }
  }

  /** A strictly ascending sequence is determined by its elements: whatever
      order they were found in, sorting them gives the same list. */
  lemma {:induction false} StrictUnique(a: seq<Str>, b: seq<Str>)
    requires Strict(a) && Strict(b)
    requires forall x :: x in a <==> x in b
    ensures a == b
    decreases |a|
  {
    assert |a| > 0 ==> a[0] in a && a[0] in b;
    assert |b| > 0 ==> b[0] in b && b[0] in a;
    if |a| > 0 && |b| > 0 {
      assert a[0] == b[0] by {
        if a[0] != b[0] {
          var i :| 0 <= i < |b| && b[i] == a[0];
          var j :| 0 <= j < |a| && a[j] == b[0];
          assert i > 0 && j > 0;
          LessAsymmetric(a[0], a[j]);
        }
      }
      assert a == [a[0]] + a[1..] && b == [b[0]] + b[1..];
      forall x ensures x in a[1..] <==> x in b[1..] {
        if x in a[1..] {
          var i :| 1 <= i < |a| && a[i] == x;
          assert Less(a[0], x);
          LessIrreflexive(x);
          assert x in b;
        }
        if x in b[1..] {
          var i :| 1 <= i < |b| && b[i] == x;
          assert Less(b[0], x);
          LessIrreflexive(x);
          assert x in a;
        }
      }
      StrictUnique(a[1..], b[1..]);
    }
  }
}

=== FILE: reporoot.dfy ===
/** The upward search for the repository of `internal/utils/repo.go`. A
    path is the sequence of its segments below the file-system root, which
    is the empty sequence; `filepath.Dir` drops the last segment and leaves
    the root where it is. */
module RepoRoot {
  import opened Wrappers
  import opened Bytes

  type Path = seq<Str>

  /** The paths `p` for which `os.Stat(p/.notgit)` succeeds and reports a
      directory. A `.notgit` file, a missing one and one whose stat fails
      are all outside this set. */
  type RepoDirs = set<Path>

  predicate IsRepo(dirs: RepoDirs, p: Path) {
    p + [".notgit"] in dirs
  }

  /** `FindRepoRoot`: the start path if it holds a `.notgit` directory,
      otherwise the search continues from its parent, and fails once the
      root has been checked. */
  function FindRepoRoot(dirs: RepoDirs, start: Path): (r: Result<Path>)
    ensures r.Ok? ==> |r.value| <= |start| && r.value == start[..|r.value|] && IsRepo(dirs, r.value)
    ensures r.Ok? ==> forall k | |r.value| < k <= |start| :: !IsRepo(dirs, start[..k])
    ensures r.Err? ==> r.error == NotARepository && forall k | 0 <= k <= |start| :: !IsRepo(dirs, start[..k])
    decreases |start|
  {
    if IsRepo(dirs, start) then
      assert start[..|start|] == start;
      Ok(start)
    else if start == [] then
      assert start[..0] == start;
      Err(NotARepository)
    else
      var parent := start[..|start| - 1];
      var r := FindRepoRoot(dirs, parent);
      assert forall k | 0 <= k <= |parent| :: parent[..k] == start[..k];
      assert start[..|start|] == start;
      r
  }

  /** The search finds a repository exactly when some ancestor of the start
      path (itself included) is one. */
  lemma FoundIffSomeAncestor(dirs: RepoDirs, start: Path)
    ensures FindRepoRoot(dirs, start).Ok? <==> exists k | 0 <= k <= |start| :: IsRepo(dirs, start[..k])
  {
    var r := FindRepoRoot(dirs, start);
    if r.Ok? {
      assert IsRepo(dirs, start[..|r.value|]);
    }
  }
}

=== FILE: repository.dfy ===
/** The `.notgit` directory of `internal/repository/repo.go`: HEAD, the
    branch refs and the config file, as a map from `.notgit`-relative path
    text to what is stored there; and the whole repository state the
    commands read and change. */
module Repository {
  import opened Wrappers
  import opened Bytes
  import Objects
  import Index

  /** What a path under `.notgit` names. */
  datatype Node =
    | FileNode(data: Str)
    | DirNode
    | LockedNode   // a file that exists but cannot be read or written

  type Files = map<Str, Node>

  /** A repository: its `.notgit` files, its object store, its index file
      and the working tree (paths relative to the root, with `/`, mapped to
      file contents). */
  datatype State = State(files: Files, objects: Objects.Store, index: Index.IndexFile, work: map<Str, Str>)

  /** What a command leaves behind and what it reports. A command that
      fails part-way keeps the changes it made before the failure. */
  datatype Run<+T> = Run(state: State, result: Result<T>)

  /** `os.ReadFile`: a missing path and an unreadable one fail differently
      (`os.IsNotExist` tells them apart); reading a directory fails. */
  function ReadFile(fs: Files, path: Str): (r: Result<Str>)
    ensures path !in fs ==> r == Err(NotFound)
    ensures r.Ok? <==> path in fs && fs[path].FileNode?
    ensures r.Ok? ==> r.value == fs[path].data
    ensures path in fs && !fs[path].FileNode? ==> r == Err(Unreadable)
  {
    if path !in fs then Err(NotFound)
    else
      match fs[path]
      case FileNode(d) => Ok(d)
      case _ => Err(Unreadable)
  }

  /** `os.WriteFile`: replaces a file's content or creates it; a directory
      or a locked file cannot be written. */
  function WriteFile(fs: Files, path: Str, data: Str): (r: Result<Files>)
    ensures r.Ok? <==> path !in fs || fs[path].FileNode?
    ensures r.Ok? ==> r.value == fs[path := FileNode(data)]
    ensures r.Err? ==> r.error == Unreadable
  {
    if path in fs && !fs[path].FileNode? then Err(Unreadable) else Ok(fs[path := FileNode(data)])
  }

  /** The ref path a branch's name stands for, before cleaning. */
  function BranchRef(name: Str): Str {
    "refs/heads/" + name
  }

  /** `filepath.Join(".notgit", "refs", "heads", name)` for a name without
      `/`: the empty name and `.` clean to the heads directory itself, and
      `..` to its parent. */
  function BranchPath(name: Str): (r: Str)
    ensures |r| >= 4 && r[..4] == "refs"
    ensures name !in {[], ".", ".."} ==> r == "refs/heads/" + name
  {
    if name == [] || name == "." then "refs/heads"
    else if name == ".." then "refs"
    else "refs/heads/" + name
  }

  /** `strings.CutPrefix`. */
  function CutPrefix(s: Str, p: Str): (r: Option<Str>)
    ensures r.Some? <==> HasPrefix(s, p)
    ensures r.Some? ==> s == p + r.value
  {
    if HasPrefix(s, p) then
      assert s == s[..|p|] + s[|p|..];
      Some(s[|p|..])
    else None
  }

  /** The HEAD text naming a branch. */
  function SymbolicHead(branch: Str): Str {
    "ref: refs/heads/" + branch + "\n"
  }

  const DefaultBranch: Str := "master"

  /** What `CreateRepo` leaves in `.notgit`: the `refs/heads` and `objects`
      directories, HEAD naming the configured default branch (`master`
      when `init.defaultBranch` is not set), and an empty config file. */
  function CreateRepo(configured: Option<Str>): (r: Files)
    ensures r.Keys == {"refs", "refs/heads", "objects", "HEAD", "config"}
    ensures configured.None? ==> r["HEAD"] == FileNode(SymbolicHead(DefaultBranch))
    ensures configured.Some? ==> r["HEAD"] == FileNode(SymbolicHead(configured.value))
    ensures r["config"] == FileNode([])
    ensures r["refs/heads"] == DirNode && r["objects"] == DirNode
  {
    var branch := if configured.Some? then configured.value else DefaultBranch;
    map["refs" := DirNode, "refs/heads" := DirNode, "objects" := DirNode,
        "HEAD" := FileNode(SymbolicHead(branch)), "config" := FileNode([])]
  }

  /** `GetCurrentBranch`: the branch HEAD names, or the empty text when
      HEAD is not of the form `ref: refs/heads/<branch>`. */
  function GetCurrentBranch(fs: Files): (r: Result<Str>)
    ensures ReadFile(fs, "HEAD").Err? <==> r.Err?
    ensures r.Err? ==> r.error == ReadFile(fs, "HEAD").error
    ensures r.Ok? && r.value != [] ==> TrimSpace(ReadFile(fs, "HEAD").value) == "ref: refs/heads/" + r.value
    ensures r.Ok? && !HasPrefix(TrimSpace(ReadFile(fs, "HEAD").value), "ref: refs/heads/") ==> r.value == []
  {
    var data :- ReadFile(fs, "HEAD");
    match CutPrefix(TrimSpace(data), "ref: refs/heads/")
    case Some(branch) => Ok(branch)
    case None => Ok([])
  }

  /** One step of `filepath.Clean` over the path components after the
      ones already kept: empty components and `.` vanish, `..` drops the
      last kept component. `None` when `..` climbs above the repository
      root. */
  function CleanSteps(kept: seq<Str>, parts: seq<Str>): Option<seq<Str>>
    decreases |parts|
  {
    if parts == [] then Some(kept)
    else if parts[0] == [] || parts[0] == "." then CleanSteps(kept, parts[1..])
    else if parts[0] == ".." then
      if kept == [] then None else CleanSteps(kept[..|kept| - 1], parts[1..])
    else CleanSteps(kept + [parts[0]], parts[1..])
  }

  /** A path none of whose components is empty, `.` or `..`: the form
      `filepath.Clean` leaves unchanged. */
  predicate Plain(path: Str) {
    PlainParts(Split(path, '/'))
  }

  predicate PlainParts(parts: seq<Str>) {
    forall i | 0 <= i < |parts| :: parts[i] !in {[], ".", ".."}
  }

  predicate NoSlash(parts: seq<Str>) {
    forall i | 0 <= i < |parts| :: '/' !in parts[i]
  }

  /** The empty path is not plain: its one component is empty. */
  lemma PlainNonEmpty(path: Str)
    ensures Plain(path) ==> path != []
  {
    if path == [] {
      assert Split(path, '/') == [[]];
      assert Split(path, '/')[0] == [];
    }
  }

  /** A branch name that path cleaning leaves alone under `refs/heads`:
      none of its `/`-separated parts is empty, `.` or `..`. */
  predicate PlainName(name: Str) {
    PlainParts(Split(name, '/'))
  }

  /** Where `filepath.Join(repo.NotgitDir, refPath)` lands, as a path
      relative to `.notgit`: `Some([])` is the `.notgit` directory itself,
      and `None` a path that leaves `.notgit` through `..`. */
  function RefFile(refPath: Str): Option<Str> {
    Inside(CleanSteps([".notgit"], Split(refPath, '/')))
  }

  /** The components kept from the repository root, as a path relative
      to `.notgit` when they start with it. */
  function Inside(kept: Option<seq<Str>>): Option<Str> {
    match kept
    case Some(k) => if |k| >= 1 && k[0] == ".notgit" then Some(Join(k[1..], '/')) else None
    case None => None
  }

  /** Cleaning leaves a plain ref path alone, and whatever it yields below
      `.notgit` is plain. */
  lemma CleanFacts(refPath: Str)
    ensures Plain(refPath) ==> RefFile(refPath) == Some(refPath)
    ensures RefFile(refPath).Some? && RefFile(refPath).value != [] ==> Plain(RefFile(refPath).value)
  {
    var parts := Split(refPath, '/');
    SplitNoSeparator(refPath, '/');
    CleanKeepsPlain([".notgit"], parts);
    if Plain(refPath) {
      CleanPlain([".notgit"], parts);
      assert ([".notgit"] + parts)[1..] == parts;
      JoinSplit(refPath, '/');
    }
    var c := CleanSteps([".notgit"], parts);
    if c.Some? && |c.value| >= 1 && c.value[0] == ".notgit" {
      JoinPlain(c.value[1..]);
    }
  }

  /** Cleaning a cleaned ref path changes nothing. */
  lemma RefFileIdempotent(refPath: Str)
    requires RefFile(refPath).Some? && RefFile(refPath).value != []
    ensures RefFile(RefFile(refPath).value) == RefFile(refPath)
  {
    CleanFacts(refPath);
    CleanFacts(RefFile(refPath).value);
  }

  /** Plain components are all kept. */
  lemma {:induction false} CleanPlain(kept: seq<Str>, parts: seq<Str>)
    requires PlainParts(parts)
    ensures CleanSteps(kept, parts) == Some(kept + parts)
    decreases |parts|
  {
    if parts == [] {
      assert kept + parts == kept;
    } else {
      var p := parts[0];
      assert p !in {[], ".", ".."};
      assert p != [] && p != "." && p != "..";
      assert CleanSteps(kept, parts) == CleanSteps(kept + [p], parts[1..]);
      assert PlainParts(parts[1..]) by {
        forall i | 0 <= i < |parts[1..]| ensures parts[1..][i] !in {[], ".", ".."} {
          assert parts[1..][i] == parts[i + 1];
        }
      }
      CleanPlain(kept + [p], parts[1..]);
      assert kept + [p] + parts[1..] == kept + parts;
    }
  }

  /** Cleaning keeps only plain components that hold no `/`. */
  lemma {:induction false} CleanKeepsPlain(kept: seq<Str>, parts: seq<Str>)
    requires PlainParts(kept) && NoSlash(kept) && NoSlash(parts)
    ensures CleanSteps(kept, parts).Some? ==>
      PlainParts(CleanSteps(kept, parts).value) && NoSlash(CleanSteps(kept, parts).value)
    decreases |parts|
  {
    if parts != [] {
      assert NoSlash(parts[1..]) by {
        forall i | 0 <= i < |parts[1..]| ensures '/' !in parts[1..][i] {
          assert parts[1..][i] == parts[i + 1];
        }
      }
      if parts[0] == [] || parts[0] == "." {
        CleanKeepsPlain(kept, parts[1..]);
      } else if parts[0] == ".." {
        if kept != [] {
          CleanKeepsPlain(kept[..|kept| - 1], parts[1..]);
        }
      } else {
        assert '/' !in parts[0];
        CleanKeepsPlain(kept + [parts[0]], parts[1..]);
      }
    }
  }

  /** Joining plain, `/`-free components gives a plain path (or the empty
      one, for no components). */
  lemma JoinPlain(parts: seq<Str>)
    requires PlainParts(parts) && NoSlash(parts)
    ensures parts == [] ==> Join(parts, '/') == []
    ensures parts != [] ==> Plain(Join(parts, '/'))
  {
    if parts != [] {
      SplitJoin(parts, '/');
    }
  }

  /** `os.ReadFile` of a ref path after cleaning: the `.notgit` directory
      cannot be read as a file. */
  function ReadRef(fs: Files, refPath: Str): (r: Result<Str>)
    ensures RefFile(refPath) == Some([]) || RefFile(refPath).None? ==> r == Err(Unreadable)
    ensures RefFile(refPath).Some? && RefFile(refPath).value != [] ==> r == ReadFile(fs, RefFile(refPath).value)
  {
    match RefFile(refPath)
    case Some(path) => if path == [] then Err(Unreadable) else ReadFile(fs, path)
    case None => Err(Unreadable)
  }

  /** `os.WriteFile` of a ref path after cleaning. */
  function WriteRef(fs: Files, refPath: Str, data: Str): (r: Result<Files>)
    ensures RefFile(refPath) == Some([]) || RefFile(refPath).None? ==> r == Err(Unreadable)
    ensures RefFile(refPath).Some? && RefFile(refPath).value != [] ==> r == WriteFile(fs, RefFile(refPath).value, data)
  {
    match RefFile(refPath)
    case Some(path) => if path == [] then Err(Unreadable) else WriteFile(fs, path, data)
    case None => Err(Unreadable)
  }

  /** The ref path `refs/heads/<name>` cleans to `BranchPath(name)` for a
      name without `/`. */
  lemma BranchPathCleans(name: Str)
    requires '/' !in name
    ensures RefFile("refs/heads/" + name) == Some(BranchPath(name))
  {
    SplitBranchRef(name);
    assert Split(name, '/') == [name] by {
      assert IndexOf(name, '/') < 0;
    }
    if name == [] || name == "." || name == ".." {
      DirNameCleans(name);
    } else {
      assert PlainName(name) by {
        assert PlainParts([name]);
      }
      PlainNameRef(name);
      CleanFacts("refs/heads/" + name);
    }
  }

  lemma DirNameCleans(name: Str)
    requires name == [] || name == "." || name == ".."
    requires Split("refs/heads/" + name, '/') == ["refs"] + (["heads"] + [name])
    ensures RefFile("refs/heads/" + name) == Some(BranchPath(name))
  {
    var kept := CleanDirName(name);
    assert Join(kept[1..], '/') == BranchPath(name) by {
      if name == ".." {
        assert kept[1..] == ["refs"];
      } else {
        assert kept[1..] == ["refs", "heads"] && ["refs", "heads"][1..] == ["heads"];
        assert "refs" + ['/'] + "heads" == "refs/heads";
      }
    }
  }

  /** The components of `refs/heads/<name>` for the three names that
      clean to a directory: `.` and the empty name drop out, `..` climbs
      back to `refs`. */
  lemma CleanDirName(name: Str) returns (kept: seq<Str>)
    requires name == [] || name == "." || name == ".."
    ensures CleanSteps([".notgit"], ["refs"] + (["heads"] + [name])) == Some(kept)
    ensures name == ".." ==> kept == [".notgit", "refs"]
    ensures name != ".." ==> kept == [".notgit", "refs", "heads"]
  {
    var heads := [".notgit", "refs", "heads"];
    CleanKeep([".notgit"], "refs", ["heads"] + [name]);
    CleanKeep([".notgit", "refs"], "heads", [name]);
    assert [".notgit"] + ["refs"] == [".notgit", "refs"] && [".notgit", "refs"] + ["heads"] == heads;
    if name == ".." {
      assert CleanSteps(heads, [name]) == CleanSteps(heads[..2], []);
      kept := [".notgit", "refs"];
    } else {
      assert CleanSteps(heads, [name]) == CleanSteps(heads, []);
      kept := heads;
    }
  }

  /** A plain component is kept. */
  lemma CleanKeep(kept: seq<Str>, part: Str, rest: seq<Str>)
    requires part != [] && part != "." && part != ".."
    ensures CleanSteps(kept, [part] + rest) == CleanSteps(kept + [part], rest)
  {
    assert ([part] + rest)[1..] == rest;
  }

  lemma SplitBranchRef(name: Str)
    ensures Split("refs/heads/" + name, '/') == ["refs"] + (["heads"] + Split(name, '/'))
  {
    HeadsPrefix();
    SplitTwoPrefix("refs", "heads", name, '/');
  }

  /** A plain branch name gives a plain ref path. */
  lemma PlainNameRef(name: Str)
    requires PlainName(name)
    ensures Plain("refs/heads/" + name)
  {
    SplitBranchRef(name);
    PlainCons("heads", Split(name, '/'));
    PlainCons("refs", ["heads"] + Split(name, '/'));
  }

  /** Putting a plain component in front keeps the components plain. */
  lemma PlainCons(part: Str, rest: seq<Str>)
    requires part != [] && part != "." && part != ".."
    requires PlainParts(rest)
    ensures PlainParts([part] + rest)
  {
    var parts := [part] + rest;
    forall i | 0 <= i < |parts| ensures parts[i] !in {[], ".", ".."} {
      if i >= 1 { assert parts[i] == rest[i - 1]; }
    }
  }

  lemma RefHeadsPrefix()
    ensures "ref: refs/heads/" == "ref: " + "refs/heads/"
  {
  }

  lemma HeadsPrefix()
    ensures "refs/heads/" == "refs" + ['/'] + "heads" + ['/']
    ensures '/' !in "refs" && '/' !in "heads"
  {
  }

  /** `GetHEADCommitHash`. A HEAD of the form `ref: <path>` gives the
      trimmed content of that file, or the empty text when it does not
      exist; any other HEAD is returned trimmed, unchecked. */
  function GetHEADCommitHash(fs: Files): (r: Result<Str>)
    ensures ReadFile(fs, "HEAD").Err? ==> r == Err(ReadFile(fs, "HEAD").error)
    ensures ReadFile(fs, "HEAD").Ok? ==>
      var head := TrimSpace(ReadFile(fs, "HEAD").value);
      r == if HasPrefix(head, "ref: ") then ResolveRef(fs, head[5..]) else Ok(head)
    ensures r.Ok? ==> Trimmed(r.value)
  {
    var data :- ReadFile(fs, "HEAD");
    var head := TrimSpace(data);
    var refPath := CutPrefix(head, "ref: ");
    if refPath.None? then Ok(head) else ResolveRef(fs, refPath.value)
  }

  /** The trimmed content of a ref file, read at its cleaned path; a
      missing one means no commit. */
  function ResolveRef(fs: Files, refPath: Str): (r: Result<Str>)
    ensures r.Ok? ==> Trimmed(r.value)
    ensures ReadRef(fs, refPath) == Err(NotFound) ==> r == Ok([])
    ensures ReadRef(fs, refPath).Ok? ==> r == Ok(TrimSpace(ReadRef(fs, refPath).value))
    ensures ReadRef(fs, refPath) == Err(Unreadable) ==> r == Err(Unreadable)
  {
    match ReadRef(fs, refPath)
    case Err(NotFound) => Ok([])
    case Err(e) => Err(e)
    case Ok(hash) => Ok(TrimSpace(hash))
  }

  lemma SymbolicHeadTrims(branch: Str)
    requires |branch| == 0 || !IsSpace(branch[|branch| - 1])
    ensures TrimSpace(SymbolicHead(branch)) == "ref: refs/heads/" + branch
  {
    var t := "ref: refs/heads/" + branch;
    assert t[0] == 'r';
    assert |branch| == 0 ==> t[|t| - 1] == '/';
    assert |branch| > 0 ==> t[|t| - 1] == branch[|branch| - 1];
    TrimNewline(t);
  }

  /** A HEAD naming a branch resolves through that branch's ref file. */
  lemma {:induction false} SymbolicHeadResolves(fs: Files, branch: Str)
    requires ReadFile(fs, "HEAD") == Ok(SymbolicHead(branch))
    requires |branch| == 0 || !IsSpace(branch[|branch| - 1])
    ensures GetCurrentBranch(fs) == Ok(branch)
    ensures GetHEADCommitHash(fs) == ResolveRef(fs, "refs/heads/" + branch)
  {
    SymbolicHeadTrims(branch);
    CutAppend("ref: refs/heads/", branch);
    assert CutPrefix("ref: refs/heads/" + branch, "ref: ") == Some("refs/heads/" + branch) by {
      RefHeadsPrefix();
      ConcatAssoc("ref: ", "refs/heads/", branch);
      CutAppend("ref: ", "refs/heads/" + branch);
    }
  }

  lemma CutAppend(p: Str, s: Str)
    ensures CutPrefix(p + s, p) == Some(s)
  {
    PrefixOfAppend(p, s);
    assert (p + s)[|p|..] == s;
  }

  /** A new repository is on its default branch, which has no commits
      when its ref path is a plain one; a configured "", `.` or `..` names
      a directory, which HEAD cannot be resolved through. */
  lemma {:induction false} CreateRepoHead(configured: Option<Str>)
    requires configured.Some? ==> |configured.value| == 0 || !IsSpace(configured.value[|configured.value| - 1])
    ensures var branch := if configured.Some? then configured.value else DefaultBranch;
            && GetCurrentBranch(CreateRepo(configured)) == Ok(branch)
            && (PlainName(branch) ==> GetHEADCommitHash(CreateRepo(configured)) == Ok([]))
            && (branch in {[], ".", ".."} ==> GetHEADCommitHash(CreateRepo(configured)) == Err(Unreadable))
  {
    var branch := if configured.Some? then configured.value else DefaultBranch;
    var fs := CreateRepo(configured);
    assert ReadFile(fs, "HEAD") == Ok(SymbolicHead(branch));
    SymbolicHeadResolves(fs, branch);
    if PlainName(branch) {
      UnbornRef(fs, branch);
    }
    if branch in {[], ".", ".."} {
      DirectoryRef(fs, branch);
    }
  }

  /** In a new repository no plain branch name has a ref yet. */
  lemma UnbornRef(fs: Files, branch: Str)
    requires fs.Keys == {"refs", "refs/heads", "objects", "HEAD", "config"}
    requires PlainName(branch)
    ensures ResolveRef(fs, "refs/heads/" + branch) == Ok([])
  {
    var p := "refs/heads/" + branch;
    PlainNameRef(branch);
    PlainNonEmpty(p);
    CleanFacts(p);
    RefNotInNewRepo(fs, branch);
  }

  /** The branch names "", `.` and `..` resolve through a directory. */
  lemma DirectoryRef(fs: Files, branch: Str)
    requires "refs" in fs && fs["refs"] == DirNode && "refs/heads" in fs && fs["refs/heads"] == DirNode
    requires branch == [] || branch == "." || branch == ".."
    ensures ResolveRef(fs, "refs/heads/" + branch) == Err(Unreadable)
  {
    BranchPathCleans(branch);
  }

  lemma RefNotInNewRepo(fs: Files, branch: Str)
    requires fs.Keys == {"refs", "refs/heads", "objects", "HEAD", "config"}
    ensures "refs/heads/" + branch !in fs
  {
    var k := "refs/heads/" + branch;
    assert |k| >= 11;
    assert forall x | x in fs :: |x| <= 10;
  }

  /** After the ref HEAD names is written with `hash` and a newline (as
      `commit`, `branch` and `merge` do), HEAD resolves to `hash`. */
  lemma {:induction false} WrittenRefResolves(fs: Files, refPath: Str, hash: Str)
    requires ReadFile(fs, "HEAD").Ok?
    requires CutPrefix(TrimSpace(ReadFile(fs, "HEAD").value), "ref: ") == Some(refPath)
    requires RefFile(refPath) != Some("HEAD")
    requires Trimmed(hash)
    requires WriteRef(fs, refPath, hash + "\n").Ok?
    ensures GetHEADCommitHash(WriteRef(fs, refPath, hash + "\n").value) == Ok(hash)
  {
    var fs2 := WriteRef(fs, refPath, hash + "\n").value;
    assert ReadFile(fs2, "HEAD") == ReadFile(fs, "HEAD");
    assert ResolveRef(fs2, refPath) == Ok(hash) by {
      TrimNewline(hash);
    }
  }

  /** Writing `hash` and a newline at the cleaned ref path of the branch
      HEAD names (as `merge` does) moves HEAD to `hash`. The one exception
      is a branch name whose ref path cleans to HEAD itself: the write then
      replaces HEAD, which resolves to `hash` unless `hash` reads as
      another `ref: ` line. */
  lemma BranchWriteMovesHead(fs: Files, branch: Str, hash: Str)
    requires GetCurrentBranch(fs) == Ok(branch)
    requires branch != []
    requires Trimmed(hash)
    requires WriteRef(fs, BranchRef(branch), hash + "\n").Ok?
    ensures RefFile(BranchRef(branch)) == Some("HEAD") ==>
      ReadFile(WriteRef(fs, BranchRef(branch), hash + "\n").value, "HEAD") == Ok(hash + "\n")
    ensures RefFile(BranchRef(branch)) != Some("HEAD") || !HasPrefix(hash, "ref: ") ==>
      GetHEADCommitHash(WriteRef(fs, BranchRef(branch), hash + "\n").value) == Ok(hash)
  {
    CurrentRefPath(fs, branch);
    RefWriteMovesHead(fs, BranchRef(branch), hash);
  }

  /** Writing `hash` and a newline at the ref path HEAD names moves HEAD to
      `hash`, unless that path cleans to HEAD itself and `hash` reads as a
      `ref: ` line; HEAD then holds the written text. */
  lemma RefWriteMovesHead(fs: Files, refPath: Str, hash: Str)
    requires ReadFile(fs, "HEAD").Ok?
    requires CutPrefix(TrimSpace(ReadFile(fs, "HEAD").value), "ref: ") == Some(refPath)
    requires Trimmed(hash)
    requires WriteRef(fs, refPath, hash + "\n").Ok?
    ensures RefFile(refPath) == Some("HEAD") ==> ReadFile(WriteRef(fs, refPath, hash + "\n").value, "HEAD") == Ok(hash + "\n")
    ensures RefFile(refPath) != Some("HEAD") || !HasPrefix(hash, "ref: ") ==>
      GetHEADCommitHash(WriteRef(fs, refPath, hash + "\n").value) == Ok(hash)
  {
    if RefFile(refPath) == Some("HEAD") {
      if !HasPrefix(hash, "ref: ") {
        OverwrittenHead(WriteRef(fs, refPath, hash + "\n").value, hash);
      }
    } else {
      WrittenRefResolves(fs, refPath, hash);
    }
  }

  /** HEAD holding a trimmed text other than a `ref: ` line, plus a
      newline, resolves to that text. */
  lemma OverwrittenHead(fs: Files, hash: Str)
    requires ReadFile(fs, "HEAD") == Ok(hash + "\n")
    requires Trimmed(hash) && !HasPrefix(hash, "ref: ")
    ensures GetHEADCommitHash(fs) == Ok(hash)
  {
    TrimNewline(hash);
  }

  /** HEAD naming a branch names its ref path after `ref: `. */
  lemma CurrentRefPath(fs: Files, branch: Str)
    requires GetCurrentBranch(fs) == Ok(branch) && branch != []
    ensures ReadFile(fs, "HEAD").Ok?
    ensures CutPrefix(TrimSpace(ReadFile(fs, "HEAD").value), "ref: ") == Some(BranchRef(branch))
  {
    var head := TrimSpace(ReadFile(fs, "HEAD").value);
    assert head == "ref: refs/heads/" + branch;
    assert head[..5] == "ref: " && head[5..] == "refs/heads/" + branch;
  }

  /** A detached HEAD holding a digest resolves to that digest and names no
      branch. */
  lemma DetachedHead(fs: Files, d: Digest)
    requires ReadFile(fs, "HEAD") == Ok(d + "\n")
    ensures GetHEADCommitHash(fs) == Ok(d)
    ensures GetCurrentBranch(fs) == Ok([])
  {
    DigestTrimmed(d);
    TrimNewline(d);
    assert IsLowerHex(d[0]);
    assert !HasPrefix(d, "ref: ") && !HasPrefix(d, "ref: refs/heads/") by {
      assert d[0] != 'r';
    }
  }
}

=== FILE: scan.dfy ===
/** The two `fmt.Sscanf` formats the object codecs use, over ASCII input.
    Following `fmt`, a space in the format matches one or more blanks of the
    input, a newline in the input where a blank or a token is expected is an
    error, and input after the last conversion is ignored. */
module Scan {
  import opened Wrappers
  import opened Bytes
  import opened Numbers

  /** A space other than newline. */
  predicate IsBlank(c: Byte) {
    c == ' ' || c == '\t' || c == '\r' || c == '\U{000B}' || c == '\U{000C}'
  }

  /** The length of the longest prefix of blanks. */
  function BlankRun(s: Str): (n: nat)
    ensures n <= |s|
    ensures forall i | 0 <= i < n :: IsBlank(s[i])
    ensures n == |s| || !IsBlank(s[n])
  {
    if |s| > 0 && IsBlank(s[0]) then 1 + BlankRun(s[1..]) else 0
  }

  /** The length of the longest prefix of decimal digits. */
  function DigitRun(s: Str): (n: nat)
    ensures n <= |s|
    ensures forall i | 0 <= i < n :: IsDigit(s[i])
    ensures n == |s| || !IsDigit(s[n])
  {
    if |s| > 0 && IsDigit(s[0]) then 1 + DigitRun(s[1..]) else 0
  }

  /** The length of the longest prefix without white space. */
  function WordRun(s: Str): (n: nat)
    ensures n <= |s|
    ensures forall i | 0 <= i < n :: !IsSpace(s[i])
    ensures n == |s| || IsSpace(s[n])
  {
    if |s| > 0 && !IsSpace(s[0]) then 1 + WordRun(s[1..]) else 0
  }

  predicate NoSpace(s: Str) {
    forall i | 0 <= i < |s| :: !IsSpace(s[i])
  }

  /** `fmt.Sscanf(h, "blob %d", &size)`: the literal `blob`, then what
      `SpacedInt` reads. */
  function ScanBlobHeader(h: Str): (r: Option<int>)
    ensures r.Some? ==> HasPrefix(h, "blob") && InInt64(r.value)
    ensures r.Some? ==> |h| > 4 && IsBlank(h[4])
  {
    if !HasPrefix(h, "blob") then None else SpacedInt(h[4..])
  }

  /** A space of the format followed by `%d`: one or more blanks (a newline
      or the end of input there is an error), then `ScanInt`. */
  function SpacedInt(s: Str): (r: Option<int>)
    ensures r.Some? ==> InInt64(r.value) && |s| > 0 && IsBlank(s[0])
  {
    var b := BlankRun(s);
    if b == 0 || b == |s| || s[b] == '\n' then None else ScanInt(s[b..])
  }

  /** `%d` on input that starts with a non-space: an optional sign and the
      longest run of digits, at least one, read as a 64-bit integer. */
  function ScanInt(s: Str): (r: Option<int>)
    ensures r.Some? ==> InInt64(r.value)
  {
    var sign := if |s| > 0 && (s[0] == '+' || s[0] == '-') then 1 else 0;
    var d := DigitRun(s[sign..]);
    if d == 0 then None else ParseInt64(s[..sign + d])
  }

  lemma ScanIntDecimal(n: nat, tail: Str)
    requires n <= MaxInt64
    requires |tail| == 0 || !IsDigit(tail[0])
    ensures ScanInt(Decimal(n) + tail) == Some(n)
  {
    var digits := Decimal(n);
    var num := digits + tail;
    assert num[..|digits|] == digits;
    DigitRunOf(digits, tail);
    ParseIntText(n);
  }

  lemma SpacedIntOne(num: Str)
    requires |num| > 0 && !IsSpace(num[0])
    ensures SpacedInt(" " + num) == ScanInt(num)
  {
    assert (" " + num)[1..] == num;
  }

  /** The header `Serialize` writes scans back to the size it holds. */
  lemma ScanBlobHeaderDecimal(n: nat, tail: Str)
    requires n <= MaxInt64
    requires |tail| == 0 || !IsDigit(tail[0])
    ensures ScanBlobHeader("blob " + Decimal(n) + tail) == Some(n)
  {
    var num := Decimal(n) + tail;
    var h := "blob " + Decimal(n) + tail;
    assert h[..4] == "blob" && h[4..] == " " + num;
    SpacedIntOne(num);
    ScanIntDecimal(n, tail);
  }

  lemma {:induction false} DigitRunOf(digits: Str, tail: Str)
    requires AllDigits(digits)
    requires |tail| == 0 || !IsDigit(tail[0])
    ensures DigitRun(digits + tail) == |digits|
    decreases |digits|
  {
    if |digits| > 0 {
      assert (digits + tail)[1..] == digits[1..] + tail;
      DigitRunOf(digits[1..], tail);
    } else {
      assert digits + tail == tail;
    }
  }

  /** One `%s` conversion: skip blanks, then take the longest run of
      non-space bytes. The end of input or a newline where the word should
      start is an error. Returns the word and the input after it. */
  function ScanWord(s: Str): (r: Option<(Str, Str)>)
    ensures r.Some? ==> |r.value.0| >= 1 && NoSpace(r.value.0)
    ensures r.Some? ==> |r.value.1| <= |s| && (|r.value.1| == 0 || IsSpace(r.value.1[0]))
  {
    var b := BlankRun(s);
    if b == |s| || s[b] == '\n' then None
    else
      var w := WordRun(s[b..]);
      Some((s[b..b + w], s[b + w..]))
  }

  /** `fmt.Sscanf(meta, "%s %s %s", &a, &b, &c)`. */
  function Fields3(s: Str): (r: Option<(Str, Str, Str)>)
    ensures r.Some? ==> NoSpace(r.value.0) && NoSpace(r.value.1) && NoSpace(r.value.2)
    ensures r.Some? ==> |r.value.0| >= 1 && |r.value.1| >= 1 && |r.value.2| >= 1
  {
    match ScanWord(s)
    case None => None
    case Some((a, s1)) =>
      match ScanWord(s1)
      case None => None
      case Some((b, s2)) =>
        match ScanWord(s2)
        case None => None
        case Some((c, _)) => Some((a, b, c))
  }

  lemma ScanWordOf(w: Str, tail: Str)
    requires |w| >= 1 && NoSpace(w)
    requires |tail| == 0 || IsSpace(tail[0])
    ensures ScanWord(w + tail) == Some((w, tail))
  {
    var s := w + tail;
    assert BlankRun(s) == 0;
    assert WordRun(s) == |w| by { WordRunOf(w, tail); }
    assert s[..|w|] == w && s[|w|..] == tail;
  }

  lemma {:induction false} WordRunOf(w: Str, tail: Str)
    requires NoSpace(w)
    requires |tail| == 0 || IsSpace(tail[0])
    ensures WordRun(w + tail) == |w|
    decreases |w|
  {
    if |w| > 0 {
      assert (w + tail)[1..] == w[1..] + tail;
      WordRunOf(w[1..], tail);
    } else {
      assert w + tail == tail;
    }
  }

  lemma ScanWordAfterSpace(w: Str, tail: Str)
    requires |w| >= 1 && NoSpace(w)
    requires |tail| == 0 || IsSpace(tail[0])
    ensures ScanWord(" " + w + tail) == Some((w, tail))
  {
    var s := " " + w + tail;
    assert s[1..] == w + tail;
    assert BlankRun(s) == 1 by { assert BlankRun(s[1..]) == 0; }
    assert WordRun(s[1..]) == |w| by { WordRunOf(w, tail); }
    assert s[1..1 + |w|] == w && s[1 + |w|..] == tail;
  }

  lemma Fields3Steps(s: Str, a: Str, t1: Str, b: Str, t2: Str, c: Str, t3: Str)
    requires ScanWord(s) == Some((a, t1))
    requires ScanWord(t1) == Some((b, t2))
    requires ScanWord(t2) == Some((c, t3))
    ensures Fields3(s) == Some((a, b, c))
  {
  }

  lemma Regroup(a: Str, b: Str, c: Str)
    ensures a + " " + b + " " + c == a + (" " + b + (" " + c + []))
  {
  }

  /** Three space-free words joined by single spaces scan back as those
      three words. */
  lemma Fields3Of(a: Str, b: Str, c: Str)
    requires |a| >= 1 && |b| >= 1 && |c| >= 1
    requires NoSpace(a) && NoSpace(b) && NoSpace(c)
    ensures Fields3(a + " " + b + " " + c) == Some((a, b, c))
  {
    var e: Str := [];
    var t2 := " " + c + e;
    var t1 := " " + b + t2;
    Regroup(a, b, c);
    ScanWordAfterSpace(c, e);
    ScanWordAfterSpace(b, t2);
    ScanWordOf(a, t1);
    Fields3Steps(a + t1, a, t1, b, t2, c, e);
  }

  /** Words without white space joined by single spaces hold no tab and no
      newline. */
  lemma NoSpaceJoined(a: Str, b: Str, c: Str)
    requires NoSpace(a) && NoSpace(b) && NoSpace(c)
    ensures '\t' !in a + " " + b + " " + c && '\n' !in a + " " + b + " " + c
  {
    assert '\t' !in a && '\t' !in b && '\t' !in c;
    assert '\n' !in a && '\n' !in b && '\n' !in c;
  }
}

=== FILE: status.dfy ===
/** `notgit status` (`internal/commands/status.go`): the index compared with
    the working tree, path by path. The HEAD commit plays no part. */
module Status {
  import opened Wrappers
  import opened Bytes
  import opened Numbers
  import opened Order
  import Blob
  import Objects
  import Index
  import Repository

  /** `computeFileHash`: the SHA-1 of the bytes a blob object of the file
      would have. */
  function ComputeFileHash(data: Str, sha1: Hasher): Digest {
    sha1("blob " + IntText(|data|) + "\0" + data)
  }

  /** Hashing a file gives the hash `StoreObject` files its blob under (not
      the blob's own `Hash`). */
  lemma FileHashIsStoreHash(s: Objects.Store, data: Str, sha1: Hasher)
    ensures ComputeFileHash(data, sha1) == Objects.StoreObject(s, Objects.BlobObject(Blob.NewBlob(data, sha1)), sha1).1
  {
    var h := "blob " + IntText(|data|) + "\0";
    assert "blob " + IntText(|data|) + "\0" + data == h + data;
  }

  datatype FileStatus =
    | Unmodified | Modified | Added | Deleted | Renamed | Copied | Unmerged | Untracked | Ignored

  datatype StatusEntry = StatusEntry(path: Str, indexStatus: FileStatus, workingStatus: FileStatus, originalPath: Str)

  /** A path to hash map, as `getIndexFiles` and `getWorkingDirectoryFiles`
      build (only the `Hash` of each `FileInfo` is ever compared). */
  type Hashes = map<Str, Str>

  /** `getIndexFiles`: the hash of every index entry, by path. */
  function IndexHashes(idx: Index.Index): (r: Hashes)
    ensures r.Keys == idx.entries.Keys
    ensures forall p | p in r :: r[p] == idx.entries[p].hash
  {
    map p | p in idx.entries :: idx.entries[p].hash
  }

  /** `getWorkingDirectoryFiles` over what the walk found: each regular file's
      bytes, or `None` when it could not be read (such files are skipped).
      Every path starting with `.notgit` is skipped, a `.notgitignore` file
      as much as the repository directory. */
  function WorkingHashes(found: map<Str, Option<Str>>, sha1: Hasher): (r: Hashes)
    ensures forall p :: p in r <==> p in found && found[p].Some? && !HasPrefix(p, ".notgit")
    ensures forall p | p in r :: r[p] == ComputeFileHash(found[p].value, sha1)
  {
    map p | p in found && found[p].Some? && !HasPrefix(p, ".notgit") :: ComputeFileHash(found[p].value, sha1)
  }

  /** The paths of a list of entries. */
  function Paths(es: seq<StatusEntry>): set<Str> {
    set i | 0 <= i < |es| :: es[i].path
  }

  predicate DistinctPaths(es: seq<StatusEntry>) {
    forall i, j | 0 <= i < j < |es| :: es[i].path != es[j].path
  }

  /** What the entry of a tracked path says: the working side is deleted,
      modified or unmodified; the index side is never anything but
      unmodified. */
  predicate Classified(e: StatusEntry, indexFiles: Hashes, workingFiles: Hashes)
    requires e.path in indexFiles
  {
    && e.indexStatus == Unmodified
    && e.originalPath == []
    && (e.workingStatus == Deleted <==> e.path !in workingFiles)
    && (e.workingStatus == Modified <==> e.path in workingFiles && workingFiles[e.path] != indexFiles[e.path])
    && (e.workingStatus == Unmodified <==> e.path in workingFiles && workingFiles[e.path] == indexFiles[e.path])
  }

  predicate AllClassified(es: seq<StatusEntry>, indexFiles: Hashes, workingFiles: Hashes) {
    forall i | 0 <= i < |es| :: es[i].path in indexFiles && Classified(es[i], indexFiles, workingFiles)
  }

  /** `buildStatusEntries`. Both maps are visited in an unspecified order.
      The first loop gives each tracked path one entry; the second loop
      only looks at paths the first did not process, none of which is
      tracked, so it adds nothing. */
  method BuildStatusEntries(indexFiles: Hashes, workingFiles: Hashes) returns (entries: seq<StatusEntry>)
    ensures Paths(entries) == indexFiles.Keys
    ensures DistinctPaths(entries) && |entries| == |indexFiles|
    ensures forall i | 0 <= i < |entries| :: entries[i].path in indexFiles && Classified(entries[i], indexFiles, workingFiles)
  {
    var processed;
    entries, processed := ClassifyTracked(indexFiles, workingFiles);
    entries := SkipProcessed(indexFiles, workingFiles, entries, processed);
  }

  /** The first loop of `buildStatusEntries`: one entry per tracked path. */
  method ClassifyTracked(indexFiles: Hashes, workingFiles: Hashes) returns (entries: seq<StatusEntry>, processed: set<Str>)
    ensures processed == indexFiles.Keys
    ensures Paths(entries) == indexFiles.Keys
    ensures DistinctPaths(entries) && |entries| == |indexFiles|
    ensures AllClassified(entries, indexFiles, workingFiles)
  {
    entries := [];
    processed := {};
    var remaining := indexFiles.Keys;
    while remaining != {}
      invariant Progress(entries, processed, remaining, indexFiles, workingFiles)
      decreases |remaining|
    {
      var path :| path in remaining;
      var entry := EntryFor(path, indexFiles, workingFiles);
      ProgressStep(entries, processed, remaining, path, indexFiles, workingFiles);
      entries := entries + [entry];
      processed := processed + {path};
      remaining := remaining - {path};
    }
  }

  /** The loop invariant of the first loop: the paths seen so far each have
      one classified entry, and the rest are still to be visited. */
  predicate Progress(entries: seq<StatusEntry>, processed: set<Str>, remaining: set<Str>,
                     indexFiles: Hashes, workingFiles: Hashes) {
    && remaining + processed == indexFiles.Keys && remaining !! processed
    && Paths(entries) == processed && |entries| == |processed|
    && DistinctPaths(entries)
    && AllClassified(entries, indexFiles, workingFiles)
  }

  lemma ProgressStep(entries: seq<StatusEntry>, processed: set<Str>, remaining: set<Str>, path: Str,
                     indexFiles: Hashes, workingFiles: Hashes)
    requires Progress(entries, processed, remaining, indexFiles, workingFiles) && path in remaining
    ensures Progress(entries + [EntryFor(path, indexFiles, workingFiles)], processed + {path}, remaining - {path},
                     indexFiles, workingFiles)
  {
    var entry := EntryFor(path, indexFiles, workingFiles);
    AppendEntry(entries, entry);
    AppendClassified(entries, entry, indexFiles, workingFiles);
  }

  /** The entry the first loop builds for a tracked path: zero statuses,
      then the working side set from the comparison. */
  function EntryFor(path: Str, indexFiles: Hashes, workingFiles: Hashes): (e: StatusEntry)
    requires path in indexFiles
    ensures e.path == path && Classified(e, indexFiles, workingFiles)
  {
    var entry := StatusEntry(path, Unmodified, Unmodified, []);
    var entry :=
      if path in workingFiles then
        if indexFiles[path] != workingFiles[path] then entry.(workingStatus := Modified) else entry
      else entry.(workingStatus := Deleted);
    entry.(indexStatus := Unmodified)
  }

  lemma AppendClassified(es: seq<StatusEntry>, e: StatusEntry, indexFiles: Hashes, workingFiles: Hashes)
    requires AllClassified(es, indexFiles, workingFiles)
    requires e.path in indexFiles && Classified(e, indexFiles, workingFiles)
    ensures AllClassified(es + [e], indexFiles, workingFiles)
  {
    assert forall i | 0 <= i < |es| :: (es + [e])[i] == es[i];
  }

  lemma AppendEntry(es: seq<StatusEntry>, e: StatusEntry)
    requires DistinctPaths(es) && e.path !in Paths(es)
    ensures Paths(es + [e]) == Paths(es) + {e.path}
    ensures DistinctPaths(es + [e])
  {
    var r := es + [e];
    assert forall i | 0 <= i < |es| :: r[i] == es[i];
    assert r[|es|] == e;
    assert Paths(r) == Paths(es) + {e.path} by {
      forall p | p in Paths(r) ensures p in Paths(es) + {e.path} {
        var i :| 0 <= i < |r| && r[i].path == p;
      }
      forall p | p in Paths(es) ensures p in Paths(r) {
        var i :| 0 <= i < |es| && es[i].path == p;
        assert r[i].path == p;
      }
    }
  }

  /** The second loop of `buildStatusEntries`: working paths not yet
      processed would get an entry only if tracked, and none is. Its whole
      claim is `r == entries`: the loop adds nothing. */
  method SkipProcessed(indexFiles: Hashes, workingFiles: Hashes, entries: seq<StatusEntry>, processed: set<Str>)
    returns (r: seq<StatusEntry>)
    requires indexFiles.Keys <= processed
    ensures r == entries
  {
    r := entries;
    var done := processed;
    var rest := workingFiles.Keys;
    while rest != {}
      invariant indexFiles.Keys <= done
      invariant r == entries
      decreases |rest|
    {
      var path :| path in rest;
      rest := rest - {path};
      if path !in done {
        // Go appends a modified entry here when the path is tracked and its
        // hashes differ; every tracked path was processed by the first loop.
        assert path !in indexFiles;
        done := done + {path};
      }
    }
  }

  /** `getUntrackedFiles`: the working paths the index lacks, in ascending
      byte order. */
  method GetUntrackedFiles(indexFiles: Hashes, workingFiles: Hashes) returns (untracked: seq<Str>)
    ensures forall p :: p in untracked <==> p in workingFiles && p !in indexFiles
    ensures Strict(untracked)
  {
    var found: seq<Str> := [];
    var rest := workingFiles.Keys;
    while rest != {}
      invariant rest <= workingFiles.Keys
      invariant forall p :: p in found <==> p in workingFiles && p !in rest && p !in indexFiles
      invariant Distinct(found)
      decreases |rest|
    {
      var path :| path in rest;
      if path !in indexFiles {
        found := found + [path];
      }
      rest := rest - {path};
    }
    untracked := SortStrings(found);
    forall p ensures p in untracked <==> p in found {
      assert p in untracked <==> p in multiset(untracked);
      assert p in found <==> p in multiset(found);
    }
    DistinctPermutation(found, untracked);
    SortedDistinctStrict(untracked);
  }

  /** Whatever order the working map is visited in, the untracked list is
      the same. */
  lemma UntrackedDeterministic(indexFiles: Hashes, workingFiles: Hashes, a: seq<Str>, b: seq<Str>)
    requires forall p :: p in a <==> p in workingFiles && p !in indexFiles
    requires forall p :: p in b <==> p in workingFiles && p !in indexFiles
    requires Strict(a) && Strict(b)
    ensures a == b
  {
    StrictUnique(a, b);
  }

  /** The number of entries whose index side, or whose working side, is not
      unmodified. */
  function CountChanged(es: seq<StatusEntry>, staged: bool): (n: nat)
    ensures n <= |es|
    ensures n == 0 <==> forall i | 0 <= i < |es| :: Side(es[i], staged) == Unmodified
  {
    if |es| == 0 then 0
    else
      var n := CountChanged(es[..|es| - 1], staged);
      assert forall i | 0 <= i < |es| - 1 :: es[..|es| - 1][i] == es[i];
      n + if Side(es[|es| - 1], staged) != Unmodified then 1 else 0
  }

  function Side(e: StatusEntry, staged: bool): FileStatus {
    if staged then e.indexStatus else e.workingStatus
  }

  datatype RepositoryStatus = RepositoryStatus(
    branch: Str, entries: seq<StatusEntry>, untrackedFiles: seq<Str>,
    hasChanges: bool, stagedChanges: nat, unstagedChanges: nat)

  /** `getBranch`: the branch of a symbolic HEAD, the first seven characters
      of a 40-character HEAD, and `unknown` for anything else. */
  function GetBranch(fs: Repository.Files): (r: Result<Str>)
    ensures Repository.ReadFile(fs, "HEAD").Err? ==> r == Err(Repository.ReadFile(fs, "HEAD").error)
    ensures r.Ok? ==> Repository.ReadFile(fs, "HEAD").Ok?
  {
    var data :- Repository.ReadFile(fs, "HEAD");
    var head := TrimSpace(data);
    match Repository.CutPrefix(head, "ref: refs/heads/")
    case Some(branch) => Ok(branch)
    case None => if |head| == 40 then Ok(head[..7]) else Ok("unknown")
  }

  /** On a symbolic HEAD `getBranch` and `GetCurrentBranch` agree; on any
      other HEAD the repository reports no branch, while status shows a
      short hash or `unknown`. */
  lemma GetBranchAgrees(fs: Repository.Files)
    requires Repository.ReadFile(fs, "HEAD").Ok?
    ensures var head := TrimSpace(Repository.ReadFile(fs, "HEAD").value);
            if HasPrefix(head, "ref: refs/heads/") then GetBranch(fs) == Repository.GetCurrentBranch(fs)
            else (Repository.GetCurrentBranch(fs) == Ok([])
                  && GetBranch(fs) == (if |head| == 40 then Ok(head[..7]) else Ok("unknown")))
  {
  }

  /** A detached HEAD holding a digest shows its first seven characters. */
  lemma DetachedShowsShortHash(fs: Repository.Files, d: Digest)
    requires Repository.ReadFile(fs, "HEAD") == Ok(d + "\n")
    ensures GetBranch(fs) == Ok(d[..7])
  {
    DigestTrimmed(d);
    TrimNewline(d);
    assert IsLowerHex(d[0]);
    assert !HasPrefix(d, "ref: refs/heads/") by {
      assert d[0] != 'r';
    }
  }

  /** `getRepositoryStatus` over the `.notgit` files, the index file and
      what the working tree walk found. A HEAD that cannot be read leaves
      the branch empty; an index that cannot be loaded is an error. */
  method GetRepositoryStatus(fs: Repository.Files, indexFile: Index.IndexFile,
                             found: map<Str, Option<Str>>, sha1: Hasher)
    returns (r: Result<RepositoryStatus>)
    ensures r.Err? <==> Index.LoadIndex(indexFile).Err?
    ensures r.Err? ==> r.error == Index.LoadIndex(indexFile).error
    ensures r.Ok? ==> r.value.branch == (if GetBranch(fs).Ok? then GetBranch(fs).value else [])
    ensures r.Ok? ==> r.value.stagedChanges == 0
    ensures r.Ok? ==> r.value.unstagedChanges == CountChanged(r.value.entries, false)
    ensures r.Ok? ==>
      var indexFiles := IndexHashes(Index.LoadIndex(indexFile).value);
      (r.value.hasChanges <==> indexFiles != WorkingHashes(found, sha1))
    ensures r.Ok? ==>
      var indexFiles := IndexHashes(Index.LoadIndex(indexFile).value);
      var workingFiles := WorkingHashes(found, sha1);
      && Paths(r.value.entries) == indexFiles.Keys && DistinctPaths(r.value.entries)
      && (forall i | 0 <= i < |r.value.entries| :: Classified(r.value.entries[i], indexFiles, workingFiles))
    ensures r.Ok? ==>
      var indexFiles := IndexHashes(Index.LoadIndex(indexFile).value);
      var workingFiles := WorkingHashes(found, sha1);
      && (forall p :: p in r.value.untrackedFiles <==> p in workingFiles && p !in indexFiles)
      && Strict(r.value.untrackedFiles)
  {
    var branch: Str := [];
    var b := GetBranch(fs);
    if b.Ok? {
      branch := b.value;
    }
    var loaded := Index.LoadIndex(indexFile);
    if loaded.Err? {
      return Err(loaded.error);
    }
    var indexFiles := IndexHashes(loaded.value);
    var workingFiles := WorkingHashes(found, sha1);
    var entries := BuildStatusEntries(indexFiles, workingFiles);
    var untracked := GetUntrackedFiles(indexFiles, workingFiles);
    var staged, unstaged := CountChanges(entries);
    var hasChanges := staged > 0 || unstaged > 0 || |untracked| > 0;
    CleanIffEqual(indexFiles, workingFiles, entries, untracked);
    r := Ok(RepositoryStatus(branch, entries, untracked, hasChanges, staged, unstaged));
  }

  /** The counting loop of `getRepositoryStatus`. */
  method CountChanges(entries: seq<StatusEntry>) returns (staged: nat, unstaged: nat)
    ensures staged == CountChanged(entries, true) && unstaged == CountChanged(entries, false)
  {
    staged, unstaged := 0, 0;
    var i := 0;
    while i < |entries|
      invariant 0 <= i <= |entries|
      invariant staged == CountChanged(entries[..i], true)
      invariant unstaged == CountChanged(entries[..i], false)
    {
      assert entries[..i + 1][..i] == entries[..i];
      if entries[i].indexStatus != Unmodified {
        staged := staged + 1;
      }
      if entries[i].workingStatus != Unmodified {
        unstaged := unstaged + 1;
      }
      i := i + 1;
    }
    assert entries[..i] == entries;
  }

  /** Nothing to report exactly when the working tree holds the tracked
      paths, no others, each with the hash the index records. */
  lemma CleanIffEqual(indexFiles: Hashes, workingFiles: Hashes, entries: seq<StatusEntry>, untracked: seq<Str>)
    requires Paths(entries) == indexFiles.Keys
    requires forall i | 0 <= i < |entries| :: entries[i].path in indexFiles && Classified(entries[i], indexFiles, workingFiles)
    requires forall p :: p in untracked <==> p in workingFiles && p !in indexFiles
    ensures CountChanged(entries, true) == 0
    ensures CountChanged(entries, false) > 0 || |untracked| > 0 <==> indexFiles != workingFiles
  {
    assert |untracked| > 0 ==> untracked[0] in untracked;
    if indexFiles != workingFiles {
      if p :| p in indexFiles && (p !in workingFiles || workingFiles[p] != indexFiles[p]) {
        var i :| 0 <= i < |entries| && entries[i].path == p;
        assert Side(entries[i], false) != Unmodified;
      } else {
        var p :| p in workingFiles && p !in indexFiles;
        assert p in untracked;
      }
    } else {
      forall i | 0 <= i < |entries| ensures Side(entries[i], false) == Unmodified {
        assert entries[i].path in indexFiles;
      }
    }
  }

  /** `getStagedEntries` / `getUnstagedEntries`: the entries whose index
      side (or working side) is not unmodified, sorted by path. */
  function ChangedEntries(es: seq<StatusEntry>, staged: bool): (r: seq<StatusEntry>)
    ensures forall e :: e in r <==> e in es && Side(e, staged) != Unmodified
    ensures SortedBy(r, PathKey)
    ensures |r| == CountChanged(es, staged)
  {
    var kept := Changed(es, staged);
    var r := SortBy(kept, PathKey);
    forall e ensures e in r <==> e in kept {
      assert e in r <==> e in multiset(r);
      assert e in kept <==> e in multiset(kept);
    }
    assert |r| == |multiset(r)| == |multiset(kept)| == |kept|;
    r
  }

  function PathKey(e: StatusEntry): Str { e.path }

  /** The entries kept, in their original order. */
  function Changed(es: seq<StatusEntry>, staged: bool): (r: seq<StatusEntry>)
    ensures forall e :: e in r <==> e in es && Side(e, staged) != Unmodified
    ensures |r| == CountChanged(es, staged)
  {
    if |es| == 0 then []
    else
      var init := es[..|es| - 1];
      var last := es[|es| - 1];
      assert es == init + [last];
      Changed(init, staged) + if Side(last, staged) != Unmodified then [last] else []
  }

  /** Status never has anything staged: the changes-to-be-committed list is
      always empty. */
  lemma NothingStaged(es: seq<StatusEntry>, indexFiles: Hashes, workingFiles: Hashes)
    requires forall i | 0 <= i < |es| :: es[i].path in indexFiles && Classified(es[i], indexFiles, workingFiles)
    ensures ChangedEntries(es, true) == []
  {
    var r := ChangedEntries(es, true);
  }
}

=== FILE: switch.dfy ===
/** `notgit switch [-c] <branch>` (`internal/commands/switch.go`). The
    helper that creates a missing branch under `-c`, `createBranchFromHEAD`,
    is not part of this model; it is the parameter `createFromHead`, which
    may change the `.notgit` files. */
module Switch {
  import opened Wrappers
  import opened Bytes
  import Repository
  import Tree
  import Index
  import Checkout

  datatype Reply = AlreadyOn | Switched

  type Creator = (Repository.Files, Str) -> Result<Repository.Files>

  /** `switchToBranch`, after the branch exists or has been created. */
  function SwitchToBranch(st: Repository.State, name: Str, src: Checkout.Source, fuel: nat): (r: Repository.Run<Reply>)
    ensures r.state.objects == st.objects && r.state.index == st.index
    ensures Repository.GetCurrentBranch(st.files) == Ok(name) ==> r == Repository.Run(st, Ok(AlreadyOn))
    ensures r.result == Ok(Switched) ==>
      r.state.files == st.files["HEAD" := Repository.FileNode(Repository.SymbolicHead(name))]
    ensures r.result != Ok(Switched) ==> r.state.files == st.files
    ensures r.result == Ok(Switched) ==> Repository.BranchPath(name) in st.files
    ensures r.state.work != st.work ==>
      && Repository.GetCurrentBranch(st.files).Ok?
      && Repository.GetCurrentBranch(st.files).value != name
      && Repository.ReadFile(st.files, Repository.BranchPath(name)).Ok?
      && TrimSpace(Repository.ReadFile(st.files, Repository.BranchPath(name)).value) != []
  {
    match Repository.GetCurrentBranch(st.files)
    case Err(e) => Repository.Run(st, Err(e))
    case Ok(current) =>
      if current == name then Repository.Run(st, Ok(AlreadyOn))
      else if Repository.BranchPath(name) !in st.files then Repository.Run(st, Err(NoSuchBranch))
      else
        match Repository.ReadFile(st.files, Repository.BranchPath(name))
        case Err(e) => Repository.Run(st, Err(e))
        case Ok(data) =>
          var hash := TrimSpace(data);
          if hash == [] then Repository.Run(st, Err(EmptyBranch))
          else
            var eff := Checkout.UpdateWorkingTree(src, st.index, hash, st.work, fuel);
            var st1 := st.(work := eff.work);
            if eff.failure.Some? then Repository.Run(st1, Err(eff.failure.value))
            else
              match Repository.WriteFile(st.files, "HEAD", Repository.SymbolicHead(name))
              case Err(e) => Repository.Run(st1, Err(e))
              case Ok(fs) => Repository.Run(st1.(files := fs), Ok(Switched))
  }

  /** `switchCallback`: reject nested names, create a missing branch when
      asked to (or fail, suggesting `-c`), then switch. */
  function Switch(st: Repository.State, name: Str, create: bool, createFromHead: Creator,
                  src: Checkout.Source, fuel: nat): (r: Repository.Run<Reply>)
    ensures '/' in name ==> r == Repository.Run(st, Err(NestedBranchName))
    ensures '/' !in name && Repository.BranchPath(name) !in st.files && !create ==>
      r == Repository.Run(st, Err(NoSuchBranchUseCreate))
    ensures r.state.objects == st.objects && r.state.index == st.index
    ensures Repository.BranchPath(name) in st.files && r.state.files != st.files ==> r.result == Ok(Switched)
    ensures r.result == Ok(Switched) ==>
      && '/' !in name
      && Repository.ReadFile(r.state.files, "HEAD") == Ok(Repository.SymbolicHead(name))
      && Repository.BranchPath(name) in r.state.files
  {
    if '/' in name then Repository.Run(st, Err(NestedBranchName))
    else if Repository.BranchPath(name) in st.files then SwitchToBranch(st, name, src, fuel)
    else if !create then Repository.Run(st, Err(NoSuchBranchUseCreate))
    else
      match createFromHead(st.files, name)
      case Err(e) => Repository.Run(st, Err(e))
      case Ok(fs) => SwitchToBranch(st.(files := fs), name, src, fuel)
  }

  /** A branch whose ref is empty is refused before anything is removed. */
  lemma EmptyBranchTouchesNothing(st: Repository.State, name: Str, create: bool, createFromHead: Creator,
                                  src: Checkout.Source, fuel: nat)
    requires '/' !in name
    requires Repository.ReadFile(st.files, Repository.BranchPath(name)).Ok?
    requires TrimSpace(Repository.ReadFile(st.files, Repository.BranchPath(name)).value) == []
    requires Repository.GetCurrentBranch(st.files).Ok? && Repository.GetCurrentBranch(st.files).value != name
    ensures Switch(st, name, create, createFromHead, src, fuel) == Repository.Run(st, Err(EmptyBranch))
  {
  }

  /** After a successful switch HEAD names the branch, and its commit is
      whatever that branch's ref holds. */
  lemma SwitchedOnto(st: Repository.State, name: Str, create: bool, createFromHead: Creator,
                     src: Checkout.Source, fuel: nat)
    requires Switch(st, name, create, createFromHead, src, fuel).result == Ok(Switched)
    requires |name| == 0 || !IsSpace(name[|name| - 1])
    ensures var fs := Switch(st, name, create, createFromHead, src, fuel).state.files;
      && Repository.GetCurrentBranch(fs) == Ok(name)
      && Repository.GetHEADCommitHash(fs) == Repository.ResolveRef(fs, "refs/heads/" + name)
  {
    var fs := Switch(st, name, create, createFromHead, src, fuel).state.files;
    Repository.SymbolicHeadResolves(fs, name);
  }

  /** Switching again to the branch just switched to changes nothing. */
  lemma SwitchTwice(st: Repository.State, name: Str, create: bool, createFromHead: Creator,
                    src: Checkout.Source, fuel: nat)
    requires Switch(st, name, create, createFromHead, src, fuel).result == Ok(Switched)
    requires |name| == 0 || !IsSpace(name[|name| - 1])
    ensures var r := Switch(st, name, create, createFromHead, src, fuel);
      Switch(r.state, name, create, createFromHead, src, fuel) == Repository.Run(r.state, Ok(AlreadyOn))
  {
    var r := Switch(st, name, create, createFromHead, src, fuel);
    SwitchedOnto(st, name, create, createFromHead, src, fuel);
  }

  /** Untracked files the target tree does not cover survive a successful
      switch; tracked ones outside `.notgit` it does not cover are gone. */
  lemma SwitchKeepsUntracked(st: Repository.State, name: Str, src: Checkout.Source, fuel: nat,
                             idx: Index.Index, target: Tree.Tree, p: Str)
    requires SwitchToBranch(st, name, src, fuel).result == Ok(Switched)
    requires Index.LoadIndex(st.index) == Ok(idx)
    requires src.tree(src.commit(TrimSpace(Repository.ReadFile(st.files, Repository.BranchPath(name)).value)).value.tree) == Ok(target)
    requires !Checkout.Covered(p, [], target.entries)
    ensures var w := SwitchToBranch(st, name, src, fuel).state.work;
      && (p in st.work && p !in Checkout.Tracked(idx) ==> p in w && w[p] == st.work[p])
      && (p in Checkout.Tracked(idx) && !Checkout.InsideNotgit(p) ==> p !in w)
  {
    var hash := TrimSpace(Repository.ReadFile(st.files, Repository.BranchPath(name)).value);
    Checkout.CheckoutKeepsUntracked(src, Checkout.Tracked(idx), target, st.work, fuel, p);
  }
}

=== FILE: tree.dfy ===
/** Directory listings as stored objects: `internal/objects/tree/tree.go`.

    A Go `Tree` keeps its entries in a slice and, for lookups, a map from
    name to a pointer into that slice. An `append` that outgrows the
    slice's capacity copies the entries to a new array; pointers taken
    before that keep pointing into the old one. The model keeps this
    visible: each name's slot is either `Live` (an index into the current
    entries) or `Stale` (the copy the pointer now sees on its own). */
module Tree {
  import opened Wrappers
  import opened Bytes
  import opened Numbers
  import opened Scan

  /** `EntryType`: the two constants the code defines. */
  datatype Kind = BlobKind | TreeKind

  datatype Entry = Entry(name: Str, hash: Str, kind: Kind)

  datatype Slot = Live(index: nat) | Stale(entry: Entry)

  /** `Entries`, the capacity of its backing array, `entryMap` and `Hash`. */
  datatype Tree = Tree(entries: seq<Entry>, cap: nat, slots: map<Str, Slot>, hash: Str)

  function Names(es: seq<Entry>): set<Str> {
    set i | 0 <= i < |es| :: es[i].name
  }

  predicate UniqueNames(es: seq<Entry>) {
    forall i, j | 0 <= i < j < |es| :: es[i].name != es[j].name
  }

  predicate SlotFits(es: seq<Entry>, name: Str, s: Slot) {
    match s
    case Live(i) => i < |es| && es[i].name == name
    case Stale(e) => e.name == name
  }

  /** The representation invariant of every tree `NewTree` and `AddEntry`
      build: one slot per entry name, names unique, live slots pointing at
      the entry of their name. */
  predicate Valid(t: Tree) {
    && |t.entries| <= t.cap
    && UniqueNames(t.entries)
    && t.slots.Keys == Names(t.entries)
    && forall n | n in t.slots :: SlotFits(t.entries, n, t.slots[n])
  }

  /** An empty tree: no entries, nothing to look up, and no hash until
      `ComputeHash` sets one. */
  function NewTree(): (r: Tree)
    ensures Valid(r) && |r.entries| == 0 && r.hash == []
    ensures forall n :: GetEntry(r, n) == None
  {
    Tree([], 0, map[], [])
  }

  /** The capacity `append` picks when a full slice of capacity `c` grows by
      one element (Go's `nextslicecap`; size-class rounding left out). */
  function Grow(c: nat): (r: nat)
    ensures r > c
  {
    if c == 0 then 1 else if c < 256 then 2 * c else c + (c + 768) / 4
  }

  /** After a reallocation every pointer sees the value it pointed at, but no
      longer the slice. */
  function Retire(slots: map<Str, Slot>, es: seq<Entry>): (r: map<Str, Slot>)
    requires forall n | n in slots :: SlotFits(es, n, slots[n])
    ensures r.Keys == slots.Keys
    ensures forall n | n in r :: r[n].Stale? && SlotFits(es, n, r[n])
  {
    map n | n in slots :: Freeze(slots[n], es, n)
  }

  function Freeze(s: Slot, es: seq<Entry>, name: Str): (r: Slot)
    requires SlotFits(es, name, s)
    ensures r.Stale? && SlotFits(es, name, r)
  {
    match s
    case Live(i) => Stale(es[i])
    case Stale(_) => s
  }

  /** `GetEntry`: the entry the name's pointer sees, if the name was added. */
  function GetEntry(t: Tree, name: Str): (r: Option<Entry>)
    requires Valid(t)
    ensures r.Some? <==> name in Names(t.entries)
    ensures r.Some? ==> r.value.name == name
  {
    if name !in t.slots then None
    else
      match t.slots[name]
      case Live(i) => Some(t.entries[i])
      case Stale(e) => Some(e)
  }

  /** `AddEntry`. A new name is appended; an existing name is updated
      through its pointer, which changes `Entries` only while the pointer is
      live. */
  function AddEntry(t: Tree, name: Str, hash: Str, kind: Kind): (r: Tree)
    requires Valid(t)
    ensures Valid(r)
    ensures r.hash == t.hash
    ensures GetEntry(r, name) == Some(Entry(name, hash, kind))
    ensures name !in Names(t.entries) ==> r.entries == t.entries + [Entry(name, hash, kind)]
    ensures name in Names(t.entries) ==> |r.entries| == |t.entries|
    ensures name in Names(t.entries) ==>
      (t.slots[name].Live? && r.entries == t.entries[t.slots[name].index := Entry(name, hash, kind)])
      || (t.slots[name].Stale? && r.entries == t.entries)
  {
    var e := Entry(name, hash, kind);
    if name in t.slots then
      match t.slots[name]
      case Live(i) =>
        var r := t.(entries := t.entries[i := e]);
        UpdateKeepsNames(t.entries, i, e);
        r
      case Stale(_) =>
        t.(slots := t.slots[name := Stale(e)])
    else
      var n := |t.entries|;
      AppendNames(t.entries, e);
      if n < t.cap then
        var r := t.(entries := t.entries + [e], slots := t.slots[name := Live(n)]);
        assert forall m | m in t.slots :: SlotFits(r.entries, m, t.slots[m]) by {
          forall m | m in t.slots ensures SlotFits(r.entries, m, t.slots[m]) {
            if t.slots[m].Live? { assert r.entries[t.slots[m].index] == t.entries[t.slots[m].index]; }
          }
        }
        r
      else
        Tree(t.entries + [e], Grow(t.cap), Retire(t.slots, t.entries)[name := Live(n)], t.hash)
  }

  lemma UpdateKeepsNames(es: seq<Entry>, i: nat, e: Entry)
    requires i < |es| && es[i].name == e.name
    ensures Names(es[i := e]) == Names(es)
    ensures UniqueNames(es) ==> UniqueNames(es[i := e])
  {
    var u := es[i := e];
    forall n ensures n in Names(u) <==> n in Names(es) {
      if n in Names(es) {
        var j :| 0 <= j < |es| && es[j].name == n;
        assert u[j].name == n;
      }
      if n in Names(u) {
        var j :| 0 <= j < |u| && u[j].name == n;
        assert es[j].name == n;
      }
    }
  }

  lemma AppendNames(es: seq<Entry>, e: Entry)
    ensures Names(es + [e]) == Names(es) + {e.name}
    ensures UniqueNames(es) && e.name !in Names(es) ==> UniqueNames(es + [e])
  {
    var u := es + [e];
    forall n ensures n in Names(u) <==> n in Names(es) + {e.name} {
      if n in Names(es) {
        var j :| 0 <= j < |es| && es[j].name == n;
        assert u[j].name == n;
      }
      if n == e.name {
        assert u[|es|].name == n;
      }
    }
    if UniqueNames(es) && e.name !in Names(es) {
      forall i, j | 0 <= i < j < |u| ensures u[i].name != u[j].name {
        if j == |es| {
          assert u[i].name == es[i].name;
          assert es[i].name in Names(es);
        }
      }
    }
  }

  /** Adding a name changes what no other name looks up. */
  lemma AddEntryFrame(t: Tree, name: Str, hash: Str, kind: Kind, other: Str)
    requires Valid(t) && other != name
    ensures GetEntry(AddEntry(t, name, hash, kind), other) == GetEntry(t, other)
  {
    var r := AddEntry(t, name, hash, kind);
    if other in t.slots && t.slots[other].Live? {
      var i := t.slots[other].index;
      if name in t.slots && t.slots[name].Live? {
        assert t.slots[name].index != i;
      }
    }
  }

  /** Lookups and `Entries` agree: each entry is what its name looks up. */
  predicate Agrees(t: Tree)
    requires Valid(t)
  {
    forall i | 0 <= i < |t.entries| :: GetEntry(t, t.entries[i].name) == Some(t.entries[i])
  }

  /** Appending a fresh name, or updating a name whose pointer is still live,
      keeps lookups and `Entries` in agreement. Only an update through a
      stale pointer can separate them. */
  lemma AddEntryAgrees(t: Tree, name: Str, hash: Str, kind: Kind)
    requires Valid(t) && Agrees(t)
    requires name !in t.slots || t.slots[name].Live?
    ensures Agrees(AddEntry(t, name, hash, kind))
  {
    var r := AddEntry(t, name, hash, kind);
    forall i | 0 <= i < |r.entries| ensures GetEntry(r, r.entries[i].name) == Some(r.entries[i]) {
      var m := r.entries[i].name;
      if m != name {
        AddEntryFrame(t, name, hash, kind, m);
        assert r.entries[i] == t.entries[i];
      } else if name in t.slots {
        assert r.entries[i] == Entry(name, hash, kind) by {
          assert t.entries[t.slots[name].index].name == name;
        }
      }
    }
  }

  /** The divergence itself: add `a`, add `b` (the one-element slice is
      full, so the append moves both entries to a new array), then re-add
      `a`. The lookup sees the new hash; `Entries`, and so the serialized
      tree, keeps the old one. */
  lemma StaleUpdateDiverges()
    ensures var t1 := AddEntry(NewTree(), "a", "1", BlobKind);
            var t2 := AddEntry(t1, "b", "2", BlobKind);
            var t3 := AddEntry(t2, "a", "3", BlobKind);
            t3.entries[0] == Entry("a", "1", BlobKind)
            && GetEntry(t3, "a") == Some(Entry("a", "3", BlobKind))
  {
    var t1 := AddEntry(NewTree(), "a", "1", BlobKind);
    assert t1.cap == 1 && t1.slots["a"] == Live(0);
    var t2 := AddEntry(t1, "b", "2", BlobKind);
    assert "a" != "b";
    assert t2.slots["a"].Stale?;
  }

  /** Adding entries one after another. */
  function AddAll(t: Tree, es: seq<Entry>): (r: Tree)
    requires Valid(t)
    ensures Valid(r) && r.hash == t.hash
    decreases |es|
  {
    if |es| == 0 then t else AddAll(AddEntry(t, es[0].name, es[0].hash, es[0].kind), es[1..])
  }

  /** Adding distinct new names appends them in order and keeps lookups in
      agreement with `Entries`. This is how trees are built by commit and by
      parsing what `Serialize` wrote. */
  lemma {:induction false} AddAllFresh(t: Tree, es: seq<Entry>)
    requires Valid(t) && Agrees(t)
    requires UniqueNames(t.entries + es)
    ensures AddAll(t, es).entries == t.entries + es
    ensures Agrees(AddAll(t, es))
    decreases |es|
  {
    if |es| > 0 {
      var e := es[0];
      assert e.name !in Names(t.entries) by {
        forall j | 0 <= j < |t.entries| ensures t.entries[j].name != e.name {
          assert (t.entries + es)[j] == t.entries[j];
          assert (t.entries + es)[|t.entries|] == e;
        }
      }
      var u := AddEntry(t, e.name, e.hash, e.kind);
      AddEntryAgrees(t, e.name, e.hash, e.kind);
      assert u.entries + es[1..] == t.entries + es;
      AddAllFresh(u, es[1..]);
    } else {
      assert t.entries + es == t.entries;
    }
  }

  // Text form

  function ModeOf(k: Kind): Str {
    match k
    case BlobKind => "100644"
    case TreeKind => "040000"
  }

  function KindName(k: Kind): Str {
    match k
    case BlobKind => "blob"
    case TreeKind => "tree"
  }

  predicate IsValidMode(mode: Str) {
    mode == "100644" || mode == "040000"
  }

  /** `parseEntryType`. */
  function ParseKind(s: Str): (r: Option<Kind>)
    ensures r.Some? <==> s == "blob" || s == "tree"
    ensures r.Some? ==> KindName(r.value) == s
  {
    if s == "blob" then Some(BlobKind) else if s == "tree" then Some(TreeKind) else None
  }

  /** Both mappings write only what parsing accepts, and reading the kind
      back gives the kind. */
  lemma KindRoundTrip(k: Kind)
    ensures IsValidMode(ModeOf(k)) && ParseKind(KindName(k)) == Some(k)
    ensures |ModeOf(k)| >= 1 && NoSpace(ModeOf(k)) && |KindName(k)| >= 1 && NoSpace(KindName(k))
  {
  }

  /** `"<mode> <kind> <hash>"`, the part of a line before the tab. */
  function Meta(e: Entry): Str {
    ModeOf(e.kind) + " " + KindName(e.kind) + " " + e.hash
  }

  /** One line of `SerializeContent`, without its newline. */
  function LineText(e: Entry): Str {
    Meta(e) + "\t" + e.name
  }

  function LineTexts(es: seq<Entry>): (r: seq<Str>)
    ensures |r| == |es|
    ensures forall i | 0 <= i < |es| :: r[i] == LineText(es[i])
  {
    if |es| == 0 then [] else [LineText(es[0])] + LineTexts(es[1..])
  }

  /** One newline-terminated line per entry, in `Entries` order. */
  function SerializeContent(t: Tree): Str {
    Terminated(LineTexts(t.entries), '\n')
  }

  /** `"tree <len>\0"` followed by the content. */
  function Serialize(t: Tree): (r: Str)
    ensures HasPrefix(r, "tree ")
    ensures IndexOf(r, '\0') >= 0 && r[IndexOf(r, '\0') + 1..] == SerializeContent(t)
    ensures HasPrefix(r[..IndexOf(r, '\0')], "tree ")
    ensures r[..IndexOf(r, '\0')] == "tree " + Decimal(|SerializeContent(t)|)
  {
    Frame(SerializeContent(t))
  }

  /** The header, giving the content's length, in front of the content. */
  function Frame(c: Str): (r: Str)
    ensures HasPrefix(r, "tree ")
    ensures IndexOf(r, '\0') >= 0 && r[IndexOf(r, '\0') + 1..] == c
    ensures HasPrefix(r[..IndexOf(r, '\0')], "tree ")
    ensures r[..IndexOf(r, '\0')] == "tree " + Decimal(|c|)
  {
    var top: Str := "tree " + Decimal(|c|);
    var r: Str := top + "\0" + c;
    assert '\0' !in top;
    FrameSplit(top, c);
    assert top[..5] == "tree " && r[..5] == "tree ";
    r
  }

  /** `ComputeHash`: the SHA-1 of the serialized tree. */
  function ComputeHash(t: Tree, sha1: Hasher): (r: Tree)
    ensures r.entries == t.entries && r.slots == t.slots && r.cap == t.cap
    ensures r.hash == sha1(Serialize(r))
  {
    t.(hash := sha1(Serialize(t)))
  }

  /** The hash field plays no part in the representation invariant or in
      lookups. */
  lemma ComputeHashValid(t: Tree, sha1: Hasher)
    requires Valid(t)
    ensures Valid(ComputeHash(t, sha1))
    ensures Agrees(t) ==> Agrees(ComputeHash(t, sha1))
  {
    var r := ComputeHash(t, sha1);
    assert forall n :: GetEntry(r, n) == GetEntry(t, n);
  }

  /** The serialized bytes do not depend on the hash field, so computing the
      hash twice changes nothing. */
  lemma ComputeHashIdempotent(t: Tree, sha1: Hasher)
    ensures Serialize(ComputeHash(t, sha1)) == Serialize(t)
    ensures ComputeHash(ComputeHash(t, sha1), sha1) == ComputeHash(t, sha1)
  {
  }

  // Parsing

  /** `bufio.ScanLines` drops one carriage return before each newline. */
  function DropCR(line: Str): (r: Str)
    ensures |r| <= |line| && r == line[..|r|]
  {
    if |line| > 0 && line[|line| - 1] == '\r' then line[..|line| - 1] else line
  }

  /** One entry line: metadata before the first tab, the name after it. */
  function ParseEntry(line: Str): (r: Result<Entry>)
    ensures '\t' !in line ==> r == Err(BadTreeEntry)
    ensures r.Ok? ==> '\t' in line && r.value.name == line[IndexOf(line, '\t') + 1..]
    ensures r.Ok? ==>
      var f := Fields3(line[..IndexOf(line, '\t')]);
      f.Some? && IsValidMode(f.value.0) && ParseKind(f.value.1) == Some(r.value.kind) && f.value.2 == r.value.hash
  {
    var tab := IndexOf(line, '\t');
    if tab < 0 then Err(BadTreeEntry)
    else
      match Fields3(line[..tab])
      case None => Err(BadTreeMeta)
      case Some((mode, kind, hash)) =>
        if !IsValidMode(mode) then Err(BadMode)
        else
          match ParseKind(kind)
          case None => Err(BadKind)
          case Some(k) => Ok(Entry(line[tab + 1..], hash, k))
  }

  /** `bufio.MaxScanTokenSize`, the size the scanner's buffer grows to:
      a line needs room for its newline, and a last line without one
      needs room for the end of input to be seen. */
  const MaxScanTokenSize: nat := 65536

  /** The scanner loop of `parseTreeContent` over the pieces between
      newlines: empty lines are skipped, the first bad line fails the whole
      parse, every other line is added with `AddEntry`. A piece of
      `MaxScanTokenSize` bytes or more stops `Scan` with `ErrTooLong`,
      which the loop never asks `Err` about, so the parse succeeds with the
      entries read so far. */
  function ParseLines(t: Tree, lines: seq<Str>): (r: Result<Tree>)
    requires Valid(t)
    ensures r.Ok? ==> Valid(r.value) && r.value.hash == t.hash
    decreases |lines|
  {
    if |lines| == 0 then Ok(t)
    else if |lines[0]| >= MaxScanTokenSize then Ok(t)
    else
      var line := DropCR(lines[0]);
      if |line| == 0 then ParseLines(t, lines[1..])
      else
        match ParseEntry(line)
        case Err(e) => Err(e)
        case Ok(e) => ParseLines(AddEntry(t, e.name, e.hash, e.kind), lines[1..])
  }

  /** `parseTreeContent`. `bufio.ScanLines` yields the pieces between
      newlines (the empty piece after a final newline is skipped with the
      other empty lines). */
  function ParseTreeContent(data: Str): (r: Result<Tree>)
    ensures r.Ok? ==> Valid(r.value) && r.value.hash == []
  {
    ParseLines(NewTree(), Split(data, '\n'))
  }

  /** `DeserializeTree`: with a NUL byte, the text before the first one must
      start with `tree ` (the size is never read) and the rest is parsed;
      without one, the whole input is parsed as content. */
  function DeserializeTree(data: Str): (r: Result<Tree>)
    ensures '\0' !in data ==> r == ParseTreeContent(data)
    ensures '\0' in data && !HasPrefix(data[..IndexOf(data, '\0')], "tree ") ==> r == Err(NotATree)
    ensures '\0' in data && HasPrefix(data[..IndexOf(data, '\0')], "tree ") ==>
      r == ParseTreeContent(data[IndexOf(data, '\0') + 1..])
  {
    var nul := IndexOf(data, '\0');
    if nul < 0 then ParseTreeContent(data)
    else if !HasPrefix(data[..nul], "tree ") then Err(NotATree)
    else ParseTreeContent(data[nul + 1..])
  }

  /** What the round trip needs of an entry: a name without newline that
      does not end in a carriage return, a non-empty hash without white
      space, and a line short enough for the scanner. */
  predicate WellFormed(e: Entry) {
    && '\n' !in e.name
    && (|e.name| == 0 || e.name[|e.name| - 1] != '\r')
    && |e.hash| >= 1 && NoSpace(e.hash)
    && |LineText(e)| < MaxScanTokenSize
  }

  lemma MetaNoTab(e: Entry)
    requires |e.hash| >= 1 && NoSpace(e.hash)
    ensures '\t' !in Meta(e) && '\n' !in Meta(e)
    ensures Fields3(Meta(e)) == Some((ModeOf(e.kind), KindName(e.kind), e.hash))
  {
    KindRoundTrip(e.kind);
    Fields3Of(ModeOf(e.kind), KindName(e.kind), e.hash);
    NoSpaceJoined(ModeOf(e.kind), KindName(e.kind), e.hash);
  }

  lemma TabSplit(meta: Str, name: Str)
    requires '\t' !in meta
    ensures IndexOf(meta + "\t" + name, '\t') == |meta|
    ensures (meta + "\t" + name)[..|meta|] == meta && (meta + "\t" + name)[|meta| + 1..] == name
  {
    var h := meta + "\t";
    assert h[..|h| - 1] == meta;
    IndexOfPrefix(h, name, '\t');
    assert (h + name)[..|meta|] == meta;
    assert (h + name)[|h|..] == name;
  }

  /** How `ParseEntry` succeeds, stated on the pieces of a line. */
  lemma ParseEntryOf(line: Str, meta: Str, name: Str, mode: Str, kind: Kind, hash: Str)
    requires IndexOf(line, '\t') == |meta| && line[..|meta|] == meta && line[|meta| + 1..] == name
    requires Fields3(meta) == Some((mode, KindName(kind), hash)) && IsValidMode(mode)
    ensures ParseEntry(line) == Ok(Entry(name, hash, kind))
  {
    assert ParseKind(KindName(kind)) == Some(kind) by { KindRoundTrip(kind); }
  }

  lemma LineNoCR(e: Entry)
    requires |e.name| == 0 || e.name[|e.name| - 1] != '\r'
    ensures DropCR(LineText(e)) == LineText(e)
  {
    var line := LineText(e);
    assert line == Meta(e) + ("\t" + e.name);
    if |e.name| > 0 {
      assert line[|line| - 1] == e.name[|e.name| - 1];
    } else {
      assert line[|line| - 1] == '\t';
    }
  }

  /** A serialized entry line parses back to the entry. */
  lemma ParseEntryLine(e: Entry)
    requires WellFormed(e)
    ensures DropCR(LineText(e)) == LineText(e)
    ensures ParseEntry(LineText(e)) == Ok(e)
    ensures '\n' !in LineText(e) && |LineText(e)| > 0
  {
    LineNoCR(e);
    MetaNoTab(e);
    TabSplit(Meta(e), e.name);
    KindRoundTrip(e.kind);
    ParseEntryOf(LineText(e), Meta(e), e.name, ModeOf(e.kind), e.kind, e.hash);
  }

  /** Parsing the serialized lines of entries adds exactly those entries,
      in order, and then goes on with the lines after them. */
  lemma {:induction false} ParseLinesOf(t: Tree, es: seq<Entry>, more: seq<Str>)
    requires Valid(t)
    requires forall i | 0 <= i < |es| :: WellFormed(es[i])
    ensures ParseLines(t, LineTexts(es) + more) == ParseLines(AddAll(t, es), more)
    decreases |es|
  {
    var lines := LineTexts(es) + more;
    if |es| == 0 {
      assert lines == more;
    } else {
      var e := es[0];
      assert lines == [LineText(e)] + (LineTexts(es[1..]) + more) by {
        ConcatAssoc([LineText(e)], LineTexts(es[1..]), more);
      }
      assert lines[1..] == LineTexts(es[1..]) + more;
      ParseEntryLine(e);
      var u := AddEntry(t, e.name, e.hash, e.kind);
      assert forall i | 0 <= i < |es[1..]| :: WellFormed(es[1..][i]) by {
        forall i | 0 <= i < |es[1..]| ensures WellFormed(es[1..][i]) { assert es[1..][i] == es[i + 1]; }
      }
      ParseLinesOf(u, es[1..], more);
      assert WellFormed(e) && lines[0] == LineText(e);
      assert ParseLines(t, lines) == ParseLines(u, lines[1..]);
      assert AddAll(t, es) == AddAll(u, es[1..]);
      assert ParseLines(t, lines) == ParseLines(AddAll(t, es), more);
    }
  }

  /** A line too long for the scanner ends the parse without an error: the
      tree holds the entries of the lines before it, and nothing after it
      is looked at, however malformed. */
  lemma LongLineTruncates(es: seq<Entry>, long: Str, more: seq<Str>)
    requires forall i | 0 <= i < |es| :: WellFormed(es[i])
    requires |long| >= MaxScanTokenSize
    ensures ParseLines(NewTree(), LineTexts(es) + ([long] + more)) == Ok(AddAll(NewTree(), es))
  {
    ParseLinesOf(NewTree(), es, [long] + more);
  }

  /** An entry line ends with the entry's name, and has no newline when
      neither the name nor the hash has one. */
  lemma LineEnd(e: Entry)
    requires '\n' !in e.name && |e.hash| >= 1 && NoSpace(e.hash)
    ensures '\n' !in LineText(e)
    ensures |e.name| > 0 ==> LineText(e)[|LineText(e)| - 1] == e.name[|e.name| - 1]
  {
    var m, tail := Meta(e), "\t" + e.name;
    assert '\n' !in m by { MetaNoTab(e); }
    assert '\n' !in tail;
    var line := m + tail;
    assert LineText(e) == line;
    if |e.name| > 0 {
      assert line[|line| - 1] == tail[|tail| - 1] == e.name[|e.name| - 1];
    }
  }

  /** The content splits at its newlines into the entries' lines and a
      last empty piece. */
  lemma ContentLines(t: Tree)
    requires forall i | 0 <= i < |t.entries| :: '\n' !in LineText(t.entries[i])
    ensures Split(SerializeContent(t), '\n') == LineTexts(t.entries) + [[]]
  {
    var lines := LineTexts(t.entries);
    var empty: Str := [];
    assert SerializeContent(t) == Terminated(lines, '\n') + empty;
    SplitTerminated(lines, empty, '\n');
    assert Split(empty, '\n') == [empty];
  }

  /** Trees whose first lines differ have different content. */
  lemma FirstLineDiffers(t1: Tree, t2: Tree)
    requires |t1.entries| >= 1 && |t2.entries| >= 1
    requires forall i | 0 <= i < |t1.entries| :: '\n' !in LineText(t1.entries[i])
    requires forall i | 0 <= i < |t2.entries| :: '\n' !in LineText(t2.entries[i])
    requires LineText(t1.entries[0]) != LineText(t2.entries[0])
    ensures SerializeContent(t1) != SerializeContent(t2)
  {
    ContentLines(t1);
    ContentLines(t2);
    var s1, s2 := LineTexts(t1.entries) + [[]], LineTexts(t2.entries) + [[]];
    assert s1[0] != s2[0];
  }

  /** The content parses back to a tree with the same entries in the same
      order, for well-formed entries with unique names. */
  lemma ParseSerializedContent(t: Tree)
    requires Valid(t)
    requires forall i | 0 <= i < |t.entries| :: WellFormed(t.entries[i])
    ensures ParseTreeContent(SerializeContent(t)).Ok?
    ensures ParseTreeContent(SerializeContent(t)).value.entries == t.entries
  {
    forall i | 0 <= i < |t.entries| ensures '\n' !in LineText(t.entries[i]) {
      ParseEntryLine(t.entries[i]);
    }
    ContentLines(t);
    ParseLinesOf(NewTree(), t.entries, [[]]);
    AddAllFresh(NewTree(), t.entries);
    assert NewTree().entries + t.entries == t.entries;
  }

  /** Round trip: deserializing what `Serialize` wrote gives the same
      entries in the same order. */
  lemma DeserializeSerialize(t: Tree)
    requires Valid(t)
    requires forall i | 0 <= i < |t.entries| :: WellFormed(t.entries[i])
    ensures DeserializeTree(Serialize(t)).Ok?
    ensures DeserializeTree(Serialize(t)).value.entries == t.entries
  {
    ParseSerializedContent(t);
  }

  /** Content without the header is accepted too, when it holds no NUL. */
  lemma DeserializeHeaderless(t: Tree)
    requires Valid(t)
    requires forall i | 0 <= i < |t.entries| :: WellFormed(t.entries[i])
    requires '\0' !in SerializeContent(t)
    ensures DeserializeTree(SerializeContent(t)).Ok?
    ensures DeserializeTree(SerializeContent(t)).value.entries == t.entries
  {
    ParseSerializedContent(t);
  }

  /** Mode and kind are checked separately: the kind comes from the kind
      word alone, whichever accepted mode stands before it (so
      `040000 blob` is read as a blob), and any other mode word is refused. */
  lemma ModeAndKindIndependent(line: Str, mode: Str, kind: Kind, hash: Str, name: Str)
    requires |mode| >= 1 && NoSpace(mode)
    requires |hash| >= 1 && NoSpace(hash)
    requires line == mode + " " + KindName(kind) + " " + hash + "\t" + name
    ensures ParseEntry(line) == if IsValidMode(mode) then Ok(Entry(name, hash, kind)) else Err(BadMode)
  {
    var meta := mode + " " + KindName(kind) + " " + hash;
    MetaWords(meta, mode, kind, hash);
    ParseMetaLine(line, meta, name, mode, kind, hash);
  }

  lemma MetaWords(meta: Str, mode: Str, kind: Kind, hash: Str)
    requires |mode| >= 1 && NoSpace(mode)
    requires |hash| >= 1 && NoSpace(hash)
    requires meta == mode + " " + KindName(kind) + " " + hash
    ensures '\t' !in meta && Fields3(meta) == Some((mode, KindName(kind), hash))
  {
    KindRoundTrip(kind);
    Fields3Of(mode, KindName(kind), hash);
    NoSpaceJoined(mode, KindName(kind), hash);
  }

  /** A line whose metadata splits into a mode, a kind word and a hash. */
  lemma ParseMetaLine(line: Str, meta: Str, name: Str, mode: Str, kind: Kind, hash: Str)
    requires line == meta + "\t" + name && '\t' !in meta
    requires Fields3(meta) == Some((mode, KindName(kind), hash))
    ensures ParseEntry(line) == if IsValidMode(mode) then Ok(Entry(name, hash, kind)) else Err(BadMode)
  {
    TabSplit(meta, name);
    KindRoundTrip(kind);
  }
}

=== FILE: wrappers.dfy ===
/** Failure-carrying datatypes shared by every module of the model, and the
    closed set of errors the modelled Go code can produce. */
module Wrappers {

  datatype Option<+T> = None | Some(value: T)

  /** Why an operation failed. Each variant corresponds to one family of
      `fmt.Errorf` results in the Go code (or to a runtime panic). */
  datatype Error =
    // object codecs
    | MissingNul              // no NUL byte between header and content
    | BadBlobHeader           // header does not scan as "blob %d"
    | SizeMismatch(expected: int, actual: int)
    | NotATree                // header does not start with "tree "
    | BadTreeEntry            // entry line without a tab
    | BadTreeMeta             // entry metadata does not scan as "%s %s %s"
    | BadMode                 // mode other than 100644 / 040000
    | BadKind                 // kind other than blob / tree
    | MissingLessThan         // signature without " <"
    | MissingGreaterThan      // signature without "> "
    | BadTimeFormat           // no space after the timestamp
    | BadTimestamp            // timestamp is not a 64-bit decimal integer
    | BadObjectHeader         // cat-file: header without a space
    | UnknownObjectType       // cat-file: type other than blob / tree / commit
    // files
    | NotFound                // a file (object, ref, index, HEAD) does not exist
    | Unreadable              // a file exists but cannot be read or written
    | Corrupt                 // a file's structured content cannot be parsed
    | NotARepository          // no ancestor holds a .notgit directory
    // commands
    | NestedBranchName        // branch name contains '/'
    | SelfMerge               // merging the current branch into itself
    | NoSuchBranch            // target branch ref does not exist
    | NoSuchBranchUseCreate   // switch to a missing branch without -c
    | EmptyBranch             // branch ref holds no commit hash
    | Diverged                // current commit is not an ancestor of the target
    | InvalidHead             // HEAD is not of the form "ref: <path>"
    | IdentityNotSet          // user.name or user.email missing
    | HashTooShort            // cat-file: fewer than 4 characters
    | HashNotFortyChars       // cat-file: not 40 characters
    | ConflictingFlags        // cat-file: more than one of -p, -t, -s
    | InvalidKey              // config key without '.'
    | ReservedSection         // config section DEFAULT
    | UnsupportedSection
    | UnsupportedKey
    // not errors of the Go code, but outcomes the model must name
    | Panic                   // a Go runtime panic (index or slice out of range)
    | Exhausted               // the fuel bounding a walk ran out

  datatype Result<+T> = Ok(value: T) | Err(error: Error) {
    predicate IsFailure() { Err? }

    function PropagateFailure<U>(): Result<U>
      requires Err?
    {
      Err(error)
    }

    function Extract(): T
      requires Ok?
    {
      value
    }
  }
}
